=== FILE: README.md ===
# TextUtility core, modelled in Dafny

This project models the three text-processing cmdlets of the PowerShell
TextUtility module and proves properties of the model.

- **Edit-Content** (`src/code/EditContentCommand.cs`) replaces regular
  expression matches in files in place. The model covers:
  - pairing `-Pattern` with `-Replacement`, and applying the pairs in order;
  - the directory test;
  - the choice between whole-content, memory-backed and file-backed editing,
    including the memory stream's capacity;
  - the line-by-line rewrite and its newline policy;
  - the `FileData` probe: length, trailing newline and the UTF-8 byte order
    mark;
  - the `-Encoding` argument transformation, its name table and its tab
    completion.

  The regular expression engine and the text codecs are parameters
  (`Patterns.Engine`, `EditContent.Codec`). One concrete literal engine
  (`Patterns.LiteralEngine`) is used to show what ordered substitution and
  line mode mean.
- **ConvertFrom-TextTable** (`src/code/TextTableParser.cs`) turns a
  fixed-width text table into objects or JSON lines. The model covers:
  - the streaming pipeline: skipping, empty lines, early analysis after
    `-AnalyzeRowCount` lines, and analysis at the end;
  - the white-space census and the columns it implies;
  - explicit `-ColumnOffset` columns;
  - header names, and numbered property names with `-NoHeader`;
  - cell extraction and trimming;
  - the exception a line too short for a column raises, which stops the
    pipeline.

  A reference definition (`TextTable.Expected`) says in one expression which
  lines are converted with which layout. `TextTable.RunIsExpected` proves
  that the record-by-record state machine computes it.
- **ConvertFrom-Base64 / ConvertTo-Base64** (`src/code/ConvertBase64Command.cs`).
  The model covers:
  - padding a string with `=` to a multiple of four before decoding;
  - base64 itself (`Base64.Encode` and `Base64.Decode`, with the standard
    alphabet of section 4 of RFC 4648);
  - per-record text encoding, and the single encoding of all byte arrays
    at the end of the pipeline;
  - the parameter binder's refusal of an empty string or empty array for
    these mandatory parameters, as an error for that record.

  UTF-8 conversion is a parameter.

Exceptions that the cmdlets let escape, or turn into error records, are
`Failure` values of a `Result`.

## Model

| member | source | states |
|---|---|---|
| Patterns.Compile | src/code/EditContentCommand.cs:84-100 | Compiling fails exactly when the arrays differ in length, or when `-SimpleMatch` is absent and some pattern is not a regular expression. A length mismatch is reported with both lengths, ahead of any pattern. A bad pattern is reported with its position and text, and every pattern before it parses. Otherwise rule `i` pairs pattern `i` with replacement `i`. Every rule uses the shared `-SimpleMatch` flag, and ignores case exactly when `-CaseSensitive` is absent. |
| Patterns.FirstBadPatternReported | src/code/EditContentCommand.cs:94-100 | The first pattern that does not parse stops compilation, unless `-SimpleMatch` escapes every pattern into a literal. |
| Patterns.ApplyAllAppend | src/code/EditContentCommand.cs:224-227 | Applying a list of rules is applying its first part and then its second part to the result: each substitution sees the output of the previous one. |
| Patterns.ApplyRules | src/code/EditContentCommand.cs:293-296 | The replacement loop leaves the text unchanged for no rules. Otherwise the result is the last rule applied to the output of all the earlier ones. |
| Patterns.OrderedSubstitution | src/code/EditContentCommand.cs:224-227 | With `A→B` followed by `B→C`, the text `A` becomes `C`: the order of the pairs matters. |
| Patterns.LiteralReplaceAbsent | src/code/EditContentCommand.cs:226 | A literal pattern that occurs nowhere in the text leaves the text unchanged. |
| EditContent.DirectoryTestExact | src/code/EditContentCommand.cs:151 | The directory test accepts exactly the attribute sets 0 and `Directory`. A directory that is also read-only or hidden passes as a file. |
| EditContent.ChooseStrategy | src/code/EditContentCommand.cs:166-179 | `-SingleString` edits the whole content. Otherwise files shorter than 84000 bytes (85000 − 1000) are edited in a memory buffer, whose capacity is at least the file length, and longer files through a temporary file. |
| EditContent.StrategyBoundary | src/code/EditContentCommand.cs:170-178 | At 83999 bytes the buffer has capacity 100000. At 84000 bytes the temporary file is used. Below 68000 bytes the capacity is the length itself. |
| EditContent.MemoryCapacity | src/code/EditContentCommand.cs:263-270 | From 68000 bytes (80% of 85000) the capacity is the least power of ten not below the length. Below that it is the length, but never less than 10. |
| EditContent.PowerOfTenAtLeastIsLeast | src/code/EditContentCommand.cs:265 | The rounded-up capacity is no larger than any power of ten that holds the file. |
| EditContent.EditAsSingleString | src/code/EditContentCommand.cs:214-235 | The whole file is decoded with the write encoding (`-Encoding`, else the probed one). The read throws, and no bytes are written, exactly when that encoding is the probe's strict UTF-8 and the bytes are not well-formed UTF-8. Otherwise every rule is applied in order, and the output is that encoding's preamble followed by the encoded text. |
| EditContent.EditFileByLineImpl | src/code/EditContentCommand.cs:279-317 | The new content is the write encoding's preamble, then the rewritten lines joined by the newline, then a final newline exactly when the source ended with one. Lines are read with the reader's default encoding. |
| EditContent.EditFile | src/code/EditContentCommand.cs:165-179 | The edit uses the chosen strategy. Whole-content editing and line editing produce their respective outputs, and line editing always produces one. |
| EditContent.BufferedStrategiesAgree | src/code/EditContentCommand.cs:237-277 | Memory-backed and file-backed editing write the same bytes: the buffer's kind does not enter the result. |
| EditContent.BomPreserved | src/code/EditContentCommand.cs:385-406 | A file that starts with the UTF-8 byte order mark keeps it when no `-Encoding` is given. |
| EditContent.NoBomAdded | src/code/EditContentCommand.cs:385-413 | A UTF-8 file without the byte order mark is rewritten as UTF-8 with no preamble. With `-SingleString` it is rewritten exactly when its bytes are well-formed UTF-8. |
| EditContent.ExplicitEncodingWins | src/code/EditContentCommand.cs:220 | With `-Encoding`, the output is that encoding's preamble and that encoding's bytes of the edited text, whatever was probed. Only a strict UTF-8 encoding given through `-Encoding` can make the whole-content read fail. |
| EditContent.ProcessPath | src/code/EditContentCommand.cs:145-211 | A path is reported as a directory exactly when the directory test holds. It is left alone exactly when it is a file the user declined. It gets a `FileError` record, and keeps its bytes, exactly when the approved edit throws, which happens only with `-SingleString`. Otherwise it is edited as `EditFile` says. |
| EditContent.MalformedUtf8LeavesFileAlone | src/code/EditContentCommand.cs:164-222 | With `-SingleString` and no `-Encoding`, a file without a byte order mark whose bytes are not well-formed UTF-8 ends in a `FileError` record. With `-Encoding utf8` the same file is rewritten. |
| EditContent.Run | src/code/EditContentCommand.cs:82-212 | The command fails before touching any path exactly when the arrays differ in length or, without `-SimpleMatch`, a pattern is not a regular expression. The error is the one compilation reports. Otherwise each path gets its own outcome, in order. |
| EditContent.NewlineQuirkAddsNewline | src/code/EditContentCommand.cs:372 | The bytes `a\nb` are rewritten in line mode as the text `a\nb\n`: the newline before the last byte counts as a trailing newline. |
| LineRewrite.RewriteLines | src/code/EditContentCommand.cs:287-307 | Holding back the previous line and writing it with `WriteLine` yields the transformed lines joined by the newline. The last line is followed by a newline exactly when the file ended with one. |
| LineRewrite.ReadLines | src/code/EditContentCommand.cs:289 | `ReadLine` gives lines without line breaks, and at least one line exactly when the text is not empty. |
| LineRewrite.ReadLinesRebuild | src/code/EditContentCommand.cs:289 | The lines, each followed by its terminator, make up the text. Every terminator is LF, CR or CR LF, except that a last non-empty line may have none. A CR is never split from the LF after it. |
| LineRewrite.LineModeNewlinePolicy | src/code/EditContentCommand.cs:299-307 | A source that ends with a newline gives output that ends with the newline. Otherwise the output ends with the last transformed line. With no lines, the output is at most the newline. |
| LineRewrite.NoMatchReproducesLfText | src/code/EditContentCommand.cs:284-307 | For LF-only text whose lines no rule changes, and whose trailing newline was probed correctly, line mode reproduces the text exactly. |
| LineRewrite.LineBreakPatternNeverMatchesLineMode | src/code/EditContentCommand.cs:289-296 | A literal pattern containing a line feed never matches in line mode, so LF-only text comes back unchanged. |
| LineRewrite.CrossLinePatternOnlyMatchesWholeText | src/code/EditContentCommand.cs:166-168 | `foo\nbar` is replaced with `-SingleString` but left alone line by line. |
| FileProbe.EndsWithNewline | src/code/EditContentCommand.cs:365-380 | For two or more bytes, a newline or carriage return in either of the last two bytes counts. For one byte, that byte must be one. An empty file does not end with a newline. |
| FileProbe.Probe | src/code/EditContentCommand.cs:345-413 | The probe records the length and the trailing-newline test. Detected UTF-8 keeps the BOM encoding exactly when the file starts with `EF BB BF`, and otherwise falls back to strict UTF-8 without BOM. Any other detected encoding is kept for files of two or more bytes, and replaced by strict UTF-8 without BOM for shorter files. |
| FileProbe.NewlineBeforeLastByteQuirk | src/code/EditContentCommand.cs:372 | A file whose second-to-last byte is a newline and whose last byte is not is still recorded as ending with a newline. |
| FileProbe.BomKeptWhenPresent | src/code/EditContentCommand.cs:395-405 | When the file starts with the byte order mark, the probed encoding's preamble is exactly those three bytes. |
| FileProbe.NoBomWhenAbsent | src/code/EditContentCommand.cs:387-405 | When detected UTF-8 has no byte order mark in the file, the probed encoding is the strict UTF-8 encoding, with an empty preamble. |
| FileProbe.EmptyFileProbe | src/code/EditContentCommand.cs:374-413 | An empty file is probed as length 0, strict UTF-8 without BOM, and no trailing newline. |
| Encodings.Find | src/code/EditContentCommand.cs:514 | A table lookup fails exactly when no name matches ignoring case. Otherwise it returns the encoding of the first matching entry. |
| Encodings.Lookup | src/code/EditContentCommand.cs:514-531 | A name resolves exactly when it matches, ignoring case, one of the thirteen names of the encoding table. |
| Encodings.LookupIgnoresCase | src/code/EditContentCommand.cs:514 | Names that differ only in ASCII letter case resolve to the same encoding. |
| Encodings.Utf8NameResolves | src/code/EditContentCommand.cs:525 | `utf8` means UTF-8 without a byte order mark. |
| Encodings.Utf8NoBomNameResolves | src/code/EditContentCommand.cs:527 | `utf8NoBOM` means UTF-8 without a byte order mark. |
| Encodings.Utf8BomNameResolves | src/code/EditContentCommand.cs:526 | `utf8BOM` means UTF-8 with a byte order mark. |
| Encodings.UnicodeNameResolves | src/code/EditContentCommand.cs:521 | `unicode` means little-endian UTF-16. |
| Encodings.StringNameResolves | src/code/EditContentCommand.cs:529 | `string` means little-endian UTF-16. |
| Encodings.UnknownNameResolves | src/code/EditContentCommand.cs:530 | `unknown` means little-endian UTF-16. |
| Encodings.OemNameResolves | src/code/EditContentCommand.cs:520 | `oem` means the platform's OEM encoding. |
| Encodings.OemEncoding | src/code/EditContentCommand.cs:577-591 | The OEM encoding is UTF-8 without BOM on Unix. On Windows it is the encoding the platform returns for the OEM code page, preamble included. |
| Encodings.IanaUtf8NameNotInTable | src/code/EditContentCommand.cs:496-531 | `utf-8` is not in the table and falls through to the platform's lookup by name. |
| Encodings.Transform | src/code/EditContentCommand.cs:436-454 | A name in the table is converted from the table, whatever the platform provider says. Any other name is converted to the provider's encoding for that name, and fails as an unknown name when the provider has none. A code page is converted to the provider's encoding for it, and fails as an unknown code page when there is none. An `Encoding` object passes through unchanged. |
| Encodings.TableNamesIgnoreProvider | src/code/EditContentCommand.cs:440-443 | A table name never reaches the platform provider. |
| Encodings.Utf8ArgumentsResolve | src/code/EditContentCommand.cs:440-443 | `-Encoding utf8BOM` and `-Encoding utf8`, in any letter case, give UTF-8 with and without a byte order mark. |
| Encodings.CompleteArgument | src/code/EditContentCommand.cs:480-491 | Completion offers exactly those of the ten encoding names that start with the word, ignoring case. A blank word offers all ten, in order. |
| Encodings.CompletionsInOrder | src/code/EditContentCommand.cs:484-489 | The offered names are the matching names of the completion list, each once, in list order: each sits at a strictly later position of the list than the one before. |
| Encodings.KeepSelects | src/code/EditContentCommand.cs:484-489 | Filtering a list keeps exactly the accepted entries, at strictly increasing positions, in their order. |
| Encodings.CompletionsResolve | src/code/EditContentCommand.cs:466-477 | Every completion offered is a name of the encoding table. |
| Encodings.CompleteUtf | src/code/EditContentCommand.cs:482-490 | Completing `utf` offers utf7, utf8, utf8BOM, utf8NoBOM and utf32, in that order. |
| TextTable.RunIsExpected | src/code/TextTableParser.cs:91-153 | The record-by-record pipeline equals the reference definition, which works as follows. Empty lines are dropped and the first `-Skip` non-empty lines are skipped. The layout is worked out from the first `-AnalyzeRowCount`+1 kept lines if there are that many, otherwise from all of them. Then every remaining line is converted in order until the first exception. |
| TextTable.StepKeepsInvariant | src/code/TextTableParser.cs:98-139 | One input line keeps the pipeline's state in step with the reference definition for the input read so far. |
| TextTable.FeedKeepsInvariant | src/code/TextTableParser.cs:91-140 | After any input, the collected lines, the counter and the outputs match the reference definition. |
| TextTable.EachDataLineOnce | src/code/TextTableParser.cs:125-152 | Without an exception, every kept line except the header is converted exactly once, in order. With `-NoHeader`, output `i` is kept line `i` converted with the layout. Otherwise the header line lies among the kept lines, and output `i` is line `i` of the kept lines with the header removed. |
| TextTable.AnalyzeAllByDefault | src/code/TextTableParser.cs:113-116 | With `-AnalyzeRowCount 0`, the layout is worked out from all kept lines. |
| TextTable.EarlyLayoutIgnoresLaterLines | src/code/TextTableParser.cs:128-131 | Once more than `-AnalyzeRowCount` lines are kept, lines that arrive later do not change the layout. |
| TextTable.EmitAllContract | src/code/TextTableParser.cs:132-135 | Emitting a run of lines outputs each line's conversion in order. An exception stops the run and names the first line that did not convert. |
| TextTable.HaltAppend | src/code/TextTableParser.cs:119-135 | Emitting two runs in turn is emitting them together: an exception in the first run stops the second. |
| TableConvert.EmitContract | src/code/TextTableParser.cs:155-174 | Without a layout every line gives the "No column info" error record. With a layout, a JSON line is written exactly when every column fits the line and has a header. An object additionally needs every header name to be non-empty and unlike the earlier ones, ignoring case. A misfit column's exception comes first, then the first bad property name's. Objects hold one property per column, named by its header and holding the trimmed cell. |
| TableConvert.RemoveAt | src/code/TextTableParser.cs:207 | Removing the header line keeps all other lines in order. |
| TableConvert.AnalyzeLinesContract | src/code/TextTableParser.cs:179-209 | No lines give no layout. With `-NoHeader` every line is data and the columns are numbered. Otherwise analysis succeeds exactly when `-HeaderLine` names a collected line that every column fits; its cells name the columns and only that line is removed. |
| TableConvert.HeaderFitsAutoColumns | src/code/TextTableParser.cs:185-206 | When the header is one of the longest lines, the columns the census implies all fit it, so analysis succeeds. |
| TableColumns.MaxLength | src/code/TextTableParser.cs:358-369 | The maximum length bounds every line and is attained by one, or is 0 for no lines. |
| TableColumns.GetMaxLength | src/code/TextTableParser.cs:358-369 | The loop computes the longest line's length. |
| TableColumns.SpaceArray | src/code/TextTableParser.cs:376-396 | The census has one entry per position up to the longest line. Each entry counts the lines with white space there, and equals the number of lines exactly when every line has white space at that position. A line too short for a position does not count. |
| TableColumns.SpaceCountFull | src/code/TextTableParser.cs:385-394 | A position's count equals the number of lines exactly when every line has white space there. |
| TableColumns.AnalyzeColumns | src/code/TextTableParser.cs:376-396 | The nested loops compute the census. |
| TableColumns.SpaceRepresentation | src/code/TextTableParser.cs:211-226 | The representation marks `S` exactly at the positions whose count equals the line count, and a space elsewhere. |
| TableColumns.SpaceRepresentationMarksSharedSpace | src/code/TextTableParser.cs:186 | A position is marked `S` exactly when every analysed line has white space there. |
| TableColumns.ColumnsTile | src/code/TextTableParser.cs:419-451 | The census columns start at position 0 and follow one another without gap. Only the last has length −1, meaning "to the end of the line". Each is a maximal run of shared white space followed by a maximal run of other positions. |
| TableColumns.GetColumnList | src/code/TextTableParser.cs:419-451 | The scanning loop computes those columns. |
| TableColumns.ReadColumn | src/code/TextTableParser.cs:423-447 | One turn of the scanning loop yields the column starting at the current position and the position after it. |
| TableColumns.OffsetColumns | src/code/TextTableParser.cs:398-416 | There is one column per offset, starting at it. Each column is as long as the distance to the next offset, and the last runs to the end of the line. |
| TableColumns.OffsetColumnsPositive | src/code/TextTableParser.cs:406 | Increasing offsets give columns of positive length. |
| TableColumns.OffsetsOutOfOrder | src/code/TextTableParser.cs:406 | Offsets out of order give negative lengths: −3 for `5, 2`. One of −1 is then read as "to the end of the line". |
| TableCells.CellText | src/code/TextTableParser.cs:273-280 | A cell is the line's text from the column start for the column's length, or to the end for length −1. Cutting fails with the exception exactly when the column does not fit the line. |
| TableCells.ColumnValues | src/code/TextTableParser.cs:321-339 | A line's values exist exactly when every column fits it. Value `i` is cell `i` trimmed of white space. |
| TableCells.FirstMisfitReported | src/code/TextTableParser.cs:324-334 | The exception raised for a line is the one of its first column that does not fit. |
| TableCells.CellsTileLine | src/code/TextTableParser.cs:419-451 | Every census column fits a line as long as the census, and the cells concatenate back to the line. |
| TableCells.HeaderNames | src/code/TextTableParser.cs:341-356 | Header names exist exactly when every column fits the header line. Name `i` is cell `i` trimmed, with spaces replaced by underscores, and names hold no spaces and no white space at either end. |
| TableCells.Underscored | src/code/TextTableParser.cs:348-352 | Replacing spaces by underscores keeps the length and changes only the spaces. |
| TableCells.HeaderExample | src/code/TextTableParser.cs:341-356 | The header `Process Name` over one column gives the property `Process_Name`. |
| TableCells.PropertyName | src/code/TextTableParser.cs:201 | `Property_` is followed by at least two digits whose value is the column number counted from one. |
| TableCells.PropertyNameExamples | src/code/TextTableParser.cs:201 | Columns 1 and 10 are named `Property_01` and `Property_10`. |
| TableCells.PropertyNamesDistinct | src/code/TextTableParser.cs:198-202 | Numbered property names never collide. |
| TableCells.PropertyNames | src/code/TextTableParser.cs:196-203 | With `-NoHeader` there is one numbered name per column. |
| TableCells.GetPsObject | src/code/TextTableParser.cs:228-245 | An object exists exactly when the line's values exist and every column has a header that is non-empty and differs, ignoring case, from every earlier one. The failure is the cut's exception, else the first column's missing, empty or repeated header. Property `i` pairs header `i` with value `i`. |
| TableCells.ObjectNamesDistinct | src/code/TextTableParser.cs:240-243 | The properties of an object have non-empty names, no two alike ignoring case. |
| TableCells.BlankHeaderStopsObjects | src/code/TextTableParser.cs:242 | A column whose header cell is blank stops the conversion of a line with an empty-name error. |
| TableCells.RepeatedHeaderStopsObjects | src/code/TextTableParser.cs:242 | Two headers alike ignoring case stop the conversion of a line at the second one. |
| TableCells.GetJson | src/code/TextTableParser.cs:247-264 | The JSON text exists exactly when the line's values exist and every column has a header. It is `{ `, then the `"header": "escaped value"` members joined by `, `, then ` }`. |
| TableCells.TwoColumnJson | src/code/TextTableParser.cs:247-264 | A two-column line gives `{ "h0": "a", "h1": "b" }` with each value escaped. |
| ConvertBase64.Pad | src/code/ConvertBase64Command.cs:29-32 | Padding appends the fewest `=` (at most three) that make the length a multiple of four, and leaves the string's own characters alone. |
| ConvertBase64.PadToQuad | src/code/ConvertBase64Command.cs:29-32 | The padding loop ends with a multiple of four that starts with the input. |
| ConvertBase64.ConvertFrom | src/code/ConvertBase64Command.cs:18-43 | The empty string is refused by the binder, because the mandatory `EncodedText` does not allow it. Any other text fails exactly when its padded form is not valid base64. Otherwise the result is the bytes with `-AsByteArray`, or their UTF-8 text without it. |
| ConvertBase64.StrippedPaddingRestored | src/code/ConvertBase64Command.cs:29-33 | Base64 whose `=` padding was removed decodes to the original bytes once the loop pads it again. |
| ConvertBase64.OneOverQuadFails | src/code/ConvertBase64Command.cs:29-33 | Text one character past a multiple of four still fails after padding, because padding cannot supply three of a quantum's four characters. |
| ConvertBase64.AlignedInputUnchanged | src/code/ConvertBase64Command.cs:18-33 | Non-empty text whose length is a multiple of four is decoded as given. |
| ConvertBase64.ConvertTo | src/code/ConvertBase64Command.cs:53-95 | Each text record gives one entry in order: the binder's error for the empty string, otherwise a base64 string that decodes to the record's UTF-8 bytes. In the byte-array set, each empty array gives an error. If any byte arrived, one string follows at the end, and it decodes to all of them concatenated. |
| ConvertBase64.EncodeText | src/code/ConvertBase64Command.cs:53-54 | One text record: an error exactly when it is empty, otherwise an encoding that decodes to its UTF-8 bytes. |
| ConvertBase64.EncodeEach | src/code/ConvertBase64Command.cs:78-82 | One entry per text record, in order: an error exactly for the empty ones, and for the rest an encoding that decodes to the record's bytes. |
| ConvertBase64.EncodeTextRecords | src/code/ConvertBase64Command.cs:78-82 | The per-record loop writes the entries of `EncodeEach` in order. |
| ConvertBase64.BoundArraysMembers | src/code/ConvertBase64Command.cs:59-60 | The arrays that get through the binder are exactly the non-empty ones, with their multiplicities, so one record is refused per empty array. |
| ConvertBase64.BoundArraysConcat | src/code/ConvertBase64Command.cs:59-94 | The bound arrays hold the same bytes, in the same order, as all the arrays. None is bound exactly when there are no bytes. |
| ConvertBase64.CollectArrays | src/code/ConvertBase64Command.cs:85-94 | The arrivals give the concatenation of all arrays, the number bound, and one error record per refused array. |
| ConvertBase64.EncodeAll | src/code/ConvertBase64Command.cs:59-95 | The byte-array set gives one error per empty array. If any byte arrived, a single encoding follows and decodes to the concatenation. |
| ConvertBase64.EncodeByteRecords | src/code/ConvertBase64Command.cs:85-94 | The loop over arrivals writes the binder's errors, collects the rest and encodes them once, giving `EncodeAll`. |
| ConvertBase64.TextRoundTrip | src/code/ConvertBase64Command.cs:18-81 | A non-empty text's encoding, decoded as text, gives the text back when UTF-8 does. The empty text is refused. |
| ConvertBase64.ByteArrayRoundTrip | src/code/ConvertBase64Command.cs:37-93 | The last output for a run of byte arrays, decoded with `-AsByteArray`, gives their concatenation. When the arrays hold no bytes, only errors are written. |
| ConvertBase64.EmptyRecordsRefused | src/code/ConvertBase64Command.cs:18-60 | An empty `EncodedText`, an empty `Text` and an empty `ByteArray` each give the binder's error. No records give no output. |
| Base64.DecodeEncode | src/code/ConvertBase64Command.cs:33-81 | Decoding an encoding gives the bytes back. |
| Base64.EncodePadding | src/code/ConvertBase64Command.cs:81 | An encoding holds `=` only as its last zero, one or two characters: two for a length ≡ 1 mod 3, one for ≡ 2, none otherwise. |
| Base64.EncodeLength | src/code/ConvertBase64Command.cs:81 | An encoding is four characters per started group of three bytes. |
| Base64.Decode | src/code/ConvertBase64Command.cs:33 | A length that is not a multiple of four is rejected. The empty text decodes to no bytes. |
| Base64.BadFinalQuantum | src/code/ConvertBase64Command.cs:33 | A text whose last quantum is malformed is rejected as a whole. |
| Base64.DecodeAcceptsExactly | src/code/ConvertBase64Command.cs:33 | Decoding succeeds exactly on well-formed base64: whole quanta, alphabet characters only, and `=` only as one or two final characters. |
| Base64.EncodeDecode | src/code/ConvertBase64Command.cs:33-81 | A text that decodes, and whose bits cut off by padding are zero, is the encoding of what it decodes to. |

## Left out

- The regular expression engine: `Regex.Replace` is the `Patterns.Engine` parameter. Escaping for `-SimpleMatch` and case-insensitive matching are recorded in `Patterns.Matcher` and left to the engine.
- Text codecs (`StreamReader`, `StreamWriter`, UTF-16/32, UTF-7, code pages): `EditContent.Codec` is a parameter. Only the preamble each encoding writes is fixed, and only the strict UTF-8 decoder can throw, on bytes the `wellFormedUtf8` parameter rejects. That parameter stands for the whole strict read, byte-order-mark detection included: bytes that begin with a mark switch the reader to a lenient decoder and are accepted. Writing never throws: Dafny strings hold no lone surrogates.
- Byte order mark sniffing by `StreamReader`: the detected encoding is the `detected` parameter of `FileProbe.Probe`.
- Files, streams, the temporary file and its deletion, `SetLength` and `CopyTo` are left out. A file is its byte sequence and an edit returns the new bytes.
- Path resolution (`-Path` wildcards, `-LiteralPath`, provider paths) is left out; the model starts from resolved paths. `src/code/PathUtils.cs` is not part of this model.
- `ShouldProcess` is the `approved` flag of a path. `-Force` (`MakeFileWritable`), `-PassThru`, verbose messages and the text of error records are left out, as are the strings built for them in `BeginProcessing`.
- The per-path `try`/`catch`: the only exception modelled is the strict UTF-8 decoder's, which becomes `EditContent.PathOutcome.FileError`. I/O exceptions are not modelled, so the error records they become are not either. `PipelineStoppedException` is left out.
- EditContent.MemoryCapacity: computed with integers, not with `Math.Pow(10, Math.Ceiling(Math.Log10(n)))`. The two agree for the file lengths that reach this code (68000 ≤ n < 84000 gives 100000). The `int` cast is left out for the same reason.
- `ClrFacade` (default and OEM encodings): the default encoding is UTF-8 without BOM. On Windows, `GetOEMCP` and `Encoding.GetEncoding` are not modelled: the encoding they give is carried by the `Platform` parameter.
- The regular expression parser: whether `new Regex` accepts a pattern is the `Patterns.Syntax` parameter.
- `EncodingConversion.WarnIfObsolete` is never called by the command, so it is left out.
- Encodings.CompleteArgument: wildcard matching is modelled only for the `word*` pattern the completer builds, as a case-insensitive prefix test. Wildcard characters inside the word are read literally: `*`, `?`, bracketed sets such as `[ab]` and backtick escapes are not modelled. For example, `[ab]` completes to `ascii`, `bigendianunicode` and `bigendianutf32` in the cmdlet and to nothing in the model.
- Encodings.Find: case-insensitive comparison folds ASCII letters only, which is all the table's names need. Ordinal ignore-case of other characters is not modelled.
- `src/code/GetFileEncodingCommand.cs` is not part of this model.
- TableCells.GetPsObject: `-ConvertPropertyValue` (`TryConvertTo` of int, long, decimal, date and time span) is not modelled, so property values are always the trimmed strings. `-TypeName` is left out because it only adds type names.
- `-MaximumWidth` is left out because the cmdlet never reads it.
- `spaceRepresentation` is computed but never used by the cmdlet; it is modelled (`TableColumns.SpaceRepresentation`) but does not enter the pipeline.
- JSON string escaping (`JsonEncodedText.Encode`) is the `escape` parameter.
- TableCells.GetPsObject: a repeated property name is recognised by folding ASCII letters only, while `PSObject` ignores case for every letter.
- A `null` line in the `-Line` array is treated like an empty string, which the cmdlet also skips.
- `SkippedLines` is a 32-bit counter; its overflow after 2^31 non-empty lines is not modelled.
- `BeginProcessing` setting `-HeaderLine` to −1 with `-NoHeader` is not modelled separately, because `AnalyzeLines` does not consult the header line when `-NoHeader` is set.
- Parameter binding is modelled only as pipeline input, where a refused record gives an error and the pipeline moves on. An empty value given as a command-line argument stops the command before it starts, which is not modelled separately. `$null` records have no counterpart, because Dafny strings cannot be null. In the byte-array set, the model assumes the parameter set is still `ByteArray` at `EndProcessing` once any array has been bound.
- The FormatException from `FromBase64String` stops the pipeline in the cmdlet. `ConvertBase64.ConvertFrom` describes one record and leaves out what happens to later ones.
- `-InsertBreakLines` (a line break every 76 characters) is not modelled, so encodings are single lines.
- Base64.Decode: white space inside the text, which `Convert.FromBase64String` skips, is not modelled. Padding bits that are not zero are accepted, so only texts whose padding bits are zero round-trip through `Base64.EncodeDecode`.
- TableColumns.SpaceArray, TableColumns.OffsetColumns, TableCells.CellText: lengths and positions count Unicode scalar values, while .NET strings count UTF-16 code units. The two agree for text within the Basic Multilingual Plane. A character outside it, such as an emoji, is two code units in the cmdlet and one character in the model, so the census, the column starts, the fit test and the cell cuts of such a line differ.
- UTF-8 conversion (`Encoding.UTF8.GetBytes` and `GetString`) is a parameter. Invalid UTF-8, which .NET replaces with U+FFFD, is not modelled.

=== FILE: base64.dfy ===
/** Base64 as defined in section 4 of RFC 4648: the 64-character alphabet,
    three bytes to four characters, and `=` padding of the final quantum.
    This is the codec behind `Convert.ToBase64String` (without line breaks)
    and `Convert.FromBase64String` on input free of white space. */
module Base64 {
  import opened Wrappers
  import opened Text

  /** Table 1 of RFC 4648: `A`-`Z`, `a`-`z`, `0`-`9`, `+`, `/`. */
  function IndexToChar(i: nat): (c: char)
    requires i < 64
    ensures c != '='
  {
    if i < 26 then ('A' as int + i) as char
    else if i < 52 then ('a' as int + i - 26) as char
    else if i < 62 then ('0' as int + i - 52) as char
    else if i == 62 then '+'
    else '/'
  }

  /** The inverse of the alphabet: `None` for a character outside it,
      including the pad character. */
  function CharToIndex(c: char): (r: Option<nat>)
    ensures r.Some? ==> r.value < 64 && IndexToChar(r.value) == c
    ensures c == '=' ==> r.None?
  {
    if 'A' <= c <= 'Z' then Some(c as int - 'A' as int)
    else if 'a' <= c <= 'z' then Some(c as int - 'a' as int + 26)
    else if '0' <= c <= '9' then Some(c as int - '0' as int + 52)
    else if c == '+' then Some(62)
    else if c == '/' then Some(63)
    else None
  }

  /** Every alphabet character is recognised as the value it encodes. */
  lemma IndexRoundTrip(i: nat)
    requires i < 64
    ensures CharToIndex(IndexToChar(i)) == Some(i)
  {
  }

  /** The four characters of one full 24-bit group. */
  function EncodeGroup(b0: byte, b1: byte, b2: byte): (r: string)
    ensures |r| == 4 && forall i | 0 <= i < 4 :: r[i] != '='
  {
    [IndexToChar(b0 as int / 4),
     IndexToChar(b0 as int % 4 * 16 + b1 as int / 16),
     IndexToChar(b1 as int % 16 * 4 + b2 as int / 64),
     IndexToChar(b2 as int % 64)]
  }

  /** A final quantum of one byte: two characters and two `=`. */
  function EncodeOne(b0: byte): (r: string)
    ensures |r| == 4 && r[0] != '=' && r[1] != '=' && r[2] == '=' && r[3] == '='
  {
    [IndexToChar(b0 as int / 4), IndexToChar(b0 as int % 4 * 16), '=', '=']
  }

  /** A final quantum of two bytes: three characters and one `=`. */
  function EncodeTwo(b0: byte, b1: byte): (r: string)
    ensures |r| == 4 && r[0] != '=' && r[1] != '=' && r[2] != '=' && r[3] == '='
  {
    [IndexToChar(b0 as int / 4), IndexToChar(b0 as int % 4 * 16 + b1 as int / 16),
     IndexToChar(b1 as int % 16 * 4), '=']
  }

  /** The number of `=` the final quantum of `n` bytes carries. */
  function PadCount(n: nat): (k: nat)
    ensures k <= 2
    ensures k == 0 <==> n % 3 == 0
  {
    (3 - n % 3) % 3
  }

  /** Three more bytes need the same padding. */
  lemma PadCountStep(n: nat)
    requires n >= 3
    ensures PadCount(n) == PadCount(n - 3)
  {
    assert n % 3 == (n - 3) % 3;
  }

  /** Encoding: whole quanta of four characters, at least one for any
      bytes at all. */
  function Encode(b: seq<byte>): (r: string)
    ensures |r| % 4 == 0
    ensures |b| > 0 <==> |r| >= 4
    decreases |b|
  {
    if |b| == 0 then ""
    else if |b| == 1 then EncodeOne(b[0])
    else if |b| == 2 then EncodeTwo(b[0], b[1])
    else
      EncodeGroup(b[0], b[1], b[2]) + Encode(b[3..])
  }

  /** The last quantum is padded with `=`, one for each byte it lacks, and
      `=` appears nowhere else. */
  lemma {:induction false} EncodePadding(b: seq<byte>)
    ensures forall i | 0 <= i < |Encode(b)| :: (Encode(b)[i] == '=' <==> i >= |Encode(b)| - PadCount(|b|))
    decreases |b|
  {
    if |b| == 1 || |b| == 2 {
      ShortPadding(b);
    } else if |b| >= 3 {
      var tail := b[3..];
      var g, rest := EncodeGroup(b[0], b[1], b[2]), Encode(tail);
      EncodePadding(tail);
      assert Encode(b) == g + rest;
      PadCountStep(|b|);
      PaddedAfterGroup(g, rest, PadCount(|tail|));
    }
  }

  /** Four characters for every three bytes, counting a short final group
      as a whole one. */
  lemma {:induction false} EncodeLength(b: seq<byte>)
    ensures |Encode(b)| == 4 * ((|b| + 2) / 3)
    decreases |b|
  {
    if |b| >= 3 {
      EncodeLength(b[3..]);
      assert (|b| + 2) / 3 == (|b[3..]| + 2) / 3 + 1;
    }
  }

  /** One or two bytes leave two or one `=` at the end. */
  lemma ShortPadding(b: seq<byte>)
    requires |b| == 1 || |b| == 2
    ensures forall i | 0 <= i < |Encode(b)| :: (Encode(b)[i] == '=' <==> i >= |Encode(b)| - PadCount(|b|))
  {
    var r := Encode(b);
    assert |r| == 4 && r[0] != '=' && r[1] != '=' && r[3] == '=';
    assert r[2] == '=' <==> |b| == 1;
  }

  /** A group free of `=` in front of a padded rest keeps the padding at
      the end. */
  lemma PaddedAfterGroup(g: string, rest: string, k: nat)
    requires |g| == 4 && forall i | 0 <= i < 4 :: g[i] != '='
    requires |rest| == 0 ==> k == 0
    requires |rest| % 4 == 0 && k <= 2
    requires forall i | 0 <= i < |rest| :: (rest[i] == '=' <==> i >= |rest| - k)
    ensures forall i | 0 <= i < |g + rest| :: ((g + rest)[i] == '=' <==> i >= |g + rest| - k)
  {
    forall i | 0 <= i < |g + rest|
      ensures (g + rest)[i] == '=' <==> i >= |g + rest| - k
    {
      if i >= 4 {
        assert (g + rest)[i] == rest[i - 4];
      } else {
        assert (g + rest)[i] == g[i];
      }
    }
  }

  /** Four alphabet characters back to three bytes. */
  function DecodeGroup(q: string): (r: Option<seq<byte>>)
    requires |q| == 4
    ensures r.Some? ==> |r.value| == 3
    ensures r.Some? <==> forall i | 0 <= i < 4 :: CharToIndex(q[i]).Some?
  {
    var c0 :- CharToIndex(q[0]);
    var c1 :- CharToIndex(q[1]);
    var c2 :- CharToIndex(q[2]);
    var c3 :- CharToIndex(q[3]);
    Some([(c0 * 4 + c1 / 16) as byte, (c1 % 16 * 16 + c2 / 4) as byte, (c2 % 4 * 64 + c3) as byte])
  }

  /** The final quantum: `xx==` carries one byte, `xxx=` two, and a quantum
      without padding three. The bits that padding cuts off are not checked. */
  function DecodeFinal(q: string): (r: Option<seq<byte>>)
    requires |q| == 4
    ensures r.Some? ==> |r.value| == 3 - (if q[3] != '=' then 0 else if q[2] == '=' then 2 else 1)
    ensures q[1] == '=' || q[0] == '=' ==> r.None?
  {
    if q[3] == '=' then
      var c0 :- CharToIndex(q[0]);
      var c1 :- CharToIndex(q[1]);
      if q[2] == '=' then
        Some([(c0 * 4 + c1 / 16) as byte])
      else
        var c2 :- CharToIndex(q[2]);
        Some([(c0 * 4 + c1 / 16) as byte, (c1 % 16 * 16 + c2 / 4) as byte])
    else
      DecodeGroup(q)
  }

  function DecodeQuads(s: string): (r: Option<seq<byte>>)
    requires |s| % 4 == 0
    decreases |s|
  {
    if |s| == 0 then Some([])
    else if |s| == 4 then DecodeFinal(s)
    else
      var g :- DecodeGroup(s[..4]);
      var rest :- DecodeQuads(s[4..]);
      Some(g + rest)
  }

  /** Decoding: `None` (a format error) unless the length is a multiple of
      four, every character is in the alphabet, and `=` appears only as the
      padding of the final quantum. */
  function Decode(s: string): (r: Option<seq<byte>>)
    ensures |s| % 4 != 0 ==> r.None?
    ensures |s| == 0 ==> r == Some([])
  {
    if |s| % 4 != 0 then None else DecodeQuads(s)
  }

  /** The bit arithmetic of one group is invertible. */
  lemma GroupRoundTrip(b0: byte, b1: byte, b2: byte)
    ensures DecodeGroup(EncodeGroup(b0, b1, b2)) == Some([b0, b1, b2])
  {
    var x0, x1, x2 := b0 as int, b1 as int, b2 as int;
    var c0, c1, c2, c3 := x0 / 4, x0 % 4 * 16 + x1 / 16, x1 % 16 * 4 + x2 / 64, x2 % 64;
    IndexRoundTrip(c0);
    IndexRoundTrip(c1);
    IndexRoundTrip(c2);
    IndexRoundTrip(c3);
    assert c1 / 16 == x0 % 4 && c1 % 16 == x1 / 16;
    assert c2 / 4 == x1 % 16 && c2 % 4 == x2 / 64;
    assert c0 * 4 + c1 / 16 == x0;
    assert c1 % 16 * 16 + c2 / 4 == x1;
    assert c2 % 4 * 64 + c3 == x2;
  }

  lemma OneByteRoundTrip(b0: byte)
    ensures DecodeFinal(EncodeOne(b0)) == Some([b0])
  {
    var x0 := b0 as int;
    IndexRoundTrip(x0 / 4);
    IndexRoundTrip(x0 % 4 * 16);
    assert (x0 % 4 * 16) / 16 == x0 % 4;
    assert x0 / 4 * 4 + x0 % 4 == x0;
  }

  lemma TwoByteRoundTrip(b0: byte, b1: byte)
    ensures DecodeFinal(EncodeTwo(b0, b1)) == Some([b0, b1])
  {
    var x0, x1 := b0 as int, b1 as int;
    var c1, c2 := x0 % 4 * 16 + x1 / 16, x1 % 16 * 4;
    IndexRoundTrip(x0 / 4);
    IndexRoundTrip(c1);
    IndexRoundTrip(c2);
    assert c1 / 16 == x0 % 4 && c1 % 16 == x1 / 16;
    assert c2 / 4 == x1 % 16;
    assert x0 / 4 * 4 + c1 / 16 == x0;
    assert c1 % 16 * 16 + c2 / 4 == x1;
  }

  /** A full final group decodes as any other group. */
  lemma FullFinalGroup(g: string)
    requires |g| == 4 && g[3] != '='
    ensures Decode(g) == DecodeGroup(g)
  {
  }

  /** A group in front of more groups is decoded on its own. */
  lemma DecodeFront(g: string, rest: string)
    requires |g| == 4 && |rest| > 0 && |rest| % 4 == 0
    ensures Decode(g + rest) == if DecodeGroup(g).None? || Decode(rest).None? then None
      else Some(DecodeGroup(g).value + Decode(rest).value)
  {
    var e := g + rest;
    assert e[..4] == g && e[4..] == rest;
  }

  /** Round trip: decoding an encoding gives the bytes back. */
  lemma {:induction false} DecodeEncode(b: seq<byte>)
    ensures Decode(Encode(b)) == Some(b)
    decreases |b|
  {
    if |b| == 1 {
      OneByteRoundTrip(b[0]);
      assert [b[0]] == b;
    } else if |b| == 2 {
      TwoByteRoundTrip(b[0], b[1]);
      assert [b[0], b[1]] == b;
    } else if |b| >= 3 {
      var g := EncodeGroup(b[0], b[1], b[2]);
      var rest := Encode(b[3..]);
      assert Encode(b) == g + rest;
      GroupRoundTrip(b[0], b[1], b[2]);
      assert [b[0], b[1], b[2]] + b[3..] == b;
      if |b| == 3 {
        assert g + rest == g;
        assert b == [b[0], b[1], b[2]];
        FullFinalGroup(g);
      } else {
        DecodeEncode(b[3..]);
        DecodeFront(g, rest);
      }
    }
  }

  /** A final quantum that decodes fails the whole text when it does not. */
  lemma {:induction false} BadFinalQuantum(s: string)
    requires |s| % 4 == 0 && |s| >= 4
    requires DecodeFinal(s[|s| - 4..]).None?
    ensures Decode(s).None?
    decreases |s|
  {
    if |s| == 4 {
      assert s[|s| - 4..] == s;
    } else {
      var rest := s[4..];
      assert rest[|rest| - 4..] == s[|s| - 4..];
      BadFinalQuantum(rest);
    }
  }

  /** Well-formed base64: whole quanta of alphabet characters, except that
      the last one or two characters may be `=`, and a `=` second from the
      end is followed by another. */
  predicate IsBase64(s: string) {
    && |s| % 4 == 0
    && (forall i | 0 <= i < |s| :: CharToIndex(s[i]).Some? || (s[i] == '=' && i >= |s| - 2))
    && (|s| >= 2 && s[|s| - 2] == '=' ==> s[|s| - 1] == '=')
  }

  /** Decoding accepts exactly the well-formed texts. */
  lemma DecodeAcceptsExactly(s: string)
    ensures Decode(s).Some? <==> IsBase64(s)
  {
    if |s| % 4 == 0 {
      QuadsAcceptExactly(s);
    }
  }

  lemma {:induction false} QuadsAcceptExactly(s: string)
    requires |s| % 4 == 0
    ensures DecodeQuads(s).Some? <==> IsBase64(s)
    decreases |s|
  {
    if |s| == 4 {
      FinalAcceptsExactly(s);
    } else if |s| > 4 {
      QuadsAcceptExactly(s[4..]);
      FrontQuad(s);
    }
  }

  lemma FinalAcceptsExactly(q: string)
    requires |q| == 4
    ensures DecodeFinal(q).Some? <==> IsBase64(q)
  {
    if IsBase64(q) {
      assert CharToIndex(q[0]).Some? && CharToIndex(q[1]).Some?;
    }
    if DecodeFinal(q).Some? {
      assert CharToIndex(q[0]).Some? && CharToIndex(q[1]).Some?;
    }
  }

  /** A text of several quanta is well-formed when its first quantum is four
      alphabet characters and the rest is well-formed. */
  lemma FrontQuad(s: string)
    requires |s| > 4 && |s| % 4 == 0
    ensures IsBase64(s) <==> (forall i | 0 <= i < 4 :: CharToIndex(s[i]).Some?) && IsBase64(s[4..])
  {
    var rest := s[4..];
    assert forall i | 4 <= i < |s| :: s[i] == rest[i - 4];
    if IsBase64(s) {
      assert forall i | 0 <= i < 4 :: CharToIndex(s[i]).Some?;
      assert forall i | 0 <= i < |rest| :: CharToIndex(rest[i]).Some? || (rest[i] == '=' && i >= |rest| - 2) by {
        forall i | 0 <= i < |rest|
          ensures CharToIndex(rest[i]).Some? || (rest[i] == '=' && i >= |rest| - 2)
        {
          assert rest[i] == s[i + 4];
        }
      }
    }
  }

  /** The bits below the last character that padding cuts off are zero, as
      an encoder writes them. */
  predicate PadBitsZero(s: string) {
    && (|s| >= 4 && s[|s| - 1] == '=' && s[|s| - 2] == '=' && CharToIndex(s[|s| - 3]).Some? ==>
          CharToIndex(s[|s| - 3]).value % 16 == 0)
    && (|s| >= 4 && s[|s| - 1] == '=' && s[|s| - 2] != '=' && CharToIndex(s[|s| - 2]).Some? ==>
          CharToIndex(s[|s| - 2]).value % 4 == 0)
  }

  /** The converse round trip: a text that decodes, with zero padding bits,
      is the encoding of what it decodes to. */
  lemma {:induction false} EncodeDecode(s: string)
    requires Decode(s).Some? && PadBitsZero(s)
    ensures Encode(Decode(s).value) == s
    decreases |s|
  {
    if |s| == 4 {
      FinalInverse(s);
    } else if |s| > 4 {
      var q, rest := s[..4], s[4..];
      var g := DecodeGroup(q).value;
      var r := DecodeQuads(rest).value;
      assert Decode(s).value == g + r;
      assert Decode(rest) == DecodeQuads(rest);
      assert rest[|rest| - 1] == s[|s| - 1] && rest[|rest| - 2] == s[|s| - 2] && rest[|rest| - 3] == s[|s| - 3];
      EncodeDecode(rest);
      GroupInverse(q);
      assert (g + r)[3..] == r;
      assert Encode(g + r) == EncodeGroup(g[0], g[1], g[2]) + Encode(r);
      assert s == q + rest;
    }
  }

  /** Four alphabet characters are the encoding of the three bytes they
      decode to. */
  lemma GroupInverse(q: string)
    requires |q| == 4 && DecodeGroup(q).Some?
    ensures var b := DecodeGroup(q).value;
      EncodeGroup(b[0], b[1], b[2]) == q
  {
    var c0, c1, c2, c3 := CharToIndex(q[0]).value, CharToIndex(q[1]).value, CharToIndex(q[2]).value, CharToIndex(q[3]).value;
    var b := DecodeGroup(q).value;
    var x0, x1, x2 := b[0] as int, b[1] as int, b[2] as int;
    assert x0 == c0 * 4 + c1 / 16 && x1 == c1 % 16 * 16 + c2 / 4 && x2 == c2 % 4 * 64 + c3;
    assert x0 / 4 == c0 && x0 % 4 == c1 / 16;
    assert x1 / 16 == c1 % 16 && x1 % 16 == c2 / 4;
    assert x2 / 64 == c2 % 4 && x2 % 64 == c3;
    assert x0 % 4 * 16 + x1 / 16 == c1;
    assert x1 % 16 * 4 + x2 / 64 == c2;
  }

  /** A final quantum with zero padding bits is the encoding of what it
      decodes to. */
  lemma FinalInverse(q: string)
    requires |q| == 4 && DecodeFinal(q).Some? && PadBitsZero(q)
    ensures Encode(DecodeFinal(q).value) == q
  {
    var b := DecodeFinal(q).value;
    if q[3] != '=' {
      GroupInverse(q);
      assert b[3..] == [];
    } else {
      var c0, c1 := CharToIndex(q[0]).value, CharToIndex(q[1]).value;
      var x0 := b[0] as int;
      assert x0 == c0 * 4 + c1 / 16;
      assert x0 / 4 == c0 && x0 % 4 == c1 / 16;
      if q[2] == '=' {
        assert c1 % 16 == 0;
        assert x0 % 4 * 16 == c1;
      } else {
        var c2 := CharToIndex(q[2]).value;
        var x1 := b[1] as int;
        assert x1 == c1 % 16 * 16 + c2 / 4;
        assert x1 / 16 == c1 % 16 && x1 % 16 == c2 / 4;
        assert c2 % 4 == 0;
        assert x0 % 4 * 16 + x1 / 16 == c1;
        assert x1 % 16 * 4 == c2;
      }
    }
  }
}

=== FILE: convert_base64.dfy ===
/** ConvertFrom-Base64 and ConvertTo-Base64 (src/code/ConvertBase64Command.cs):
    the padding loop that repairs input whose length is not a multiple of
    four, the choice between bytes and UTF-8 text on the way out, and the two
    parameter sets of the encoder, one encoding per text record or one
    encoding of all byte records together.

    UTF-8 translation (`Encoding.UTF8.GetBytes` / `GetString`) is a parameter. */
module ConvertBase64 {
  import opened Wrappers
  import opened Text
  import Base64

  /** `s` followed by `k` pad characters. */
  function Padded(s: string, k: nat): (r: string)
    ensures |r| == |s| + k && r[..|s|] == s
    ensures forall i | |s| <= i < |r| :: r[i] == '='
  {
    s + seq(k, _ => '=')
  }

  /** The number of pad characters that brings `n` up to a multiple of four. */
  function Shortfall(n: nat): (k: nat)
    ensures k <= 3 && (n + k) % 4 == 0
  {
    (4 - n % 4) % 4
  }

  /** Each `=` the loop appends brings the length one step closer. */
  lemma ShortfallStep(n: nat)
    requires n % 4 != 0
    ensures Shortfall(n) > 0 && Shortfall(n + 1) == Shortfall(n) - 1
  {
  }

  /** The padding loop of `ConvertFromBase64Command.ProcessRecord`, one `=`
      per round until the length is a multiple of four. */
  function Pad(s: string): (r: string)
    ensures |r| == |s| + Shortfall(|s|)
    ensures r[..|s|] == s
    ensures forall i | |s| <= i < |r| :: r[i] == '='
    ensures |s| % 4 == 0 ==> r == s
    decreases Shortfall(|s|)
  {
    if |s| % 4 == 0 then s
    else
      ShortfallStep(|s|);
      var r := Pad(s + "=");
      assert r[..|s|] == r[..|s| + 1][..|s|];
      r
  }

  /** The loop adds exactly the shortfall, all of it `=`. */
  lemma PadIsPadded(s: string)
    ensures Pad(s) == Padded(s, Shortfall(|s|))
  {
    var r, q := Pad(s), Padded(s, Shortfall(|s|));
    forall i | 0 <= i < |r| ensures r[i] == q[i] {
      if i < |s| {
        assert r[..|s|][i] == q[..|s|][i];
      }
    }
  }

  /** The same loop as a statement sequence over a mutable string. */
  method PadToQuad(s: string) returns (text: string)
    ensures text == Pad(s)
    ensures |text| % 4 == 0 && text[..|s|] == s
  {
    PadIsPadded(s);
    text := s;
    while |text| % 4 != 0
      invariant |s| <= |text| <= |s| + Shortfall(|s|)
      invariant text == Padded(s, |text| - |s|)
      decreases |s| + Shortfall(|s|) - |text|
    {
      assert |text| - |s| < Shortfall(|s|);
      text := text + "=";
      assert text == Padded(s, |text| - |s|);
    }
  }

  /** Why a record yields an error record instead of output. The parameter
      binder refuses an empty string or an empty array for a mandatory
      parameter that carries no `AllowEmptyString` or `AllowEmptyCollection`,
      so `ProcessRecord` never sees that record; `FromBase64String` throws a
      `FormatException` on text that is not base64. */
  datatype RecordError = EmptyArgument | InvalidBase64(input: string)

  /** What ConvertFrom-Base64 writes: the bytes with `-AsByteArray`,
      their UTF-8 reading otherwise. */
  datatype Decoded = AsBytes(bytes: seq<byte>) | AsText(text: string)

  /** ConvertFrom-Base64 for one record: the binder's check of the mandatory
      `EncodedText`, then `ProcessRecord`. */
  function ConvertFrom(encoded: string, asByteArray: bool, utf8GetString: seq<byte> -> string)
    : (r: Result<Decoded, RecordError>)
    ensures r.Failure? <==> (encoded == [] || Base64.Decode(Pad(encoded)).None?)
    ensures r.Failure? ==> r.error == if encoded == [] then EmptyArgument else InvalidBase64(Pad(encoded))
    ensures r.Success? ==> var bytes := Base64.Decode(Pad(encoded)).value;
      r.value == if asByteArray then AsBytes(bytes) else AsText(utf8GetString(bytes))
  {
    if encoded == [] then Failure(EmptyArgument)
    else
      var padded := Pad(encoded);
      match Base64.Decode(padded)
      case None => Failure(InvalidBase64(padded))
      case Some(bytes) => Success(if asByteArray then AsBytes(bytes) else AsText(utf8GetString(bytes)))
  }

  /** The records ConvertTo-Base64 receives, in one of its two parameter
      sets. */
  datatype Records = TextRecords(texts: seq<string>) | ByteRecords(arrays: seq<seq<byte>>)

  /** The byte arrays one after the other. */
  function Concat(arrays: seq<seq<byte>>): (r: seq<byte>)
    decreases |arrays|
  {
    if |arrays| == 0 then [] else Concat(arrays[..|arrays| - 1]) + arrays[|arrays| - 1]
  }

  /** The arrays the binder lets through to `ProcessRecord`, in arrival
      order: every array except the empty ones. */
  function BoundArrays(arrays: seq<seq<byte>>): (r: seq<seq<byte>>)
    ensures |r| <= |arrays|
    ensures forall k | 0 <= k < |r| :: r[k] != []
    decreases |arrays|
  {
    if |arrays| == 0 then []
    else
      var front, last := arrays[..|arrays| - 1], arrays[|arrays| - 1];
      if last == [] then BoundArrays(front) else BoundArrays(front) + [last]
  }

  /** The bound arrays are the non-empty ones with their multiplicities, so
      the records refused are exactly the empty arrays. */
  lemma {:induction false} BoundArraysMembers(arrays: seq<seq<byte>>)
    ensures multiset(BoundArrays(arrays)) == multiset(arrays)[[] := 0]
    ensures |BoundArrays(arrays)| + multiset(arrays)[[]] == |arrays|
    decreases |arrays|
  {
    if |arrays| > 0 {
      var front, last := arrays[..|arrays| - 1], arrays[|arrays| - 1];
      BoundArraysMembers(front);
      assert arrays == front + [last];
      assert multiset(arrays) == multiset(front) + multiset{last};
    }
  }

  /** Leaving out the empty arrays loses no byte, and what is left is empty
      exactly when there was no byte to begin with. */
  lemma {:induction false} BoundArraysConcat(arrays: seq<seq<byte>>)
    ensures Concat(BoundArrays(arrays)) == Concat(arrays)
    ensures |BoundArrays(arrays)| == 0 <==> Concat(arrays) == []
    decreases |arrays|
  {
    if |arrays| > 0 {
      var front, last := arrays[..|arrays| - 1], arrays[|arrays| - 1];
      BoundArraysConcat(front);
      if last != [] {
        var r := BoundArrays(arrays);
        assert r == BoundArrays(front) + [last];
        assert r[..|r| - 1] == BoundArrays(front);
      }
    }
  }

  /** `n` error records from the binder. */
  function Refusals(n: nat): (r: seq<Result<string, RecordError>>)
    ensures |r| == n && forall i | 0 <= i < n :: r[i] == Failure(EmptyArgument)
  {
    seq(n, _ => Failure(EmptyArgument))
  }

  /** ConvertTo-Base64 for one record of the text set: the binder refuses
      the empty string; any other text is encoded from its UTF-8 bytes. */
  function EncodeText(text: string, utf8GetBytes: string -> seq<byte>): (r: Result<string, RecordError>)
    ensures r.Failure? <==> text == []
    ensures r.Failure? ==> r.error == EmptyArgument
    ensures r.Success? ==> Base64.Decode(r.value) == Some(utf8GetBytes(text))
  {
    if text == [] then Failure(EmptyArgument)
    else
      Base64.DecodeEncode(utf8GetBytes(text));
      Success(Base64.Encode(utf8GetBytes(text)))
  }

  /** The text set: one output or one error record per record, in order. */
  function EncodeEach(texts: seq<string>, utf8GetBytes: string -> seq<byte>): (r: seq<Result<string, RecordError>>)
    ensures |r| == |texts|
    ensures forall i | 0 <= i < |r| :: (r[i].Failure? <==> texts[i] == []) && (r[i].Failure? ==> r[i].error == EmptyArgument)
    ensures forall i | 0 <= i < |r| && r[i].Success? :: Base64.Decode(r[i].value) == Some(utf8GetBytes(texts[i]))
  {
    seq(|texts|, i requires 0 <= i < |texts| => EncodeText(texts[i], utf8GetBytes))
  }

  /** The byte-array set: an error record for each empty array as it
      arrives, then, once at least one array was bound, one encoding of all
      of them at `EndProcessing`. With no array bound the parameter set stays
      the default `Text` and `EndProcessing` writes nothing. */
  function EncodeAll(arrays: seq<seq<byte>>): (r: seq<Result<string, RecordError>>)
    ensures var refused := multiset(arrays)[[]];
      && |r| == refused + (if Concat(arrays) == [] then 0 else 1)
      && (forall i | 0 <= i < refused :: r[i] == Failure(EmptyArgument))
      && (Concat(arrays) != [] ==> r[|r| - 1].Success? && Base64.Decode(r[|r| - 1].value) == Some(Concat(arrays)))
  {
    Base64.DecodeEncode(Concat(arrays));
    BoundArraysMembers(arrays);
    BoundArraysConcat(arrays);
    var bound := BoundArrays(arrays);
    var errors := Refusals(|arrays| - |bound|);
    if |bound| == 0 then errors else errors + [Success(Base64.Encode(Concat(arrays)))]
  }

  /** The whole pipeline of ConvertTo-Base64, in either parameter set. */
  function ConvertTo(records: Records, utf8GetBytes: string -> seq<byte>): (r: seq<Result<string, RecordError>>)
    ensures records.TextRecords? ==> |r| == |records.texts|
    ensures records.TextRecords? ==> forall i | 0 <= i < |r| ::
      if records.texts[i] == [] then r[i] == Failure(EmptyArgument)
      else r[i].Success? && Base64.Decode(r[i].value) == Some(utf8GetBytes(records.texts[i]))
    ensures records.ByteRecords? ==> var arrays := records.arrays;
      && |r| == multiset(arrays)[[]] + (if Concat(arrays) == [] then 0 else 1)
      && (forall i | 0 <= i < multiset(arrays)[[]] :: r[i] == Failure(EmptyArgument))
      && (Concat(arrays) != [] ==> r[|r| - 1].Success? && Base64.Decode(r[|r| - 1].value) == Some(Concat(arrays)))
  {
    match records
    case TextRecords(texts) => EncodeEach(texts, utf8GetBytes)
    case ByteRecords(arrays) => EncodeAll(arrays)
  }

  /** `ProcessRecord` in the text set: one output or error record per record. */
  method EncodeTextRecords(texts: seq<string>, utf8GetBytes: string -> seq<byte>) returns (out: seq<Result<string, RecordError>>)
    ensures out == EncodeEach(texts, utf8GetBytes)
  {
    out := [];
    var i := 0;
    while i < |texts|
      invariant 0 <= i <= |texts|
      invariant |out| == i
      invariant forall j | 0 <= j < i :: out[j] == EncodeText(texts[j], utf8GetBytes)
    {
      if texts[i] == [] {
        out := out + [Failure(EmptyArgument)];
      } else {
        out := out + [Success(Base64.Encode(utf8GetBytes(texts[i])))];
      }
      i := i + 1;
    }
  }

  /** One more arrival: the binder lets it through exactly when it is not
      empty. */
  lemma ArrivalStep(arrays: seq<seq<byte>>, i: nat, accepted: nat)
    requires i < |arrays| && accepted == |BoundArrays(arrays[..i])| <= i
    ensures |BoundArrays(arrays[..i + 1])| == accepted + (if arrays[i] == [] then 0 else 1) <= i + 1
    ensures Concat(arrays[..i + 1]) == Concat(arrays[..i]) + arrays[i]
  {
    var next := arrays[..i + 1];
    assert next[..i] == arrays[..i] && next[i] == arrays[i];
  }

  /** One more refusal is one more error record at the end. */
  lemma RefusalsStep(n: nat)
    ensures Refusals(n + 1) == Refusals(n) + [Failure(EmptyArgument)]
  {
  }

  /** The arrivals of the byte-array set: the binder writes an error record
      for each empty array, and `ProcessRecord` appends every other array to
      the collected bytes. */
  method CollectArrays(arrays: seq<seq<byte>>) returns (collected: seq<byte>, accepted: nat, errors: seq<Result<string, RecordError>>)
    ensures collected == Concat(arrays)
    ensures accepted == |BoundArrays(arrays)| <= |arrays|
    ensures errors == Refusals(|arrays| - accepted)
  {
    collected, accepted, errors := [], 0, [];
    var i := 0;
    while i < |arrays|
      invariant 0 <= i <= |arrays|
      invariant collected == Concat(arrays[..i])
      invariant accepted == |BoundArrays(arrays[..i])| <= i
      invariant errors == Refusals(i - accepted)
    {
      ArrivalStep(arrays, i, accepted);
      if arrays[i] == [] {
        RefusalsStep(i - accepted);
        errors := errors + [Failure(EmptyArgument)];
      } else {
        accepted := accepted + 1;
      }
      collected := collected + arrays[i];
      i := i + 1;
    }
    assert arrays[..i] == arrays;
  }

  /** The byte-array set record by record: the arrivals, then one encoding
      of the collected bytes at `EndProcessing` if any array was bound. */
  method EncodeByteRecords(arrays: seq<seq<byte>>) returns (out: seq<Result<string, RecordError>>)
    ensures out == EncodeAll(arrays)
  {
    var collected, accepted, errors := CollectArrays(arrays);
    out := errors;
    if accepted > 0 {
      out := out + [Success(Base64.Encode(collected))];
    }
  }

  /** The cmdlet's record-at-a-time execution in either parameter set. */
  method ConvertToPipeline(records: Records, utf8GetBytes: string -> seq<byte>) returns (out: seq<Result<string, RecordError>>)
    ensures out == ConvertTo(records, utf8GetBytes)
  {
    if records.TextRecords? {
      out := EncodeTextRecords(records.texts, utf8GetBytes);
    } else {
      out := EncodeByteRecords(records.arrays);
    }
  }

  /** The text set round trip: ConvertFrom-Base64 returns the text
      ConvertTo-Base64 encoded, for every non-empty text the UTF-8 codec
      carries through unchanged; the empty text is refused on the way in. */
  lemma TextRoundTrip(text: string, utf8GetBytes: string -> seq<byte>, utf8GetString: seq<byte> -> string)
    requires utf8GetString(utf8GetBytes(text)) == text && utf8GetString([]) == []
    ensures text == [] ==> ConvertTo(TextRecords([text]), utf8GetBytes) == [Failure(EmptyArgument)]
    ensures text != [] ==> var out := ConvertTo(TextRecords([text]), utf8GetBytes)[0];
      out.Success? && ConvertFrom(out.value, false, utf8GetString) == Success(AsText(text))
  {
    if text != [] {
      var e := Base64.Encode(utf8GetBytes(text));
      assert ConvertTo(TextRecords([text]), utf8GetBytes)[0] == Success(e);
      assert Pad(e) == e;
    }
  }

  /** The byte-array set round trip: `-AsByteArray` gives back the bytes of
      all records in arrival order; when they hold no byte at all, only the
      binder's error records are written. */
  lemma ByteArrayRoundTrip(arrays: seq<seq<byte>>, utf8GetBytes: string -> seq<byte>, utf8GetString: seq<byte> -> string)
    ensures Concat(arrays) != [] ==> var out := ConvertTo(ByteRecords(arrays), utf8GetBytes);
      out[|out| - 1].Success? && ConvertFrom(out[|out| - 1].value, true, utf8GetString) == Success(AsBytes(Concat(arrays)))
    ensures Concat(arrays) == [] ==> forall o | o in ConvertTo(ByteRecords(arrays), utf8GetBytes) :: o == Failure(EmptyArgument)
  {
    var e := Base64.Encode(Concat(arrays));
    assert Pad(e) == e;
  }

  /** Empty records never reach `ProcessRecord`: the binder refuses them in
      both cmdlets and both parameter sets. */
  lemma EmptyRecordsRefused(asByteArray: bool, utf8GetBytes: string -> seq<byte>, utf8GetString: seq<byte> -> string)
    ensures ConvertFrom("", asByteArray, utf8GetString) == Failure(EmptyArgument)
    ensures ConvertTo(TextRecords(["", "a"]), utf8GetBytes)[0] == Failure(EmptyArgument)
    ensures ConvertTo(ByteRecords([[]]), utf8GetBytes) == [Failure(EmptyArgument)]
    ensures ConvertTo(ByteRecords([]), utf8GetBytes) == []
  {
    var none: seq<byte> := [];
    assert multiset([none])[none] == 1;
  }

  /** Trailing `=` removed, as `TrimEnd('=')` removes it. */
  function StripPadding(s: string): (r: string)
    ensures |r| <= |s| && r == s[..|r|]
    ensures |r| == 0 || r[|r| - 1] != '='
    ensures forall i | |r| <= i < |s| :: s[i] == '='
    decreases |s|
  {
    if |s| > 0 && s[|s| - 1] == '=' then StripPadding(s[..|s| - 1]) else s
  }

  /** Stripping removes exactly the `k` trailing pad characters. */
  lemma StripLength(e: string, k: nat)
    requires k <= |e|
    requires forall i | 0 <= i < |e| :: (e[i] == '=' <==> i >= |e| - k)
    ensures |StripPadding(e)| == |e| - k
  {
    var r := StripPadding(e);
    if |r| > 0 {
      assert r[|r| - 1] == e[|r| - 1];
    }
    if |e| - k > 0 {
      assert e[|e| - k - 1] != '=';
    }
  }

  /** Padding a prefix of `e` whose missing tail is all `=` and exactly the
      shortfall long gives `e` back. */
  lemma PadRestores(r: string, e: string)
    requires |r| <= |e| && r == e[..|r|]
    requires |e| == |r| + Shortfall(|r|)
    requires forall i | |r| <= i < |e| :: e[i] == '='
    ensures Pad(r) == e
  {
    var p := Pad(r);
    forall i | 0 <= i < |e| ensures p[i] == e[i] {
      if i < |r| {
        assert p[..|r|][i] == e[..|r|][i];
      }
    }
  }

  /** A length `k` short of a multiple of four, for `k` up to three, has a
      shortfall of exactly `k`. */
  lemma ShortfallBelowQuad(m: nat, k: nat)
    requires m % 4 == 0 && k <= 3 && k <= m
    ensures Shortfall(m - k) == k
  {
    if k > 0 {
      assert (m - k) % 4 == 4 - k;
    }
  }

  /** Stripping the `k` trailing `=` of a text whose length is a multiple of
      four, and padding again, gives the text back. */
  lemma PadUndoesStrip(e: string, k: nat)
    requires |e| % 4 == 0 && k <= 2 && k <= |e|
    requires forall i | 0 <= i < |e| :: (e[i] == '=' <==> i >= |e| - k)
    ensures Pad(StripPadding(e)) == e
  {
    StripLength(e, k);
    ShortfallBelowQuad(|e|, k);
    PadRestores(StripPadding(e), e);
  }

  /** The padding loop puts back exactly the `=` stripped from an encoding. */
  lemma PadAfterStrip(b: seq<byte>)
    ensures Pad(StripPadding(Base64.Encode(b))) == Base64.Encode(b)
  {
    Base64.EncodePadding(b);
    PadUndoesStrip(Base64.Encode(b), Base64.PadCount(|b|));
  }

  /** An encoding whose padding was stripped decodes to the same bytes. */
  lemma StrippedPaddingRestored(b: seq<byte>)
    ensures Base64.Decode(Pad(StripPadding(Base64.Encode(b)))) == Some(b)
  {
    PadAfterStrip(b);
    Base64.DecodeEncode(b);
  }

  /** A length one more than a multiple of four cannot be repaired: padding
      leaves a final quantum with three `=`, which is never valid. */
  lemma OneOverQuadFails(encoded: string, utf8GetString: seq<byte> -> string, asByteArray: bool)
    requires |encoded| % 4 == 1
    ensures ConvertFrom(encoded, asByteArray, utf8GetString).Failure?
  {
    var p := Pad(encoded);
    assert |p| == |encoded| + 3;
    var q := p[|p| - 4..];
    assert q[1] == p[|p| - 3] == '=';
    Base64.BadFinalQuantum(p);
  }

  /** Input that already has a length divisible by four reaches the decoder
      as it is. */
  lemma AlignedInputUnchanged(encoded: string, utf8GetString: seq<byte> -> string)
    requires |encoded| % 4 == 0
    ensures ConvertFrom(encoded, true, utf8GetString).Success? <==> (encoded != [] && Base64.Decode(encoded).Some?)
  {
  }
}

=== FILE: edit_content.dfy ===
/** The Edit-Content cmdlet (src/code/EditContentCommand.cs): per file, the
    directory test, the choice between whole-file, memory-backed and
    temp-file-backed editing, the two edit paths, and the batch that refuses
    to start when the pattern and replacement arrays do not pair up or a
    pattern is not a regular expression.

    A file is its byte sequence. Decoding bytes to text and encoding text to
    bytes are the platform's codecs and are parameters (`Codec`); so are the
    regular-expression engine and `Environment.NewLine`. A `StreamWriter`
    starts an empty stream with its encoding's preamble, which the model
    writes out explicitly. The one exception an edit raises in the model is
    the strict UTF-8 decoder's on malformed bytes, which the per-path handler
    turns into an error record. */
module EditContent {
  import opened Wrappers
  import opened Text
  import opened Encodings
  import opened FileProbe
  import opened Patterns
  import opened LineRewrite

  /** `lohObjectSizeThreshold`, the size at which .NET places an allocation
      on the large-object heap. */
  const LohObjectSizeThreshold: nat := 85000

  /** Files shorter than this are edited through a memory buffer. */
  const MemoryBackedLimit: nat := LohObjectSizeThreshold - 1000

  /** `lohObjectSizeThreshold * 0.8`: from here on the memory buffer's
      capacity is rounded up to a power of ten. */
  const RoundUpFrom: nat := LohObjectSizeThreshold * 8 / 10

  /** The platform services an edit needs. `decode(e, bytes)` is what a
      `StreamReader` built with encoding `e` (and byte-order-mark detection)
      reads when it does not throw; `encode(e, text)` is what a `StreamWriter`
      with encoding `e` writes after the preamble. `wellFormedUtf8(bytes)`
      says whether a reader built with `StrictUtf8` gets through the bytes
      without throwing. Since that reader still detects byte order marks, a
      leading UTF-16, UTF-32 or UTF-8 mark switches it to a lenient decoder,
      so bytes that start with one always count as accepted. */
  datatype Codec = Codec(
    decode: (Encoding, seq<byte>) -> string,
    encode: (Encoding, string) -> seq<byte>,
    wellFormedUtf8: seq<byte> -> bool)

  datatype Env = Env(codec: Codec, engine: Engine, parses: Syntax, newline: string)

  /** The switches of the cmdlet that shape an edit. `encoding` is `-Encoding`,
      `None` when it is not given. */
  datatype Options = Options(
    simpleMatch: bool,
    caseSensitive: bool,
    singleString: bool,
    encoding: Option<Encoding>)

  datatype Strategy = WholeContent | MemoryBacked(capacity: nat) | FileBacked

  /** `new StreamReader(stream)` reads with `Encoding.UTF8` and detects
      byte-order marks. */
  const DefaultReaderEncoding: Encoding := Utf8WithBom

  predicate IsPowerOfTen(n: nat)
    decreases n
  {
    n == 1 || (n >= 10 && n % 10 == 0 && IsPowerOfTen(n / 10))
  }

  /** The integer reading of `Math.Pow(10, Math.Ceiling(Math.Log10(n)))`: a
      power of ten that is at least `n`. */
  function PowerOfTenAtLeast(n: nat): (r: nat)
    ensures IsPowerOfTen(r) && r >= n && r >= 1
    decreases n
  {
    if n <= 1 then 1 else 10 * PowerOfTenAtLeast((n + 9) / 10)
  }

  /** It is the smallest such power. */
  lemma {:induction false} PowerOfTenAtLeastIsLeast(n: nat, q: nat)
    requires IsPowerOfTen(q) && q >= n
    ensures PowerOfTenAtLeast(n) <= q
    decreases n
  {
    if n > 1 {
      assert q != 1;
      PowerOfTenAtLeastIsLeast((n + 9) / 10, q / 10);
    }
  }

  /** Every file the memory path rounds up gets a buffer of 100000 bytes. */
  lemma PowerOfTenInMemoryBand(n: nat)
    requires RoundUpFrom <= n < MemoryBackedLimit
    ensures PowerOfTenAtLeast(n) == 100000
  {
    var n1 := (n + 9) / 10;
    var n2 := (n1 + 9) / 10;
    var n3 := (n2 + 9) / 10;
    var n4 := (n3 + 9) / 10;
    assert 7 <= n4 <= 9;
    assert PowerOfTenAtLeast((n4 + 9) / 10) == 1;
    assert PowerOfTenAtLeast(n4) == 10;
    assert PowerOfTenAtLeast(n3) == 100;
    assert PowerOfTenAtLeast(n2) == 1000;
    assert PowerOfTenAtLeast(n1) == 10000;
  }

  /** The capacity `EditFileByLineMemoryBacked` gives its `MemoryStream`:
      never smaller than the file or than ten bytes, and the least power of
      ten that holds the file once the file is within 20% of the threshold. */
  function MemoryCapacity(length: nat): (r: nat)
    ensures r >= length && r >= 10
    ensures length >= RoundUpFrom ==>
      IsPowerOfTen(r) && forall q: nat | IsPowerOfTen(q) && q >= length :: r <= q
    ensures length < RoundUpFrom ==> r == if length < 10 then 10 else length
  {
    if length >= RoundUpFrom then
      var r := PowerOfTenAtLeast(length);
      assert forall q: nat | IsPowerOfTen(q) && q >= length :: r <= q by {
        forall q: nat | IsPowerOfTen(q) && q >= length ensures r <= q {
          PowerOfTenAtLeastIsLeast(length, q);
        }
      }
      r
    else if length < 10 then 10
    else length
  }

  /** The strategy branch of `ProcessRecord`: `-SingleString` always edits
      the whole content; otherwise a file shorter than 84000 bytes goes
      through memory and any other through a temporary file. */
  function ChooseStrategy(singleString: bool, length: nat): (s: Strategy)
    ensures singleString <==> s.WholeContent?
    ensures !singleString ==> (s.MemoryBacked? <==> length < MemoryBackedLimit)
    ensures s.MemoryBacked? ==> s.capacity == MemoryCapacity(length) && s.capacity >= length
  {
    if singleString then WholeContent
    else if length < MemoryBackedLimit then MemoryBacked(MemoryCapacity(length))
    else FileBacked
  }

  /** The size boundary: 83999 bytes are still edited in a 100000-byte
      memory buffer, 84000 bytes already go through a temporary file. */
  lemma StrategyBoundary()
    ensures ChooseStrategy(false, 83999) == MemoryBacked(100000)
    ensures ChooseStrategy(false, 84000) == FileBacked
    ensures ChooseStrategy(false, 67999) == MemoryBacked(67999)
  {
    PowerOfTenInMemoryBand(83999);
  }

  /** `FileAttributes.Directory`. */
  const DirectoryAttribute: bv32 := 0x10

  /** The directory test of `ProcessRecord`, `(attrs | Directory) == Directory`. */
  predicate DirectoryTest(attrs: bv32) {
    attrs | DirectoryAttribute == DirectoryAttribute
  }

  /** The test holds only when no attribute other than `Directory` is set:
      a directory that is also read-only or hidden is not caught by it. */
  lemma DirectoryTestExact(attrs: bv32)
    ensures DirectoryTest(attrs) <==> attrs == 0 || attrs == DirectoryAttribute
    ensures !DirectoryTest(DirectoryAttribute | 0x1) && !DirectoryTest(DirectoryAttribute | 0x2)
  {
  }

  /** The encoding both edit paths write with: `-Encoding` when given,
      otherwise the probed one. */
  function WriteEncoding(override: Option<Encoding>, fd: FileData): (e: Encoding)
    ensures override.Some? ==> e == override.value
    ensures override.None? ==> e == fd.encoding
  {
    if override.Some? then override.value else fd.encoding
  }

  /** What a fresh `StreamWriter` leaves in an empty stream after writing
      `text`: the encoding's preamble, then the encoded text. */
  function WriterBytes(codec: Codec, e: Encoding, text: string): (r: seq<byte>)
    ensures |r| >= |Preamble(e)| && r[..|Preamble(e)|] == Preamble(e)
    ensures r[|Preamble(e)|..] == codec.encode(e, text)
  {
    Preamble(e) + codec.encode(e, text)
  }

  /** `StreamReader.ReadToEnd` with encoding `e`: `None` when it throws,
      which only the strict UTF-8 decoder does, on bytes it does not accept
      after byte-order-mark detection. */
  function ReadToEnd(codec: Codec, e: Encoding, bytes: seq<byte>): Option<string> {
    if e.StrictUtf8? && !codec.wellFormedUtf8(bytes) then None else Some(codec.decode(e, bytes))
  }

  /** `EditFileAsSingleString`: read everything with the write encoding, apply
      every rule in order to the whole text, truncate, write it back. When the
      read throws, nothing has been truncated or written yet, so there are no
      new bytes: `None`. */
  function EditAsSingleString(bytes: seq<byte>, fd: FileData, override: Option<Encoding>, rules: seq<Rule>, env: Env)
    : (r: Option<seq<byte>>)
    ensures var e := WriteEncoding(override, fd);
      && (r.None? <==> e == StrictUtf8 && !env.codec.wellFormedUtf8(bytes))
      && (r.Some? ==> r.value == WriterBytes(env.codec, e, ApplyAll(rules, env.engine, env.codec.decode(e, bytes))))
  {
    var e := WriteEncoding(override, fd);
    var content := ReadToEnd(env.codec, e, bytes);
    if content.None? then None
    else Some(WriterBytes(env.codec, e, ApplyAll(rules, env.engine, content.value)))
  }

  /** The text `EditFileByLineImpl` writes for a file: the source is read
      with the default UTF-8 reader whatever `-Encoding` says. */
  function LineModeOutput(bytes: seq<byte>, fd: FileData, rules: seq<Rule>, env: Env): string {
    LineModeText(ReadLines(env.codec.decode(DefaultReaderEncoding, bytes)), rules, env.engine,
      env.newline, fd.lastLineEndsWithNewline)
  }

  /** `EditFileByLineImpl`: rewrite line by line into a fresh buffer, then copy
      the buffer over the truncated source. The buffer's kind does not enter
      the result. */
  method EditFileByLineImpl(bytes: seq<byte>, fd: FileData, override: Option<Encoding>, rules: seq<Rule>, env: Env)
    returns (result: seq<byte>)
    ensures var e := WriteEncoding(override, fd);
      var lines := ReadLines(env.codec.decode(DefaultReaderEncoding, bytes));
      result == Preamble(e) + env.codec.encode(e,
        Join(Transformed(rules, env.engine, lines), env.newline)
        + (if fd.lastLineEndsWithNewline then env.newline else ""))
  {
    var writeEncoding := WriteEncoding(override, fd);
    var text := env.codec.decode(DefaultReaderEncoding, bytes);
    var written := RewriteLines(ReadLines(text), rules, env.engine, env.newline, fd.lastLineEndsWithNewline);
    var buffer := WriterBytes(env.codec, writeEncoding, written);
    result := buffer;
  }

  /** The byte image both buffered strategies produce. */
  function EditByLine(bytes: seq<byte>, fd: FileData, override: Option<Encoding>, rules: seq<Rule>, env: Env)
    : seq<byte>
  {
    WriterBytes(env.codec, WriteEncoding(override, fd), LineModeOutput(bytes, fd, rules, env))
  }

  /** One file through the probe, the strategy choice and the chosen edit;
      `None` for the new bytes when the edit threw before writing. Line mode
      reads with the lenient default reader and never throws. */
  function EditFile(bytes: seq<byte>, detected: Encoding, opts: Options, rules: seq<Rule>, env: Env)
    : (r: (Strategy, Option<seq<byte>>))
    ensures var fd := Probe(bytes, detected);
      && r.0 == ChooseStrategy(opts.singleString, |bytes|)
      && (r.0.WholeContent? ==> r.1 == EditAsSingleString(bytes, fd, opts.encoding, rules, env))
      && (!r.0.WholeContent? ==> r.1 == Some(EditByLine(bytes, fd, opts.encoding, rules, env)))
  {
    var fd := Probe(bytes, detected);
    var s := ChooseStrategy(opts.singleString, fd.length);
    match s
    case WholeContent => (s, EditAsSingleString(bytes, fd, opts.encoding, rules, env))
    case MemoryBacked(_) => (s, Some(EditByLine(bytes, fd, opts.encoding, rules, env)))
    case FileBacked => (s, Some(EditByLine(bytes, fd, opts.encoding, rules, env)))
  }

  /** Without `-SingleString` the strategy does not show in the result: the
      same content gives the same bytes whether the file went through memory
      or through a temporary file. */
  lemma BufferedStrategiesAgree(bytes: seq<byte>, detected: Encoding, opts: Options, rules: seq<Rule>, env: Env)
    requires !opts.singleString
    ensures EditFile(bytes, detected, opts, rules, env).1
      == Some(EditByLine(bytes, Probe(bytes, detected), opts.encoding, rules, env))
  {
  }

  /** A UTF-8 file that starts with the byte-order mark, edited without
      `-Encoding`, starts with the mark again, whichever strategy runs. */
  lemma BomPreserved(bytes: seq<byte>, opts: Options, rules: seq<Rule>, env: Env)
    requires StartsWithUtf8Bom(bytes) && opts.encoding.None?
    ensures var out := EditFile(bytes, Utf8WithBom, opts, rules, env).1;
      out.Some? && |out.value| >= 3 && out.value[..3] == bytes[..3]
  {
    var fd := Probe(bytes, Utf8WithBom);
    assert WriteEncoding(opts.encoding, fd) == Utf8WithBom;
  }

  /** A UTF-8 file without the mark, edited without `-Encoding`, is written
      with no preamble at all. As a whole it is read strictly, so it is edited
      only when its bytes are well-formed UTF-8. */
  lemma NoBomAdded(bytes: seq<byte>, opts: Options, rules: seq<Rule>, env: Env)
    requires !StartsWithUtf8Bom(bytes) && opts.encoding.None?
    ensures var fd := Probe(bytes, Utf8WithBom);
      var out := EditFile(bytes, Utf8WithBom, opts, rules, env).1;
      && (out.None? <==> opts.singleString && !env.codec.wellFormedUtf8(bytes))
      && (out.Some? ==> out.value == env.codec.encode(StrictUtf8,
            if opts.singleString then ApplyAll(rules, env.engine, env.codec.decode(StrictUtf8, bytes))
            else LineModeOutput(bytes, fd, rules, env)))
  {
  }

  /** An explicit `-Encoding` decides both the preamble and the codec of the
      written bytes, whatever was detected. */
  lemma ExplicitEncodingWins(bytes: seq<byte>, detected: Encoding, opts: Options, rules: seq<Rule>, env: Env)
    requires opts.encoding.Some?
    ensures var out := EditFile(bytes, detected, opts, rules, env).1;
      var e := opts.encoding.value;
      && (out.None? <==> opts.singleString && e == StrictUtf8 && !env.codec.wellFormedUtf8(bytes))
      && (out.Some? ==>
            && |out.value| >= |Preamble(e)| && out.value[..|Preamble(e)|] == Preamble(e)
            && out.value[|Preamble(e)|..] == env.codec.encode(e,
                 if opts.singleString then ApplyAll(rules, env.engine, env.codec.decode(e, bytes))
                 else LineModeOutput(bytes, Probe(bytes, detected), rules, env)))
  {
  }

  /** What happened to one resolved path. `FileError` is the error record the
      catch-all handler writes when the edit threw; the file keeps its bytes. */
  datatype PathOutcome =
    | NotAFile
    | NotApproved
    | FileError
    | Edited(strategy: Strategy, content: seq<byte>)

  /** One resolved path as the cmdlet finds it: its attributes, its bytes,
      the encoding the reader detects, and the answer of the confirmation
      prompt (`ShouldProcess`). */
  datatype PathInput = PathInput(attributes: bv32, content: seq<byte>, detected: Encoding, approved: bool)

  /** The per-path body of `ProcessRecord`. */
  function ProcessPath(input: PathInput, opts: Options, rules: seq<Rule>, env: Env): (r: PathOutcome)
    ensures DirectoryTest(input.attributes) <==> r.NotAFile?
    ensures r.NotApproved? <==> !DirectoryTest(input.attributes) && !input.approved
    ensures r.FileError? <==>
      (!DirectoryTest(input.attributes) && input.approved && EditFile(input.content, input.detected, opts, rules, env).1.None?)
    ensures r.FileError? ==> opts.singleString
    ensures r.Edited? ==> (r.strategy, Some(r.content)) == EditFile(input.content, input.detected, opts, rules, env)
  {
    if DirectoryTest(input.attributes) then NotAFile
    else if !input.approved then NotApproved
    else
      var e := EditFile(input.content, input.detected, opts, rules, env);
      if e.1.None? then FileError else Edited(e.0, e.1.value)
  }

  /** A file without a byte-order mark whose bytes are not well-formed UTF-8
      fails as a whole, without `-Encoding`: the probe's strict UTF-8 makes
      `ReadToEnd` throw, and the file is left as it was. With `-Encoding utf8`
      the lenient decoder reads it and the file is rewritten. */
  lemma MalformedUtf8LeavesFileAlone(attrs: bv32, bytes: seq<byte>, opts: Options, rules: seq<Rule>, env: Env)
    requires !DirectoryTest(attrs) && opts.singleString && opts.encoding.None?
    requires !StartsWithUtf8Bom(bytes) && !env.codec.wellFormedUtf8(bytes)
    ensures ProcessPath(PathInput(attrs, bytes, Utf8WithBom, true), opts, rules, env) == FileError
    ensures ProcessPath(PathInput(attrs, bytes, Utf8WithBom, true), opts.(encoding := Some(DefaultEncoding)), rules, env).Edited?
  {
  }

  /** The whole cmdlet: `BeginProcessing` compiles the pattern set once, and
      only then are the paths edited, one after the other and each on its own. */
  function Run(patterns: seq<string>, replacements: seq<string>, opts: Options, inputs: seq<PathInput>, env: Env)
    : (r: Result<seq<PathOutcome>, ConfigError>)
    ensures r.Failure? <==>
      (|patterns| != |replacements| || (!opts.simpleMatch && exists i | 0 <= i < |patterns| :: !env.parses(patterns[i])))
    ensures r.Failure? ==> r.error == Compile(patterns, replacements, opts.simpleMatch, opts.caseSensitive, env.parses).error
    ensures r.Success? ==>
      var rules := Compile(patterns, replacements, opts.simpleMatch, opts.caseSensitive, env.parses).value;
      && |r.value| == |inputs|
      && forall i | 0 <= i < |inputs| :: r.value[i] == ProcessPath(inputs[i], opts, rules, env)
  {
    var rules :- Compile(patterns, replacements, opts.simpleMatch, opts.caseSensitive, env.parses);
    Success(seq(|inputs|, i requires 0 <= i < |inputs| => ProcessPath(inputs[i], opts, rules, env)))
  }

  /** The quirk of the newline probe shows in the output: `a\nb` (UTF-8, no
      mark, nothing matching, line feed as newline) comes back as `a\nb\n`. */
  lemma NewlineQuirkAddsNewline(rules: seq<Rule>, env: Env)
    requires env.newline == "\n"
    requires env.codec.decode(DefaultReaderEncoding, [0x61, 0x0A, 0x62]) == "a\nb"
    requires forall l: string :: ApplyAll(rules, env.engine, l) == l
    ensures var fd := Probe([0x61, 0x0A, 0x62], Utf8WithBom);
      LineModeOutput([0x61, 0x0A, 0x62], fd, rules, env) == "a\nb\n"
  {
    var t := "a\nb";
    assert t[2..] == "b";
    assert LineBreakIndex("b"[1..]) == 0;
    assert LineBreakIndex("b") == 1;
    assert ReadLines("b") == ["b"];
    assert LineBreakIndex(t) == 1;
    assert BreakLength(t, 1) == 1;
    assert t[..1] == "a";
    assert ReadLines(t) == [t[..1]] + ReadLines(t[2..]);
    assert ReadLines(t) == ["a", "b"];
    var fd := Probe([0x61, 0x0A, 0x62], Utf8WithBom);
    assert fd.lastLineEndsWithNewline;
    var ls := Transformed(rules, env.engine, ["a", "b"]);
    assert ls == ["a", "b"];
    assert ls[1..] == ["b"];
  }
}

=== FILE: encodings.dfy ===
/** The `-Encoding` argument of Edit-Content: the encodings the cmdlet can
    name, their byte-order marks, the fixed case-insensitive name table, the
    argument transformation that resolves a name or code page, and the tab
    completion list (src/code/EditContentCommand.cs, lines 429-613). */
module Encodings {
  import opened Wrappers
  import opened Text

  /** The .NET encodings the cmdlets produce. `Utf16(false)` is
      `Encoding.Unicode` (little-endian), `Utf16(true)` is
      `Encoding.BigEndianUnicode`; `Utf32(false)` is `Encoding.UTF32` and
      `Utf32(true)` the big-endian UTF-32 encoding with a byte-order mark. Only
      UTF-8 exists both with and without a byte-order mark. `StrictUtf8` is
      `new UTF8Encoding(false, throwOnInvalidBytes: true)`, the UTF-8 without a
      mark that the file probe falls back to: it writes like `Utf8(false)`, but
      decoding bytes that are not well-formed UTF-8 throws instead of
      substituting U+FFFD. `CodePage(id)` is a code-page encoding (OEM, ANSI,
      ...) that has no preamble. */
  datatype Encoding =
    | Ascii
    | Utf7
    | Utf8(emitsBom: bool)
    | StrictUtf8
    | Utf16(bigEndian: bool)
    | Utf32(bigEndian: bool)
    | CodePage(id: int)

  /** `Encoding.UTF8`, the instance the file probe compares against. */
  const Utf8WithBom: Encoding := Utf8(true)

  /** `new UTF8Encoding(false)`, what `ClrFacade.GetDefaultEncoding` returns. */
  const DefaultEncoding: Encoding := Utf8(false)

  const Utf8BomBytes: seq<byte> := [0xEF, 0xBB, 0xBF]

  /** `Encoding.GetPreamble()`: the byte-order mark a `StreamWriter` writes at
      the start of an empty stream. */
  function Preamble(e: Encoding): (p: seq<byte>)
    ensures e == Utf8WithBom <==> p == Utf8BomBytes
    ensures |p| == 0 <==> e.Ascii? || e.Utf7? || e == Utf8(false) || e.StrictUtf8? || e.CodePage?
  {
    match e
    case Ascii => []
    case Utf7 => []
    case Utf8(bom) => if bom then Utf8BomBytes else []
    case StrictUtf8 => []
    case Utf16(be) => if be then [0xFE, 0xFF] else [0xFF, 0xFE]
    case Utf32(be) => if be then [0x00, 0x00, 0xFE, 0xFF] else [0xFF, 0xFE, 0x00, 0x00]
    case CodePage(_) => []
  }

  /** Where the cmdlet runs: the OEM encoding is UTF-8 without a byte-order
      mark on Unix; on Windows it is whatever `Encoding.GetEncoding` returns
      for the console's OEM code page, which the model receives as is (for
      code page 65001 that is UTF-8 with a byte-order mark, not a bare
      `CodePage`). */
  datatype Platform = Unix | Windows(oem: Encoding)

  /** `ClrFacade.GetOEMEncoding`. */
  function OemEncoding(p: Platform): (e: Encoding)
    ensures p.Unix? ==> e == DefaultEncoding
    ensures p.Windows? ==> e == p.oem
  {
    match p
    case Unix => DefaultEncoding
    case Windows(oem) => oem
  }

  const UnknownName: string := "unknown"
  const StringName: string := "string"
  const UnicodeName: string := "unicode"
  const BigEndianUnicodeName: string := "bigendianunicode"
  const BigEndianUtf32Name: string := "bigendianutf32"
  const AsciiName: string := "ascii"
  const Utf8Name: string := "utf8"
  const Utf8NoBomName: string := "utf8NoBOM"
  const Utf8BomName: string := "utf8BOM"
  const Utf7Name: string := "utf7"
  const Utf32Name: string := "utf32"
  const DefaultName: string := "default"
  const OemName: string := "oem"

  /** `EncodingConversion.encodingMap`, in declaration order. */
  function EncodingMap(p: Platform): seq<(string, Encoding)> {
    [ (AsciiName, Ascii),
      (BigEndianUnicodeName, Utf16(true)),
      (BigEndianUtf32Name, Utf32(true)),
      (DefaultName, DefaultEncoding),
      (OemName, OemEncoding(p)),
      (UnicodeName, Utf16(false)),
      (Utf7Name, Utf7),
      (Utf8Name, DefaultEncoding),
      (Utf8BomName, Utf8WithBom),
      (Utf8NoBomName, DefaultEncoding),
      (Utf32Name, Utf32(false)),
      (StringName, Utf16(false)),
      (UnknownName, Utf16(false)) ]
  }

  /** Linear search of a name table under ordinal ignore-case comparison; the
      first entry whose name matches wins. */
  function Find(entries: seq<(string, Encoding)>, name: string): (r: Option<Encoding>)
    ensures r.None? <==> forall i | 0 <= i < |entries| :: !EqualsIgnoreCase(entries[i].0, name)
    ensures r.Some? ==> exists i | 0 <= i < |entries| ::
      && EqualsIgnoreCase(entries[i].0, name)
      && entries[i].1 == r.value
      && forall k | 0 <= k < i :: !EqualsIgnoreCase(entries[k].0, name)
    decreases |entries|
  {
    if |entries| == 0 then None
    else if EqualsIgnoreCase(entries[0].0, name) then Some(entries[0].1)
    else
      var r := Find(entries[1..], name);
      assert r.Some? ==> exists i | 0 <= i < |entries| ::
        && EqualsIgnoreCase(entries[i].0, name)
        && entries[i].1 == r.value
        && forall k | 0 <= k < i :: !EqualsIgnoreCase(entries[k].0, name) by {
        if r.Some? {
          var i :| 0 <= i < |entries[1..]| && EqualsIgnoreCase(entries[1..][i].0, name)
            && entries[1..][i].1 == r.value
            && forall k | 0 <= k < i :: !EqualsIgnoreCase(entries[1..][k].0, name);
          assert forall k | 0 <= k < i + 1 :: !EqualsIgnoreCase(entries[k].0, name) by {
            forall k | 0 <= k < i + 1 ensures !EqualsIgnoreCase(entries[k].0, name) {
              if k > 0 { assert entries[k] == entries[1..][k - 1]; }
            }
          }
        }
      }
      r
  }

  /** The entry at `j` is found when it is the first one whose name matches. */
  lemma {:induction false} FindFirstMatch(entries: seq<(string, Encoding)>, name: string, j: nat)
    requires j < |entries| && EqualsIgnoreCase(entries[j].0, name)
    requires forall k | 0 <= k < j :: !EqualsIgnoreCase(entries[k].0, name)
    ensures Find(entries, name) == Some(entries[j].1)
    decreases j
  {
    if j > 0 {
      FindFirstMatch(entries[1..], name, j - 1);
    }
  }

  /** `encodingMap.TryGetValue(name, out ...)`. */
  function Lookup(name: string, p: Platform): (r: Option<Encoding>)
    ensures r.Some? <==> exists i | 0 <= i < |EncodingMap(p)| :: EqualsIgnoreCase(EncodingMap(p)[i].0, name)
  {
    Find(EncodingMap(p), name)
  }

  /** Names that differ only in ASCII letter case find the same entry. */
  lemma {:induction false} FindIgnoresCase(entries: seq<(string, Encoding)>, a: string, b: string)
    requires EqualsIgnoreCase(a, b)
    ensures Find(entries, a) == Find(entries, b)
    decreases |entries|
  {
    if |entries| > 0 {
      var k := entries[0].0;
      assert EqualsIgnoreCase(k, a) <==> EqualsIgnoreCase(k, b);
      FindIgnoresCase(entries[1..], a, b);
    }
  }

  lemma LookupIgnoresCase(a: string, b: string, p: Platform)
    requires EqualsIgnoreCase(a, b)
    ensures Lookup(a, p) == Lookup(b, p)
  {
    FindIgnoresCase(EncodingMap(p), a, b);
  }

  /** `utf8` gives UTF-8 without a byte-order mark, whatever the platform. */
  lemma Utf8NameResolves(p: Platform)
    ensures Lookup("utf8", p) == Some(Utf8(false))
  {
    var m := EncodingMap(p);
    assert !EqualsIgnoreCase(m[6].0, "utf8") by { assert ToLowerAscii(m[6].0[3]) != ToLowerAscii("utf8"[3]); }
    FindFirstMatch(m, "utf8", 7);
  }

  /** `utf8NoBOM` gives UTF-8 without a byte-order mark as well. */
  lemma Utf8NoBomNameResolves(p: Platform)
    ensures Lookup("utf8NoBOM", p) == Some(Utf8(false))
  {
    var m := EncodingMap(p);
    assert |m[8].0| != |"utf8NoBOM"|;
    FindFirstMatch(m, "utf8NoBOM", 9);
  }

  /** `utf8BOM` gives UTF-8 with a byte-order mark. */
  lemma Utf8BomNameResolves(p: Platform)
    ensures Lookup("utf8BOM", p) == Some(Utf8(true))
  {
    var m := EncodingMap(p);
    assert EqualsIgnoreCase(m[8].0, "utf8BOM");
    assert !EqualsIgnoreCase(m[3].0, "utf8BOM") by { assert ToLowerAscii(m[3].0[0]) != ToLowerAscii("utf8BOM"[0]); }
    assert !EqualsIgnoreCase(m[5].0, "utf8BOM") by { assert ToLowerAscii(m[5].0[1]) != ToLowerAscii("utf8BOM"[1]); }
    FindFirstMatch(m, "utf8BOM", 8);
  }

  /** `unicode` gives UTF-16LE. */
  lemma UnicodeNameResolves(p: Platform)
    ensures Lookup("unicode", p) == Some(Utf16(false))
  {
    var m := EncodingMap(p);
    assert !EqualsIgnoreCase(m[3].0, "unicode") by { assert ToLowerAscii(m[3].0[0]) != ToLowerAscii("unicode"[0]); }
    FindFirstMatch(m, "unicode", 5);
  }

  /** `string` gives UTF-16LE. */
  lemma StringNameResolves(p: Platform)
    ensures Lookup("string", p) == Some(Utf16(false))
  {
    var m := EncodingMap(p);
    assert EqualsIgnoreCase(m[11].0, "string");
    FindFirstMatch(m, "string", 11);
  }

  /** `unknown` gives UTF-16LE. */
  lemma UnknownNameResolves(p: Platform)
    ensures Lookup("unknown", p) == Some(Utf16(false))
  {
    var m := EncodingMap(p);
    assert !EqualsIgnoreCase(m[3].0, "unknown") by { assert ToLowerAscii(m[3].0[0]) != ToLowerAscii("unknown"[0]); }
    assert !EqualsIgnoreCase(m[5].0, "unknown") by { assert ToLowerAscii(m[5].0[2]) != ToLowerAscii("unknown"[2]); }
    assert EqualsIgnoreCase(m[12].0, "unknown");
    FindFirstMatch(m, "unknown", 12);
  }

  /** `oem` follows the platform. */
  lemma OemNameResolves(p: Platform)
    ensures Lookup("oem", p) == Some(OemEncoding(p))
  {
    FindFirstMatch(EncodingMap(p), "oem", 4);
  }

  /** A name outside the table, such as the IANA spelling `utf-8`, is not
      found there and is left to the platform. */
  lemma IanaUtf8NameNotInTable(p: Platform)
    ensures Lookup("utf-8", p) == None
  {
    var m := EncodingMap(p);
    assert !EqualsIgnoreCase(m[0].0, "utf-8") by { assert ToLowerAscii(m[0].0[0]) != ToLowerAscii("utf-8"[0]); }
    assert !EqualsIgnoreCase(m[10].0, "utf-8") by { assert ToLowerAscii(m[10].0[3]) != ToLowerAscii("utf-8"[3]); }
    assert forall k | 1 <= k < |m| && k != 10 :: |m[k].0| != 5;
  }

  /** The source of an encoding that is not in the table. `Encoding.GetEncoding`
      is a platform service; `None` stands for the exception it throws. */
  datatype EncodingProvider = EncodingProvider(
    byName: string -> Option<Encoding>,
    byCodePage: int -> Option<Encoding>)

  /** What a script may bind to `-Encoding`. */
  datatype ArgInput = NameArg(name: string) | CodePageArg(codePage: int) | EncodingArg(encoding: Encoding)

  datatype ArgValue = Converted(encoding: Encoding) | Unconverted(input: ArgInput)

  datatype ArgError = UnknownEncodingName(name: string) | UnknownCodePage(codePage: int)

  /** `ArgumentToEncodingTransformationAttribute.Transform`: a string is first
      looked up in the name table and only then handed to the platform; an
      integer is a code page; anything else is passed through unchanged. */
  function Transform(input: ArgInput, p: Platform, provider: EncodingProvider): (r: Result<ArgValue, ArgError>)
    ensures input.NameArg? && Lookup(input.name, p).Some? ==>
      r == Success(Converted(Lookup(input.name, p).value))
    ensures input.NameArg? && Lookup(input.name, p).None? ==>
      (r.Failure? <==> provider.byName(input.name).None?)
    ensures input.NameArg? && Lookup(input.name, p).None? && provider.byName(input.name).Some? ==>
      r == Success(Converted(provider.byName(input.name).value))
    ensures input.NameArg? && Lookup(input.name, p).None? && provider.byName(input.name).None? ==>
      r == Failure(UnknownEncodingName(input.name))
    ensures input.CodePageArg? ==> (r.Success? <==> provider.byCodePage(input.codePage).Some?)
    ensures input.CodePageArg? && provider.byCodePage(input.codePage).Some? ==>
      r == Success(Converted(provider.byCodePage(input.codePage).value))
    ensures input.CodePageArg? && provider.byCodePage(input.codePage).None? ==>
      r == Failure(UnknownCodePage(input.codePage))
    ensures input.EncodingArg? ==> r == Success(Unconverted(input))
    ensures r.Failure? ==> !input.EncodingArg?
  {
    match input
    case NameArg(name) =>
      if Lookup(name, p).Some? then Success(Converted(Lookup(name, p).value))
      else if provider.byName(name).Some? then Success(Converted(provider.byName(name).value))
      else Failure(UnknownEncodingName(name))
    case CodePageArg(cp) =>
      if provider.byCodePage(cp).Some? then Success(Converted(provider.byCodePage(cp).value))
      else Failure(UnknownCodePage(cp))
    case EncodingArg(_) => Success(Unconverted(input))
  }

  /** A table name never reaches the platform: however the provider behaves,
      the name resolves to the table's encoding. */
  lemma TableNamesIgnoreProvider(p: Platform, provider: EncodingProvider, name: string)
    requires Lookup(name, p).Some?
    ensures Transform(NameArg(name), p, provider) == Success(Converted(Lookup(name, p).value))
  {
  }

  /** So `-Encoding utf8BOM` writes a byte-order mark and `-Encoding utf8`
      does not, in any letter case, on every platform. */
  lemma Utf8ArgumentsResolve(p: Platform, provider: EncodingProvider, name: string)
    ensures EqualsIgnoreCase(name, "utf8BOM") ==> Transform(NameArg(name), p, provider) == Success(Converted(Utf8(true)))
    ensures EqualsIgnoreCase(name, "utf8") ==> Transform(NameArg(name), p, provider) == Success(Converted(Utf8(false)))
  {
    if EqualsIgnoreCase(name, "utf8BOM") {
      Utf8BomNameResolves(p);
      LookupIgnoresCase(name, "utf8BOM", p);
    }
    if EqualsIgnoreCase(name, "utf8") {
      Utf8NameResolves(p);
      LookupIgnoresCase(name, "utf8", p);
    }
  }

  /** `ArgumentEncodingCompletionsAttribute._completions`, in order. */
  const Completions: seq<string> := [AsciiName, BigEndianUnicodeName, BigEndianUtf32Name, OemName,
    UnicodeName, Utf7Name, Utf8Name, Utf8BomName, Utf8NoBomName, Utf32Name]

  /** Whether completion `c` matches the typed word: a white-space-only word
      matches everything (pattern `*`), any other word is a case-insensitive
      prefix (pattern `word*`). */
  predicate CompletionMatches(c: string, word: string) {
    AllWhiteSpace(word) || StartsWithIgnoreCase(c, word)
  }

  function FilterCompletions(cs: seq<string>, word: string): (r: seq<string>)
    ensures forall c :: c in r <==> c in cs && CompletionMatches(c, word)
    ensures |r| <= |cs|
    decreases |cs|
  {
    if |cs| == 0 then []
    else (if CompletionMatches(cs[0], word) then [cs[0]] else []) + FilterCompletions(cs[1..], word)
  }

  /** `ArgumentEncodingCompletionsAttribute.CompleteArgument`: the completion
      names, in list order, that the typed word is a prefix of. */
  function CompleteArgument(word: string): (r: seq<string>)
    ensures forall c :: c in r <==> c in Completions && CompletionMatches(c, word)
    ensures AllWhiteSpace(word) ==> r == Completions
  {
    if AllWhiteSpace(word) then FilterAll(Completions, word); FilterCompletions(Completions, word)
    else FilterCompletions(Completions, word)
  }

  /** The entries of `xs` that `keep` accepts, in order. */
  function Keep<T>(xs: seq<T>, keep: T -> bool): seq<T>
    decreases |xs|
  {
    if |xs| == 0 then [] else (if keep(xs[0]) then [xs[0]] else []) + Keep(xs[1..], keep)
  }

  /** `r` lists, in the order of `xs`, exactly the entries of `xs` that `keep`
      accepts: `idx` gives for each entry of `r` its strictly increasing
      position in `xs`, and the accepted positions are exactly those in `idx`. */
  ghost predicate IsSelection<T>(r: seq<T>, xs: seq<T>, keep: T -> bool, idx: seq<nat>) {
    Picks(r, xs, idx) && Increasing(idx) && Covers(xs, keep, idx)
  }

  ghost predicate Picks<T>(r: seq<T>, xs: seq<T>, idx: seq<nat>) {
    |idx| == |r| && forall k | 0 <= k < |idx| :: idx[k] < |xs| && r[k] == xs[idx[k]]
  }

  predicate Increasing(idx: seq<nat>) {
    forall k, l | 0 <= k < l < |idx| :: idx[k] < idx[l]
  }

  ghost predicate Covers<T>(xs: seq<T>, keep: T -> bool, idx: seq<nat>) {
    forall j | 0 <= j < |xs| :: keep(xs[j]) <==> j in idx
  }

  /** Every position moved one further on. */
  function Shift(idx: seq<nat>): (r: seq<nat>)
    ensures |r| == |idx| && forall k | 0 <= k < |idx| :: r[k] == idx[k] + 1
  {
    seq(|idx|, k requires 0 <= k < |idx| => idx[k] + 1)
  }

  /** The positions of one more entry in front: 0 when it is kept, and the
      others moved one further on. */
  function ConsIndices(kept: bool, idx: seq<nat>): seq<nat> {
    if kept then [0] + Shift(idx) else Shift(idx)
  }

  lemma {:induction false} KeepSelects<T>(xs: seq<T>, keep: T -> bool) returns (idx: seq<nat>)
    ensures IsSelection(Keep(xs, keep), xs, keep, idx)
    decreases |xs|
  {
    if |xs| == 0 {
      idx := [];
    } else {
      var rest := KeepSelects(xs[1..], keep);
      idx := ConsIndices(keep(xs[0]), rest);
      ConsPicks(xs, keep, rest);
      ConsIncreasing(keep(xs[0]), rest);
      ConsCovers(xs, keep, rest);
    }
  }

  lemma ConsPicks<T>(xs: seq<T>, keep: T -> bool, rest: seq<nat>)
    requires |xs| > 0 && Picks(Keep(xs[1..], keep), xs[1..], rest)
    ensures Picks(Keep(xs, keep), xs, ConsIndices(keep(xs[0]), rest))
  {
    var rr := Keep(xs[1..], keep);
    var sh := Shift(rest);
    var idx := ConsIndices(keep(xs[0]), rest);
    forall k | 0 <= k < |sh|
      ensures sh[k] < |xs| && rr[k] == xs[sh[k]]
    {
      assert xs[1..][rest[k]] == xs[sh[k]];
    }
    if keep(xs[0]) {
      assert Keep(xs, keep) == [xs[0]] + rr;
      forall k | 0 < k < |idx|
        ensures idx[k] < |xs| && Keep(xs, keep)[k] == xs[idx[k]]
      {
        assert idx[k] == sh[k - 1] && Keep(xs, keep)[k] == rr[k - 1];
      }
    } else {
      assert Keep(xs, keep) == rr;
    }
  }

  lemma ConsIncreasing(kept: bool, rest: seq<nat>)
    requires Increasing(rest)
    ensures Increasing(ConsIndices(kept, rest))
  {
    var sh := Shift(rest);
    var idx := ConsIndices(kept, rest);
    assert Increasing(sh);
    if kept {
      forall k, l | 0 <= k < l < |idx|
        ensures idx[k] < idx[l]
      {
        assert idx[l] == sh[l - 1];
        if k > 0 {
          assert idx[k] == sh[k - 1];
        }
      }
    }
  }

  lemma ConsCovers<T>(xs: seq<T>, keep: T -> bool, rest: seq<nat>)
    requires |xs| > 0 && Covers(xs[1..], keep, rest)
    ensures Covers(xs, keep, ConsIndices(keep(xs[0]), rest))
  {
    var sh := Shift(rest);
    var idx := ConsIndices(keep(xs[0]), rest);
    ShiftedMembers(rest, sh);
    forall j | 0 < j < |xs|
      ensures keep(xs[j]) <==> j in idx
    {
      assert xs[j] == xs[1..][j - 1];
      assert j in idx <==> j in sh;
    }
    assert 0 in idx <==> keep(xs[0]);
  }

  lemma ShiftedMembers(rest: seq<nat>, shifted: seq<nat>)
    requires |shifted| == |rest|
    requires forall k | 0 <= k < |rest| :: shifted[k] == rest[k] + 1
    ensures forall j: nat | 0 < j :: j in shifted <==> j - 1 in rest
  {
    forall j: nat | 0 < j
      ensures j in shifted <==> j - 1 in rest
    {
      if j - 1 in rest {
        var k :| 0 <= k < |rest| && rest[k] == j - 1;
        assert shifted[k] == j;
      }
    }
  }

  lemma {:induction false} FilterIsKeep(cs: seq<string>, word: string)
    ensures FilterCompletions(cs, word) == Keep(cs, c => CompletionMatches(c, word))
    decreases |cs|
  {
    if |cs| > 0 {
      FilterIsKeep(cs[1..], word);
    }
  }

  /** Completion offers the matching names once each, in list order. */
  lemma CompletionsInOrder(word: string) returns (idx: seq<nat>)
    ensures IsSelection(CompleteArgument(word), Completions, c => CompletionMatches(c, word), idx)
    ensures forall k, l | 0 <= k < l < |CompleteArgument(word)| :: CompleteArgument(word)[k] != CompleteArgument(word)[l]
  {
    FilterIsKeep(Completions, word);
    idx := KeepSelects(Completions, c => CompletionMatches(c, word));
    CompletionsDistinct();
  }

  /** No name appears twice in the completion list. */
  lemma CompletionsDistinct()
    ensures forall i, j | 0 <= i < j < |Completions| :: Completions[i] != Completions[j]
  {
  }

  lemma {:induction false} FilterAll(cs: seq<string>, word: string)
    requires AllWhiteSpace(word)
    ensures FilterCompletions(cs, word) == cs
    decreases |cs|
  {
    if |cs| > 0 {
      FilterAll(cs[1..], word);
    }
  }

  /** Every name the completer offers resolves through the name table, so a
      completed argument is always accepted by the transformation. */
  lemma CompletionsResolve(word: string, p: Platform)
    ensures forall c | c in CompleteArgument(word) :: Lookup(c, p).Some?
  {
    forall i | 0 <= i < |Completions|
      ensures Lookup(Completions[i], p).Some?
    {
      CompletionResolves(i, p);
    }
    forall c | c in CompleteArgument(word)
      ensures Lookup(c, p).Some?
    {
      assert c in Completions;
      var i :| 0 <= i < |Completions| && Completions[i] == c;
    }
  }

  lemma CompletionResolves(i: nat, p: Platform)
    requires i < |Completions|
    ensures Lookup(Completions[i], p).Some?
  {
    var m := EncodingMap(p);
    var j := [0, 1, 2, 4, 5, 6, 7, 8, 9, 10][i];
    assert m[j].0 == Completions[i];
    assert EqualsIgnoreCase(m[j].0, Completions[i]);
  }

  /** Typing `utf` offers the five UTF names in list order. */
  lemma CompleteUtf()
    ensures CompleteArgument("utf") == [Utf7Name, Utf8Name, Utf8BomName, Utf8NoBomName, Utf32Name]
  {
    var w := "utf";
    assert !AllWhiteSpace(w) by { assert !IsWhiteSpace(w[0]); }
    FilterUtfHead();
    FilterUtfTail();
  }

  lemma {:induction false} FilterSkips(cs: seq<string>, word: string, n: nat)
    requires n <= |cs|
    requires forall k | 0 <= k < n :: !CompletionMatches(cs[k], word)
    ensures FilterCompletions(cs, word) == FilterCompletions(cs[n..], word)
    decreases n
  {
    if n > 0 {
      FilterSkips(cs[1..], word, n - 1);
      assert cs[1..][n - 1..] == cs[n..];
    }
  }

  lemma {:induction false} FilterKeeps(cs: seq<string>, word: string)
    requires forall k | 0 <= k < |cs| :: CompletionMatches(cs[k], word)
    ensures FilterCompletions(cs, word) == cs
    decreases |cs|
  {
    if |cs| > 0 {
      FilterKeeps(cs[1..], word);
    }
  }

  lemma FilterUtfHead()
    ensures FilterCompletions(Completions, "utf") == FilterCompletions(Completions[5..], "utf")
  {
    var cs := Completions;
    var w := "utf";
    assert !AllWhiteSpace(w) by { assert !IsWhiteSpace(w[0]); }
    assert !StartsWithIgnoreCase(cs[0], w) by { assert ToLowerAscii(cs[0][0]) != ToLowerAscii(w[0]); }
    assert !StartsWithIgnoreCase(cs[1], w) by { assert ToLowerAscii(cs[1][0]) != ToLowerAscii(w[0]); }
    assert !StartsWithIgnoreCase(cs[2], w) by { assert ToLowerAscii(cs[2][0]) != ToLowerAscii(w[0]); }
    assert !StartsWithIgnoreCase(cs[3], w) by { assert ToLowerAscii(cs[3][0]) != ToLowerAscii(w[0]); }
    assert !StartsWithIgnoreCase(cs[4], w) by { assert ToLowerAscii(cs[4][1]) != ToLowerAscii(w[1]); }
    FilterSkips(cs, w, 5);
  }

  lemma FilterUtfTail()
    ensures FilterCompletions(Completions[5..], "utf") == [Utf7Name, Utf8Name, Utf8BomName, Utf8NoBomName, Utf32Name]
  {
    var cs := Completions[5..];
    var w := "utf";
    assert forall k | 0 <= k < |cs| :: CompletionMatches(cs[k], w) by {
      assert StartsWithIgnoreCase(cs[0], w);
      assert StartsWithIgnoreCase(cs[1], w);
      assert StartsWithIgnoreCase(cs[2], w);
      assert StartsWithIgnoreCase(cs[3], w);
      assert StartsWithIgnoreCase(cs[4], w);
    }
    FilterKeeps(cs, w);
  }
}

=== FILE: file_probe.dfy ===
/** The `FileData` probe of Edit-Content (src/code/EditContentCommand.cs,
    lines 340-426): from the raw bytes of a file and the encoding a
    BOM-sniffing reader reported for it, work out the file's length, the
    encoding to write it back with, whether that encoding emits a UTF-8
    byte-order mark, and whether the last line ends with a newline. */
module FileProbe {
  import opened Text
  import opened Encodings

  datatype FileData = FileData(
    length: nat,
    encoding: Encoding,
    emitsUtf8Identifier: bool,
    lastLineEndsWithNewline: bool)

  /** Line feed (0x0A) or carriage return (0x0D). */
  predicate IsNewlineByte(b: byte) {
    b == 0x0A || b == 0x0D
  }

  /** The trailing-newline test: with two or more bytes either of the last two
      counts, with one byte that byte, and an empty file has no newline. */
  function EndsWithNewline(bytes: seq<byte>): (r: bool)
    ensures |bytes| == 0 ==> !r
    ensures |bytes| == 1 ==> (r <==> IsNewlineByte(bytes[0]))
    ensures |bytes| >= 2 ==> (r <==> IsNewlineByte(bytes[|bytes| - 1]) || IsNewlineByte(bytes[|bytes| - 2]))
  {
    if |bytes| >= 2 then IsNewlineByte(bytes[|bytes| - 2]) || IsNewlineByte(bytes[|bytes| - 1])
    else if |bytes| == 1 then IsNewlineByte(bytes[0])
    else false
  }

  /** Whether the first three bytes are the UTF-8 byte-order mark EF BB BF. */
  predicate StartsWithUtf8Bom(bytes: seq<byte>) {
    |bytes| >= 3 && bytes[..3] == Utf8BomBytes
  }

  /** The `FileData` constructor. `detected` is the reader's `CurrentEncoding`
      after its first read. Only when that is `Encoding.UTF8` is the mark
      checked: any mismatch among the first three bytes, or a file shorter than
      the mark, switches to strict UTF-8 without one. Any other detection on a
      file shorter than two bytes also falls back to strict UTF-8. */
  function Probe(bytes: seq<byte>, detected: Encoding): (d: FileData)
    ensures d.length == |bytes|
    ensures d.lastLineEndsWithNewline == EndsWithNewline(bytes)
    ensures detected == Utf8WithBom ==>
      && (d.encoding == Utf8WithBom <==> StartsWithUtf8Bom(bytes))
      && (!StartsWithUtf8Bom(bytes) ==> d.encoding == StrictUtf8)
      && (d.emitsUtf8Identifier <==> StartsWithUtf8Bom(bytes))
    ensures detected != Utf8WithBom && |bytes| < 2 ==> d.encoding == StrictUtf8 && !d.emitsUtf8Identifier
    ensures detected != Utf8WithBom && |bytes| >= 2 ==> d.encoding == detected && d.emitsUtf8Identifier
  {
    var newline := EndsWithNewline(bytes);
    if detected == Utf8WithBom then
      if |bytes| < |Utf8BomBytes| then FileData(|bytes|, StrictUtf8, false, newline)
      else if bytes[0] != Utf8BomBytes[0] || bytes[1] != Utf8BomBytes[1] || bytes[2] != Utf8BomBytes[2] then
        FileData(|bytes|, StrictUtf8, false, newline)
      else
        assert bytes[..3] == Utf8BomBytes;
        FileData(|bytes|, Utf8WithBom, true, newline)
    else if |bytes| < 2 then FileData(|bytes|, StrictUtf8, false, newline)
    else FileData(|bytes|, detected, true, newline)
  }

  /** An empty file has no trailing newline and is written as strict UTF-8
      without a byte-order mark, whatever the reader reported. */
  lemma EmptyFileProbe(detected: Encoding)
    ensures Probe([], detected) == FileData(0, StrictUtf8, false, false)
  {
  }

  /** A file whose last byte is a line feed or carriage return is always seen
      as newline-terminated. */
  lemma TrailingNewlineDetected(bytes: seq<byte>, detected: Encoding)
    requires |bytes| > 0 && IsNewlineByte(bytes[|bytes| - 1])
    ensures Probe(bytes, detected).lastLineEndsWithNewline
  {
  }

  /** The converse fails: because the second-to-last byte is checked too, the
      three bytes `a\nb` count as newline-terminated although they end in `b`. */
  lemma NewlineBeforeLastByteQuirk(detected: Encoding)
    ensures var bytes: seq<byte> := [0x61, 0x0A, 0x62];
      !IsNewlineByte(bytes[|bytes| - 1]) && Probe(bytes, detected).lastLineEndsWithNewline
  {
  }

  /** A UTF-8 file that carries the mark keeps it: the probed encoding's
      preamble is exactly the file's first three bytes. */
  lemma BomKeptWhenPresent(bytes: seq<byte>)
    requires StartsWithUtf8Bom(bytes)
    ensures Preamble(Probe(bytes, Utf8WithBom).encoding) == bytes[..3]
  {
  }

  /** A UTF-8 detection on a file without the mark writes no preamble at all,
      and reads the file strictly. */
  lemma NoBomWhenAbsent(bytes: seq<byte>)
    requires !StartsWithUtf8Bom(bytes)
    ensures Preamble(Probe(bytes, Utf8WithBom).encoding) == []
    ensures Probe(bytes, Utf8WithBom).encoding == StrictUtf8
  {
  }
}

=== FILE: line_rewrite.dfy ===
/** The line-by-line rewrite shared by the memory-backed and the
    temp-file-backed strategies of Edit-Content (`EditFileByLineImpl`,
    src/code/EditContentCommand.cs, lines 279-317), stated over the decoded
    text of the file.

    Lines are read as `StreamReader.ReadLine` reads them: a line ends at a
    line feed, a carriage return, or a carriage return followed by a line
    feed, and the terminator is not part of the line. Every line but the last
    is written back followed by the writer's newline; the last one is followed
    by a newline exactly when the probe saw one at the end of the file. */
module LineRewrite {
  import opened Text
  import opened Patterns

  predicate IsLineBreak(c: char) {
    c == '\n' || c == '\r'
  }

  predicate HasNoLineBreak(s: string) {
    forall j | 0 <= j < |s| :: !IsLineBreak(s[j])
  }

  /** The position of the first line break, or `|t|` when there is none. */
  function LineBreakIndex(t: string): (k: nat)
    ensures k <= |t|
    ensures HasNoLineBreak(t[..k])
    ensures k < |t| ==> IsLineBreak(t[k])
    decreases |t|
  {
    if |t| == 0 then 0
    else if IsLineBreak(t[0]) then 0
    else
      var k := 1 + LineBreakIndex(t[1..]);
      assert t[..k] == [t[0]] + t[1..][..k - 1];
      k
  }

  /** The length of the terminator found at `k`: two for CR LF, else one. */
  function BreakLength(t: string, k: nat): (n: nat)
    requires k < |t|
    ensures 1 <= n <= 2 && k + n <= |t|
  {
    if t[k] == '\r' && k + 1 < |t| && t[k + 1] == '\n' then 2 else 1
  }

  /** The lines `ReadLine` returns until it returns null. An empty text has no
      lines, and a terminator at the very end does not start another line. */
  function ReadLines(t: string): (lines: seq<string>)
    ensures |t| > 0 <==> |lines| > 0
    ensures forall i | 0 <= i < |lines| :: HasNoLineBreak(lines[i])
    decreases |t|
  {
    if |t| == 0 then []
    else
      var k := LineBreakIndex(t);
      if k == |t| then
        assert t[..k] == t;
        [t]
      else
        [t[..k]] + ReadLines(t[k + BreakLength(t, k)..])
  }

  /** The terminators `ReadLine` consumed, one per line of `ReadLines`: a
      line feed, a carriage return or both, and nothing after a last line
      that ends the text. */
  function LineBreaks(t: string): (breaks: seq<string>)
    decreases |t|
  {
    if |t| == 0 then []
    else
      var k := LineBreakIndex(t);
      if k == |t| then [""]
      else [t[k..k + BreakLength(t, k)]] + LineBreaks(t[k + BreakLength(t, k)..])
  }

  predicate IsTerminator(b: string) {
    b == "\n" || b == "\r" || b == "\r\n"
  }

  /** Each line followed by its terminator, all in order. */
  function Interleave(lines: seq<string>, breaks: seq<string>): string
    requires |lines| == |breaks|
    decreases |lines|
  {
    if |lines| == 0 then "" else lines[0] + breaks[0] + Interleave(lines[1..], breaks[1..])
  }

  /** The lines and their terminators make up the text again. Every line but
      the last has a terminator, the last may lack one only when it is not
      empty, and a carriage return is never split from the line feed after
      it. */
  lemma ReadLinesRebuild(t: string)
    ensures var lines := ReadLines(t);
      var breaks := LineBreaks(t);
      && |breaks| == |lines|
      && Interleave(lines, breaks) == t
      && (forall i | 0 <= i < |breaks| - 1 :: IsTerminator(breaks[i]))
      && (|breaks| > 0 ==> IsTerminator(breaks[|breaks| - 1]) || (lines[|lines| - 1] != "" && breaks[|breaks| - 1] == ""))
      && (forall i | 0 <= i < |breaks| - 1 :: breaks[i] == "\r" ==> !(lines[i + 1] == "" && breaks[i + 1] == "\n"))
  {
    BreaksPairLines(t);
    InterleaveRebuilds(t);
    TerminatorKinds(t);
    CrNotSplit(t);
  }

  lemma {:induction false} BreaksPairLines(t: string)
    ensures |LineBreaks(t)| == |ReadLines(t)|
    decreases |t|
  {
    if |t| > 0 && LineBreakIndex(t) < |t| {
      var k := LineBreakIndex(t);
      BreaksPairLines(t[k + BreakLength(t, k)..]);
    }
  }

  lemma {:induction false} InterleaveRebuilds(t: string)
    ensures |LineBreaks(t)| == |ReadLines(t)|
    ensures Interleave(ReadLines(t), LineBreaks(t)) == t
    decreases |t|
  {
    BreaksPairLines(t);
    if |t| > 0 {
      var k := LineBreakIndex(t);
      if k == |t| {
        assert t[..k] == t;
      } else {
        var n := BreakLength(t, k);
        var rest := t[k + n..];
        InterleaveRebuilds(rest);
        assert ReadLines(t) == [t[..k]] + ReadLines(rest);
        assert LineBreaks(t) == [t[k..k + n]] + LineBreaks(rest);
        InterleaveCons(t[..k], t[k..k + n], ReadLines(rest), LineBreaks(rest));
        SplitThree(t, k, k + n);
      }
    }
  }

  lemma InterleaveCons(line: string, b: string, lines: seq<string>, breaks: seq<string>)
    requires |lines| == |breaks|
    ensures Interleave([line] + lines, [b] + breaks) == line + b + Interleave(lines, breaks)
  {
    assert ([line] + lines)[1..] == lines;
    assert ([b] + breaks)[1..] == breaks;
  }

  lemma SplitThree(t: string, i: nat, j: nat)
    requires i <= j <= |t|
    ensures t[..i] + t[i..j] + t[j..] == t
  {
  }

  lemma {:induction false} TerminatorKinds(t: string)
    ensures var lines := ReadLines(t);
      var breaks := LineBreaks(t);
      && |breaks| == |lines|
      && (forall i | 0 <= i < |breaks| - 1 :: IsTerminator(breaks[i]))
      && (|breaks| > 0 ==> IsTerminator(breaks[|breaks| - 1]) || (lines[|lines| - 1] != "" && breaks[|breaks| - 1] == ""))
    decreases |t|
  {
    BreaksPairLines(t);
    if |t| > 0 {
      var k := LineBreakIndex(t);
      if k == |t| {
        assert t[..k] == t;
      } else {
        var n := BreakLength(t, k);
        var rest := t[k + n..];
        TerminatorKinds(rest);
        assert ReadLines(t) == [t[..k]] + ReadLines(rest);
        assert LineBreaks(t) == [t[k..k + n]] + LineBreaks(rest);
      }
    }
  }

  lemma {:induction false} CrNotSplit(t: string)
    ensures var lines := ReadLines(t);
      var breaks := LineBreaks(t);
      && |breaks| == |lines|
      && (forall i | 0 <= i < |breaks| - 1 :: breaks[i] == "\r" ==> !(lines[i + 1] == "" && breaks[i + 1] == "\n"))
    decreases |t|
  {
    BreaksPairLines(t);
    if |t| > 0 {
      var k := LineBreakIndex(t);
      if k < |t| {
        var n := BreakLength(t, k);
        var rest := t[k + n..];
        CrNotSplit(rest);
        var lines := ReadLines(t);
        var breaks := LineBreaks(t);
        assert lines == [t[..k]] + ReadLines(rest);
        assert breaks == [t[k..k + n]] + LineBreaks(rest);
        if breaks[0] == "\r" && |breaks| > 1 {
          assert n == |breaks[0]| == 1 && t[k] == breaks[0][0];
          RestStartsAfterCr(t, k, rest);
        }
      }
    }
  }

  /** A lone carriage return is not followed by a line feed, so the next
      line is not an empty one ended by a line feed. */
  lemma RestStartsAfterCr(t: string, k: nat, rest: string)
    requires k < |t| && IsLineBreak(t[k]) && BreakLength(t, k) == 1 && t[k] == '\r'
    requires rest == t[k + 1..] && |rest| > 0
    ensures !(ReadLines(rest)[0] == "" && LineBreaks(rest)[0] == "\n")
  {
    assert rest[0] != '\n';
  }

  /** Each line after the rules have been applied to it. */
  function Transformed(rules: seq<Rule>, engine: Engine, lines: seq<string>): (r: seq<string>)
    ensures |r| == |lines|
    ensures forall i | 0 <= i < |lines| :: r[i] == ApplyAll(rules, engine, lines[i])
  {
    seq(|lines|, i requires 0 <= i < |lines| => ApplyAll(rules, engine, lines[i]))
  }

  /** What the rewrite writes: the transformed lines joined by the newline,
      plus one final newline exactly when the file ended with one. */
  function LineModeText(lines: seq<string>, rules: seq<Rule>, engine: Engine, nl: string, endsWithNewline: bool): string {
    Join(Transformed(rules, engine, lines), nl) + (if endsWithNewline then nl else "")
  }

  /** Every string of `xs` followed by a newline: what `WriteLine` leaves
      behind for the lines already known not to be the last. */
  function Terminated(xs: seq<string>, nl: string): string
    decreases |xs|
  {
    if |xs| == 0 then "" else Terminated(xs[..|xs| - 1], nl) + xs[|xs| - 1] + nl
  }

  /** Writing one more pending line after the terminated ones gives the join. */
  lemma {:induction false} TerminatedThenLast(xs: seq<string>, x: string, nl: string)
    ensures Terminated(xs, nl) + x == Join(xs + [x], nl)
    decreases |xs|
  {
    if |xs| > 0 {
      var init := xs[..|xs| - 1];
      var last := xs[|xs| - 1];
      TerminatedThenLast(init, last, nl);
      assert init + [last] == xs;
      JoinSnoc(xs, x, nl);
    }
  }

  /** `EditFileByLineImpl`'s loop: read one line ahead, write the pending
      line with a newline only once another line has turned up, and write the
      last pending line (or the empty string) with a newline only when the
      file ended with one. */
  method RewriteLines(lines: seq<string>, rules: seq<Rule>, engine: Engine, nl: string, endsWithNewline: bool)
    returns (out: string)
    ensures out == Join(Transformed(rules, engine, lines), nl) + (if endsWithNewline then nl else "")
  {
    var t := Transformed(rules, engine, lines);
    var prevLine: string := "";
    var havePrev := false;
    out := "";
    var i := 0;
    while i < |lines|
      invariant 0 <= i <= |lines|
      invariant havePrev <==> i > 0
      invariant i == 0 ==> prevLine == ""
      invariant i > 0 ==> prevLine == t[i - 1]
      invariant out == Terminated(t[..if i == 0 then 0 else i - 1], nl)
    {
      var line := lines[i];
      if havePrev {
        assert t[..i] == t[..i - 1] + [t[i - 1]];
        out := out + prevLine + nl;
      }
      prevLine := ApplyRules(rules, engine, line);
      havePrev := true;
      i := i + 1;
    }
    if |lines| == 0 {
      assert t == [] && t[..0] == [];
      assert out == "";
    } else {
      TerminatedThenLast(t[..|lines| - 1], prevLine, nl);
      assert t[..|lines| - 1] + [prevLine] == t;
    }
    assert out + prevLine == Join(t, nl);
    if endsWithNewline {
      out := out + prevLine + nl;
    } else {
      out := out + prevLine;
    }
  }

  /** The newline policy: a flagged file ends with the newline; an unflagged
      one ends with its last transformed line, and a file without lines gives
      the empty text or a lone newline. */
  lemma LineModeNewlinePolicy(lines: seq<string>, rules: seq<Rule>, engine: Engine, nl: string, endsWithNewline: bool)
    ensures var r := LineModeText(lines, rules, engine, nl, endsWithNewline);
      && (endsWithNewline ==> |r| >= |nl| && r[|r| - |nl|..] == nl)
      && (!endsWithNewline && |lines| > 0 ==>
           var last := ApplyAll(rules, engine, lines[|lines| - 1]);
           |r| >= |last| && r[|r| - |last|..] == last)
      && (|lines| == 0 ==> r == (if endsWithNewline then nl else ""))
  {
    var t := Transformed(rules, engine, lines);
    var r := LineModeText(lines, rules, engine, nl, endsWithNewline);
    var j := Join(t, nl);
    if endsWithNewline {
      assert r == j + nl;
      assert r[|j|..] == nl;
    } else if |lines| > 0 {
      var init, last := t[..|t| - 1], t[|t| - 1];
      TerminatedThenLast(init, last, nl);
      assert init + [last] == t;
      assert r == Terminated(init, nl) + last;
      assert r[|Terminated(init, nl)|..] == last;
    }
    if |lines| == 0 {
      assert t == [];
    }
  }

  /** Removing the line breaks of a text without carriage returns and putting
      a line feed back between the lines, plus one at the end when the text
      had one there, gives the text back. */
  lemma {:induction false} SplitJoinLf(t: string)
    requires forall j | 0 <= j < |t| :: t[j] != '\r'
    ensures Join(ReadLines(t), "\n") + (if |t| > 0 && t[|t| - 1] == '\n' then "\n" else "") == t
    decreases |t|
  {
    if |t| > 0 {
      var k := LineBreakIndex(t);
      if k == |t| {
        assert t[..k] == t;
        assert !IsLineBreak(t[..k][|t| - 1]);
      } else {
        var rest := t[k + 1..];
        SplitAtLf(t, k);
        if |rest| > 0 {
          var lines := ReadLines(rest);
          var tail := if rest[|rest| - 1] == '\n' then "\n" else "";
          var head := t[..k] + "\n";
          SplitJoinLf(rest);
          JoinCons(t[..k], lines, "\n");
          assert t[|t| - 1] == rest[|rest| - 1];
          calc {
            Join(ReadLines(t), "\n") + tail;
            (head + Join(lines, "\n")) + tail;
            { SeqAssoc(head, Join(lines, "\n"), tail); }
            head + (Join(lines, "\n") + tail);
            head + rest;
          }
        } else {
          assert ReadLines(rest) == [];
          assert t == t[..k] + "\n";
        }
      }
    }
  }

  /** One step of `ReadLines` on a text without carriage returns. */
  lemma SplitAtLf(t: string, k: nat)
    requires forall j | 0 <= j < |t| :: t[j] != '\r'
    requires |t| > 0 && k == LineBreakIndex(t) && k < |t|
    ensures ReadLines(t) == [t[..k]] + ReadLines(t[k + 1..])
    ensures t == t[..k] + "\n" + t[k + 1..]
    ensures t[k] == '\n'
  {
    assert t[k] == '\n';
    assert BreakLength(t, k) == 1;
    assert ReadLines(t) == [t[..k]] + ReadLines(t[k + BreakLength(t, k)..]);
    SplitAround(t, k);
  }

  lemma SeqAssoc(a: string, b: string, c: string)
    ensures (a + b) + c == a + (b + c)
  {
  }

  lemma SplitAround(t: string, k: nat)
    requires k < |t|
    ensures t == t[..k] + [t[k]] + t[k + 1..]
  {
  }

  lemma JoinCons(x: string, xs: seq<string>, sep: string)
    requires |xs| > 0
    ensures Join([x] + xs, sep) == x + sep + Join(xs, sep)
  {
    assert ([x] + xs)[1..] == xs;
  }

  /** With substitutions that change no line, a line-feed-only text whose
      newline flag is accurate is written back unchanged when the writer's
      newline is a line feed. */
  lemma NoMatchReproducesLfText(t: string, rules: seq<Rule>, engine: Engine, endsWithNewline: bool)
    requires forall j | 0 <= j < |t| :: t[j] != '\r'
    requires forall l | l in ReadLines(t) :: ApplyAll(rules, engine, l) == l
    requires endsWithNewline <==> |t| > 0 && t[|t| - 1] == '\n'
    ensures LineModeText(ReadLines(t), rules, engine, "\n", endsWithNewline) == t
  {
    var lines := ReadLines(t);
    assert Transformed(rules, engine, lines) == lines;
    SplitJoinLf(t);
  }

  /** A line holds no line feed, so a literal pattern with one is absent
      from every line. */
  lemma LineBreakPatternAbsent(l: string, p: string, k: nat)
    requires HasNoLineBreak(l) && k < |p| && p[k] == '\n'
    ensures Absent(l, p)
  {
    forall i: nat | i + |p| <= |l|
      ensures !OccursAt(l, p, i)
    {
      assert l[i..i + |p|][k] == l[i + k];
    }
  }

  /** A literal pattern that contains a line feed never matches in line
      mode: a line-feed-only text is written back unchanged whatever the
      replacement. */
  lemma LineBreakPatternNeverMatchesLineMode(t: string, p: string, k: nat, rep: string)
    requires forall j | 0 <= j < |t| :: t[j] != '\r'
    requires k < |p| && p[k] == '\n'
    ensures LineModeText(ReadLines(t), [Rule(Matcher(p, true, false), rep)], LiteralEngine, "\n",
      |t| > 0 && t[|t| - 1] == '\n') == t
  {
    var rules := [Rule(Matcher(p, true, false), rep)];
    assert rules[1..] == [];
    forall l | l in ReadLines(t)
      ensures ApplyAll(rules, LiteralEngine, l) == l
    {
      LineBreakPatternAbsent(l, p, k);
      LiteralReplaceAbsent(l, p, rep);
    }
    NoMatchReproducesLfText(t, rules, LiteralEngine, |t| > 0 && t[|t| - 1] == '\n');
  }

  /** The same literal pattern matches when the whole text is one string:
      `foo\nbar -> X` collapses the two lines of `foo\nbar` with `-SingleString`
      and leaves them alone line by line. */
  lemma CrossLinePatternOnlyMatchesWholeText()
    ensures var rules := [Rule(Matcher("foo\nbar", true, false), "X")];
      && ApplyAll(rules, LiteralEngine, "foo\nbar") == "X"
      && LineModeText(ReadLines("foo\nbar"), rules, LiteralEngine, "\n", false) == "foo\nbar"
  {
    var p := "foo\nbar";
    var rules := [Rule(Matcher(p, true, false), "X")];
    LiteralReplaceWhole(p, "X");
    assert rules[1..] == [];
    LineBreakPatternNeverMatchesLineMode(p, p, 3, "X");
  }
}

=== FILE: patterns.dfy ===
/** The pattern set of Edit-Content (src/code/EditContentCommand.cs, lines
    82-114 and 224-227): the paired Pattern/Replacement arrays, the checks that
    they pair up and parse, and the ordered application of every substitution.

    The .NET regular-expression engine is not modelled: an `Engine` is any
    function taking a compiled matcher, a replacement string and an input and
    returning the input with every match replaced. `LiteralReplace` is one
    concrete engine, the behaviour of `-SimpleMatch -CaseSensitive` for
    replacements that contain no `$` substitution. */
module Patterns {
  import opened Wrappers

  /** A compiled `Regex`: the pattern text as the user gave it, whether it is
      escaped first (`-SimpleMatch`) and whether `RegexOptions.IgnoreCase` is
      set (no `-CaseSensitive`). */
  datatype Matcher = Matcher(pattern: string, simpleMatch: bool, ignoreCase: bool)

  datatype Rule = Rule(matcher: Matcher, replacement: string)

  /** `engine(m, replacement, input)` stands for `regex.Replace(input, replacement)`. */
  type Engine = (Matcher, string, string) -> string

  /** `parses(pattern)` stands for `new Regex(pattern, options)` returning
      instead of throwing. The case option does not change what parses, and
      an escaped pattern (`-SimpleMatch`) always parses. */
  type Syntax = string -> bool

  /** The terminating errors of `BeginProcessing`: the two arrays do not pair
      up, or pattern `index` is not a regular expression. */
  datatype ConfigError =
    | LengthMismatch(patterns: nat, replacements: nat)
    | InvalidPattern(index: nat, pattern: string)

  /** The first pattern at or after `i` that does not parse, or the length
      when all of them do. */
  function FirstInvalid(patterns: seq<string>, parses: Syntax, i: nat): (k: nat)
    requires i <= |patterns|
    ensures i <= k <= |patterns|
    ensures forall j | i <= j < k :: parses(patterns[j])
    ensures k < |patterns| ==> !parses(patterns[k])
    decreases |patterns| - i
  {
    if i == |patterns| || !parses(patterns[i]) then i else FirstInvalid(patterns, parses, i + 1)
  }

  /** `BeginProcessing`: rejects arrays of different lengths before anything
      is compiled; otherwise compiles pattern `i` with the shared flags and
      pairs it with replacement `i`, stopping at the first pattern the regular
      expression parser rejects. */
  function Compile(patterns: seq<string>, replacements: seq<string>, simpleMatch: bool, caseSensitive: bool,
                   parses: Syntax)
    : (r: Result<seq<Rule>, ConfigError>)
    ensures r.Failure? <==>
      |patterns| != |replacements| || (!simpleMatch && exists i | 0 <= i < |patterns| :: !parses(patterns[i]))
    ensures |patterns| != |replacements| ==> r == Failure(LengthMismatch(|patterns|, |replacements|))
    ensures r.Failure? && r.error.InvalidPattern? ==>
      && !simpleMatch
      && r.error.index < |patterns|
      && r.error.pattern == patterns[r.error.index]
      && !parses(patterns[r.error.index])
      && forall j | 0 <= j < r.error.index :: parses(patterns[j])
    ensures r.Success? ==>
      && |r.value| == |patterns|
      && forall i | 0 <= i < |r.value| ::
        && r.value[i].matcher.pattern == patterns[i]
        && r.value[i].replacement == replacements[i]
        && r.value[i].matcher.simpleMatch == simpleMatch
        && r.value[i].matcher.ignoreCase == !caseSensitive
  {
    if |patterns| != |replacements| then Failure(LengthMismatch(|patterns|, |replacements|))
    else if !simpleMatch && FirstInvalid(patterns, parses, 0) < |patterns| then
      var k := FirstInvalid(patterns, parses, 0);
      Failure(InvalidPattern(k, patterns[k]))
    else Success(seq(|patterns|, i requires 0 <= i < |patterns| =>
      Rule(Matcher(patterns[i], simpleMatch, !caseSensitive), replacements[i])))
  }

  /** The error names the first pattern that does not parse, whatever comes
      after it; the same patterns escaped by `-SimpleMatch` all compile. */
  lemma FirstBadPatternReported(patterns: seq<string>, replacements: seq<string>, caseSensitive: bool,
                                parses: Syntax, k: nat)
    requires |patterns| == |replacements|
    requires k < |patterns| && !parses(patterns[k])
    requires forall j | 0 <= j < k :: parses(patterns[j])
    ensures Compile(patterns, replacements, false, caseSensitive, parses) == Failure(InvalidPattern(k, patterns[k]))
    ensures Compile(patterns, replacements, true, caseSensitive, parses).Success?
  {
    assert FirstInvalid(patterns, parses, 0) == k;
  }

  /** The substitutions as a left fold in declared order: rule `i + 1` is
      applied to the output of rule `i`. */
  function ApplyAll(rules: seq<Rule>, engine: Engine, s: string): string
    decreases |rules|
  {
    if |rules| == 0 then s
    else ApplyAll(rules[1..], engine, engine(rules[0].matcher, rules[0].replacement, s))
  }

  /** The last rule sees the output of all the rules before it. */
  lemma {:induction false} ApplyAllSnoc(rules: seq<Rule>, r: Rule, engine: Engine, s: string)
    ensures ApplyAll(rules + [r], engine, s) == engine(r.matcher, r.replacement, ApplyAll(rules, engine, s))
    decreases |rules|
  {
    if |rules| > 0 {
      assert (rules + [r])[1..] == rules[1..] + [r];
      ApplyAllSnoc(rules[1..], r, engine, engine(rules[0].matcher, rules[0].replacement, s));
    }
  }

  /** Splitting the rule list splits the fold. */
  lemma {:induction false} ApplyAllAppend(a: seq<Rule>, b: seq<Rule>, engine: Engine, s: string)
    ensures ApplyAll(a + b, engine, s) == ApplyAll(b, engine, ApplyAll(a, engine, s))
    decreases |a|
  {
    if |a| > 0 {
      assert (a + b)[1..] == a[1..] + b;
      ApplyAllAppend(a[1..], b, engine, engine(a[0].matcher, a[0].replacement, s));
    } else {
      assert a + b == b;
    }
  }

  /** The `for` loop over `_regexes` that rewrites `content` in place. */
  method ApplyRules(rules: seq<Rule>, engine: Engine, s: string) returns (content: string)
    ensures content == ApplyAll(rules, engine, s)
    ensures |rules| == 0 ==> content == s
    ensures |rules| > 0 ==> content == engine(rules[|rules| - 1].matcher, rules[|rules| - 1].replacement,
      ApplyAll(rules[..|rules| - 1], engine, s))
  {
    content := s;
    var i := 0;
    while i < |rules|
      invariant 0 <= i <= |rules|
      invariant content == ApplyAll(rules[..i], engine, s)
    {
      ApplyAllSnoc(rules[..i], rules[i], engine, s);
      assert rules[..i + 1] == rules[..i] + [rules[i]];
      content := engine(rules[i].matcher, rules[i].replacement, content);
      i := i + 1;
    }
    assert rules[..i] == rules;
    if |rules| > 0 {
      ApplyAllSnoc(rules[..|rules| - 1], rules[|rules| - 1], engine, s);
      assert rules[..|rules| - 1] + [rules[|rules| - 1]] == rules;
    }
  }

  /** Whether `p` occurs in `s` at position `i`. */
  predicate OccursAt(s: string, p: string, i: nat) {
    i + |p| <= |s| && s[i..i + |p|] == p
  }

  /** Whether `p` occurs nowhere in `s`. */
  predicate Absent(s: string, p: string) {
    forall i: nat | i + |p| <= |s| :: !OccursAt(s, p, i)
  }

  /** Replace-all of a literal, case-sensitive pattern, scanning left to right
      and never overlapping two matches. The empty pattern matches before
      every character and at the end, as the empty regular expression does. */
  function LiteralReplace(s: string, p: string, rep: string): (r: string)
    decreases |s|
  {
    if |p| == 0 then
      if |s| == 0 then rep else rep + [s[0]] + LiteralReplace(s[1..], p, rep)
    else if |s| < |p| then s
    else if s[..|p|] == p then rep + LiteralReplace(s[|p|..], p, rep)
    else [s[0]] + LiteralReplace(s[1..], p, rep)
  }

  /** A literal pattern that does not occur leaves the text unchanged. */
  lemma {:induction false} LiteralReplaceAbsent(s: string, p: string, rep: string)
    requires |p| > 0 && Absent(s, p)
    ensures LiteralReplace(s, p, rep) == s
    decreases |s|
  {
    if |s| >= |p| {
      assert !OccursAt(s, p, 0);
      assert s[0..|p|] == s[..|p|];
      assert Absent(s[1..], p) by {
        forall i: nat | i + |p| <= |s[1..]|
          ensures !OccursAt(s[1..], p, i)
        {
          assert !OccursAt(s, p, i + 1);
          assert s[1..][i..i + |p|] == s[i + 1..i + 1 + |p|];
        }
      }
      LiteralReplaceAbsent(s[1..], p, rep);
      assert [s[0]] + s[1..] == s;
    }
  }

  /** A text that is exactly the pattern becomes exactly the replacement. */
  lemma LiteralReplaceWhole(p: string, rep: string)
    requires |p| > 0
    ensures LiteralReplace(p, p, rep) == rep
  {
    assert p[..|p|] == p;
    assert p[|p|..] == [];
  }

  /** The `-SimpleMatch -CaseSensitive` engine. */
  function LiteralEngine(m: Matcher, rep: string, s: string): string {
    LiteralReplace(s, m.pattern, rep)
  }

  /** Declared order matters: with `A -> B` then `B -> C`, the text `A` becomes
      `C`, because the second substitution sees the output of the first. */
  lemma OrderedSubstitution(parses: Syntax)
    ensures var rules := Compile(["A", "B"], ["B", "C"], true, true, parses).value;
      ApplyAll(rules, LiteralEngine, "A") == "C"
  {
    var rules := Compile(["A", "B"], ["B", "C"], true, true, parses).value;
    assert rules == [Rule(Matcher("A", true, false), "B"), Rule(Matcher("B", true, false), "C")];
    LiteralReplaceWhole("A", "B");
    LiteralReplaceWhole("B", "C");
    calc {
      ApplyAll(rules, LiteralEngine, "A");
      ApplyAll(rules[1..], LiteralEngine, LiteralEngine(rules[0].matcher, rules[0].replacement, "A"));
      { assert LiteralEngine(rules[0].matcher, rules[0].replacement, "A") == "B"; }
      ApplyAll(rules[1..], LiteralEngine, "B");
      { assert rules[1..][0] == rules[1] && rules[1..][1..] == []; }
      ApplyAll([], LiteralEngine, LiteralEngine(rules[1].matcher, rules[1].replacement, "B"));
      "C";
    }
  }
}

=== FILE: table_cells.dfy ===
/** Cell and header extraction of ConvertFrom-TextTable
    (src/code/TextTableParser.cs): slicing a line by its columns, trimming
    the values, turning header cells into property names, numbering headers
    when there is no header line, and the shape of the JSON and object output
    of one line.

    `String.Substring` throws when a column does not fit the line; here that
    is a `Failure`, and the first failing column decides the error. JSON
    string escaping (`JsonEncodedText.Encode`) is a parameter. */
module TableCells {
  import opened Wrappers
  import opened Text
  import opened TableColumns

  datatype TableError =
    | SubstringOutOfRange(start: int, length: int, lineLength: nat)
    | HeaderLineOutOfRange(index: int, lineCount: nat)
    | HeaderIndexOutOfRange(missing: nat)
    | EmptyPropertyName(column: nat)
    | DuplicatePropertyName(column: nat, name: string)

  /** Whether the column can be cut out of the line at all. */
  predicate Fits(c: ColumnInfo, line: string) {
    0 <= c.start && if c.length == -1 then c.start <= |line| else 0 <= c.length && c.start + c.length <= |line|
  }

  /** `line.Substring(start)` for a column that reads to the end of the line,
      `line.Substring(start, length)` for any other. */
  function CellText(c: ColumnInfo, line: string): (r: Result<string, TableError>)
    ensures r.Success? <==> Fits(c, line)
    ensures r.Success? ==> r.value == line[c.start..ColumnEnd(c, |line|)]
    ensures r.Failure? ==> r.error == SubstringOutOfRange(c.start, c.length, |line|)
  {
    if !Fits(c, line) then Failure(SubstringOutOfRange(c.start, c.length, |line|))
    else if c.length == -1 then Success(line[c.start..])
    else Success(line[c.start..c.start + c.length])
  }

  /** `GetStringColumnData`: every cell of the line, trimmed, in column order;
      the first column that does not fit stops the loop. */
  function ColumnValues(cs: seq<ColumnInfo>, line: string): (r: Result<seq<string>, TableError>)
    ensures r.Success? <==> forall i | 0 <= i < |cs| :: Fits(cs[i], line)
    ensures r.Success? ==>
      |r.value| == |cs| && forall i | 0 <= i < |cs| :: r.value[i] == Trim(CellText(cs[i], line).value)
    decreases |cs|
  {
    if |cs| == 0 then Success([])
    else
      var v :- CellText(cs[0], line);
      var rest :- ColumnValues(cs[1..], line);
      Success([Trim(v)] + rest)
  }

  /** The position of the first column that does not fit the line. */
  function FirstMisfit(cs: seq<ColumnInfo>, line: string): (k: nat)
    requires exists i | 0 <= i < |cs| :: !Fits(cs[i], line)
    ensures k < |cs| && !Fits(cs[k], line)
    ensures forall j | 0 <= j < k :: Fits(cs[j], line)
    decreases |cs|
  {
    if !Fits(cs[0], line) then 0
    else
      assert exists i | 0 <= i < |cs[1..]| :: !Fits(cs[1..][i], line) by {
        var i :| 0 <= i < |cs| && !Fits(cs[i], line);
        assert cs[1..][i - 1] == cs[i];
      }
      var k := FirstMisfit(cs[1..], line);
      assert forall j | 1 <= j <= k :: cs[j] == cs[1..][j - 1];
      k + 1
  }

  /** The error names the first column that does not fit. */
  lemma {:induction false} FirstMisfitReported(cs: seq<ColumnInfo>, line: string)
    requires ColumnValues(cs, line).Failure?
    ensures ColumnValues(cs, line).error == CellText(cs[FirstMisfit(cs, line)], line).error
    decreases |cs|
  {
    if Fits(cs[0], line) {
      assert ColumnValues(cs, line) == ColumnValues(cs[1..], line).PropagateFailure();
      FirstMisfitReported(cs[1..], line);
      assert cs[1..][FirstMisfit(cs[1..], line)] == cs[FirstMisfit(cs, line)];
    }
  }

  /** On the widest line every automatic column fits, and the raw cells put
      back together give the line. */
  lemma {:induction false} CellsTileLine(counts: seq<nat>, count: int, i: nat, line: string)
    requires i <= |counts| == |line|
    ensures var cs := ColumnsFrom(counts, count, i);
      && (forall m | 0 <= m < |cs| :: Fits(cs[m], line))
      && RawCells(cs, line) == line[i..]
    decreases |counts| - i
  {
    var cs := ColumnsFrom(counts, count, i);
    if i == |counts| {
      assert line[i..] == [];
    } else {
      var k := NextStart(counts, count, i);
      var c := HeadColumn(counts, count, i);
      HeadColumnFacts(counts, count, i);
      CellsTileLine(counts, count, k, line);
      var rest := ColumnsFrom(counts, count, k);
      assert cs == [c] + rest;
      assert cs[1..] == rest;
      assert CellText(c, line).value == line[i..k];
      forall m | 0 <= m < |cs| ensures Fits(cs[m], line) {
        if m > 0 {
          assert cs[m] == rest[m - 1];
        }
      }
      assert line[i..] == line[i..k] + line[k..];
    }
  }

  /** The untrimmed cells of the line, one after the other; empty when a
      column does not fit. */
  function RawCells(cs: seq<ColumnInfo>, line: string): string
    decreases |cs|
  {
    if |cs| == 0 then ""
    else
      match CellText(cs[0], line)
      case Success(v) => v + RawCells(cs[1..], line)
      case Failure(_) => ""
  }

  /** `Replace(" ", "_")`: each space becomes an underscore, other characters
      stay. */
  function Underscored(s: string): (r: string)
    ensures |r| == |s|
    ensures forall i | 0 <= i < |s| :: r[i] == (if s[i] == ' ' then '_' else s[i])
  {
    seq(|s|, i requires 0 <= i < |s| => if s[i] == ' ' then '_' else s[i])
  }

  /** A name free of spaces whose ends are not white space. */
  predicate IsHeaderName(s: string) {
    && (forall k | 0 <= k < |s| :: s[k] != ' ')
    && (|s| == 0 || (!IsWhiteSpace(s[0]) && !IsWhiteSpace(s[|s| - 1])))
  }

  /** Underscoring a trimmed value gives a header name. */
  lemma UnderscoredTrimmed(s: string)
    requires |s| == 0 || (!IsWhiteSpace(s[0]) && !IsWhiteSpace(s[|s| - 1]))
    ensures IsHeaderName(Underscored(s))
  {
    if |s| > 0 {
      assert s[0] != ' ' && s[|s| - 1] != ' ';
    }
  }

  /** `GetHeaderColumns`: the header line's cells, trimmed, with inner spaces
      turned into underscores. */
  function HeaderNames(cs: seq<ColumnInfo>, line: string): (r: Result<seq<string>, TableError>)
    ensures r.Success? <==> ColumnValues(cs, line).Success?
    ensures r.Failure? ==> r.error == ColumnValues(cs, line).error
    ensures r.Success? ==>
      |r.value| == |cs| && forall i | 0 <= i < |cs| :: r.value[i] == Underscored(Trim(CellText(cs[i], line).value))
    ensures r.Success? ==> forall i | 0 <= i < |cs| :: IsHeaderName(r.value[i])
  {
    var values :- ColumnValues(cs, line);
    var names := seq(|values|, i requires 0 <= i < |values| => Underscored(values[i]));
    assert forall i | 0 <= i < |names| :: IsHeaderName(names[i]) by {
      forall i | 0 <= i < |names| ensures IsHeaderName(names[i]) {
        UnderscoredTrimmed(values[i]);
      }
    }
    Success(names)
  }

  /** A line read as one column that reaches to its end. */
  lemma WholeLineValue(t: string)
    requires |t| == 0 || (!IsWhiteSpace(t[0]) && !IsWhiteSpace(t[|t| - 1]))
    ensures ColumnValues([ColumnInfo(0, -1, 0)], t) == Success([t])
  {
    TailValue("", t);
    assert "" + t == t;
  }

  lemma UnderscoredExample()
    ensures Underscored("Process Name") == "Process_Name"
  {
    var u := Underscored("Process Name");
    assert forall i | 0 <= i < 12 :: u[i] == "Process_Name"[i];
  }

  /** A header line read as one column gives one name, the line with its
      spaces underscored. */
  lemma WholeLineHeader(t: string)
    requires |t| == 0 || (!IsWhiteSpace(t[0]) && !IsWhiteSpace(t[|t| - 1]))
    ensures HeaderNames([ColumnInfo(0, -1, 0)], t) == Success([Underscored(t)])
  {
    var c := ColumnInfo(0, -1, 0);
    WholeLineValue(t);
    var r := HeaderNames([c], t);
    assert CellText(c, t).value == t by {
      assert t[0..] == t;
    }
    TrimUnchanged(t);
    assert r.Success? && |r.value| == 1;
    assert r.value[0] == Underscored(t);
    assert r.value == [Underscored(t)];
  }

  /** A header cell `Process Name` becomes the property `Process_Name`. */
  lemma HeaderExample()
    ensures HeaderNames([ColumnInfo(0, -1, 0)], "Process Name") == Success(["Process_Name"])
  {
    WholeLineHeader("Process Name");
    UnderscoredExample();
  }

  /** `string.Format("Property_{0:00}", i + 1)`: the synthesised name of
      column `i` when there is no header line. */
  function PropertyName(i: nat): (r: string)
    ensures |r| >= 11 && r[..9] == "Property_"
    ensures i < 99 ==> |r| == 11
    ensures DigitsValue(r[9..]) == i + 1
  {
    var d := TwoDigits(i + 1);
    assert ("Property_" + d)[9..] == d;
    "Property_" + d
  }

  /** Synthesised names are numbered from one with two digits. */
  lemma PropertyNameExamples()
    ensures PropertyName(0) == "Property_01"
    ensures PropertyName(9) == "Property_10"
  {
    assert TwoDigits(10) == NatToString(10);
    assert NatToString(10) == NatToString(1) + [DigitChar(0)];
  }

  /** Distinct columns get distinct synthesised names. */
  lemma PropertyNamesDistinct(i: nat, j: nat)
    requires i != j
    ensures PropertyName(i) != PropertyName(j)
  {
  }

  /** The names of all columns when there is no header line. */
  function PropertyNames(n: nat): (r: seq<string>)
    ensures |r| == n && forall i | 0 <= i < n :: r[i] == PropertyName(i)
  {
    seq(n, i requires 0 <= i < n => PropertyName(i))
  }

  /** One `"header": "value"` member of a JSON line. */
  function JsonMember(header: string, value: string, escape: string -> string): string {
    "\"" + header + "\": \"" + escape(value) + "\""
  }

  /** The members of a JSON line, one per column. */
  function JsonMembers(headers: seq<string>, values: seq<string>, escape: string -> string): (r: seq<string>)
    requires |values| <= |headers|
    ensures |r| == |values| && forall j | 0 <= j < |r| :: r[j] == JsonMember(headers[j], values[j], escape)
  {
    seq(|values|, j requires 0 <= j < |values| => JsonMember(headers[j], values[j], escape))
  }

  /** `GetJson`: the members of the line in column order, joined by `, `,
      between `{ ` and ` }`. The cells are cut first; a header array shorter
      than the columns then fails on the first missing index. */
  function GetJson(cs: seq<ColumnInfo>, line: string, headers: seq<string>, escape: string -> string)
    : (r: Result<string, TableError>)
    ensures r.Success? <==> ColumnValues(cs, line).Success? && |cs| <= |headers|
    ensures ColumnValues(cs, line).Failure? ==> r == Failure(ColumnValues(cs, line).error)
    ensures ColumnValues(cs, line).Success? && |headers| < |cs| ==> r == Failure(HeaderIndexOutOfRange(|headers|))
    ensures r.Success? ==>
      r.value == "{ " + Join(JsonMembers(headers, ColumnValues(cs, line).value, escape), ", ") + " }"
  {
    var values :- ColumnValues(cs, line);
    if |headers| < |values| then Failure(HeaderIndexOutOfRange(|headers|))
    else Success("{ " + Join(JsonMembers(headers, values, escape), ", ") + " }")
  }

  /** `ColumnValues` of a column that fits, followed by more columns. */
  lemma ConsValues(c: ColumnInfo, rest: seq<ColumnInfo>, line: string, v: string, vs: seq<string>)
    requires CellText(c, line) == Success(v)
    requires ColumnValues(rest, line) == Success(vs)
    ensures ColumnValues([c] + rest, line) == Success([Trim(v)] + vs)
  {
    assert ([c] + rest)[0] == c && ([c] + rest)[1..] == rest;
  }

  /** The last column of a line read to its end. */
  lemma TailValue(a: string, b: string)
    requires |b| == 0 || (!IsWhiteSpace(b[0]) && !IsWhiteSpace(b[|b| - 1]))
    ensures ColumnValues([ColumnInfo(|a|, -1, 0)], a + b) == Success([b])
  {
    var c := ColumnInfo(|a|, -1, 0);
    assert CellText(c, a + b) == Success(b) by {
      assert (a + b)[|a|..] == b;
    }
    assert ColumnValues([], a + b) == Success([]);
    ConsValues(c, [], a + b, b, []);
    TrimUnchanged(b);
    assert [c] + [] == [c] && [b] + [] == [b];
  }

  /** A line cut into two columns at the end of `a`. */
  lemma TwoValues(a: string, b: string)
    requires |a| == 0 || (!IsWhiteSpace(a[0]) && !IsWhiteSpace(a[|a| - 1]))
    requires |b| == 0 || (!IsWhiteSpace(b[0]) && !IsWhiteSpace(b[|b| - 1]))
    ensures ColumnValues([ColumnInfo(0, |a|, 0), ColumnInfo(|a|, -1, 0)], a + b) == Success([a, b])
  {
    var c0, c1 := ColumnInfo(0, |a|, 0), ColumnInfo(|a|, -1, 0);
    assert CellText(c0, a + b) == Success(a) by {
      assert (a + b)[0..|a|] == a;
    }
    TailValue(a, b);
    ConsValues(c0, [c1], a + b, a, [b]);
    TrimUnchanged(a);
    assert [c0] + [c1] == [c0, c1] && [a] + [b] == [a, b];
  }

  /** Two members joined between the braces. */
  lemma TwoMembers(x: string, y: string)
    ensures "{ " + Join([x, y], ", ") + " }" == "{ " + x + ", " + y + " }"
  {
    assert [x, y][1..] == [y];
    assert Join([x, y], ", ") == x + ", " + y;
  }

  /** A line cut into two columns gives two members. */
  lemma TwoColumnJson(a: string, b: string, h0: string, h1: string, escape: string -> string)
    requires |a| == 0 || (!IsWhiteSpace(a[0]) && !IsWhiteSpace(a[|a| - 1]))
    requires |b| == 0 || (!IsWhiteSpace(b[0]) && !IsWhiteSpace(b[|b| - 1]))
    ensures GetJson([ColumnInfo(0, |a|, 0), ColumnInfo(|a|, -1, 0)], a + b, [h0, h1], escape)
      == Success("{ " + JsonMember(h0, a, escape) + ", " + JsonMember(h1, b, escape) + " }")
  {
    var x, y := JsonMember(h0, a, escape), JsonMember(h1, b, escape);
    TwoValues(a, b);
    assert JsonMembers([h0, h1], [a, b], escape) == [x, y];
    TwoMembers(x, y);
  }

  /** The exception turn `i` of the property loop of `GetPsObject` raises:
      `columnHeaders[i]` is out of range, `new PSNoteProperty` refuses an
      empty name, or `Properties.Add` refuses a name an earlier property
      already has (member names compare ignoring case). */
  function PropertyError(headers: seq<string>, i: nat): Option<TableError> {
    if i >= |headers| then Some(HeaderIndexOutOfRange(i))
    else if headers[i] == "" then Some(EmptyPropertyName(i))
    else if NameTaken(headers, i) then Some(DuplicatePropertyName(i, headers[i]))
    else None
  }

  /** Whether an earlier header has the name of header `i`, ignoring case. */
  predicate NameTaken(headers: seq<string>, i: nat)
    requires i < |headers|
  {
    exists j | 0 <= j < i :: EqualsIgnoreCase(headers[j], headers[i])
  }

  /** The first turn at or after `i`, and before `n`, that raises; `n` when
      none does. */
  function FirstPropertyError(headers: seq<string>, n: nat, i: nat): (k: nat)
    requires i <= n
    ensures i <= k <= n
    ensures forall j | i <= j < k :: PropertyError(headers, j).None?
    ensures k < n ==> PropertyError(headers, k).Some?
    decreases n - i
  {
    if i == n || PropertyError(headers, i).Some? then i else FirstPropertyError(headers, n, i + 1)
  }

  /** When no turn before `n` raises, there are at least `n` headers. */
  lemma HeadersCoverColumns(headers: seq<string>, n: nat)
    requires forall j | 0 <= j < n :: PropertyError(headers, j).None?
    ensures n <= |headers|
  {
    assert |headers| < n ==> PropertyError(headers, |headers|).Some?;
  }

  /** `GetPsObject` without value conversion: one property per column, named
      by the header, holding the trimmed cell. The cells are cut first; then
      the properties are added in column order, and the first header that is
      missing, empty or a repeat stops the line with its exception. */
  function GetPsObject(cs: seq<ColumnInfo>, line: string, headers: seq<string>)
    : (r: Result<seq<(string, string)>, TableError>)
    ensures r.Success? <==>
      ColumnValues(cs, line).Success? && forall i | 0 <= i < |cs| :: PropertyError(headers, i).None?
    ensures ColumnValues(cs, line).Failure? ==> r == Failure(ColumnValues(cs, line).error)
    ensures ColumnValues(cs, line).Success? && r.Failure? ==>
      var k := FirstPropertyError(headers, |cs|, 0);
      k < |cs| && r == Failure(PropertyError(headers, k).value)
    ensures r.Success? ==>
      && |cs| <= |headers|
      && |r.value| == |cs|
      && forall i | 0 <= i < |cs| :: r.value[i] == (headers[i], Trim(CellText(cs[i], line).value))
  {
    var cv := ColumnValues(cs, line);
    if cv.Failure? then Failure(cv.error)
    else
      var k := FirstPropertyError(headers, |cs|, 0);
      if k < |cs| then Failure(PropertyError(headers, k).value)
      else
        HeadersCoverColumns(headers, |cs|);
        Success(seq(|cs|, i requires 0 <= i < |cs| => (headers[i], cv.value[i])))
  }

  /** The names the property loop adds without raising are non-empty and
      pairwise different, even ignoring case. */
  lemma AddedNamesDistinct(headers: seq<string>, n: nat)
    requires forall j | 0 <= j < n :: PropertyError(headers, j).None?
    ensures n <= |headers|
    ensures forall i | 0 <= i < n :: headers[i] != ""
    ensures forall i, j | 0 <= j < i < n :: !EqualsIgnoreCase(headers[j], headers[i])
  {
    HeadersCoverColumns(headers, n);
    forall i | 0 <= i < n
      ensures headers[i] != "" && !NameTaken(headers, i)
    {
      assert PropertyError(headers, i).None?;
    }
  }

  /** An object's property names are never empty and never repeat, even
      ignoring case. */
  lemma ObjectNamesDistinct(cs: seq<ColumnInfo>, line: string, headers: seq<string>)
    requires GetPsObject(cs, line, headers).Success?
    ensures var props := GetPsObject(cs, line, headers).value;
      && (forall i | 0 <= i < |props| :: props[i].0 != "")
      && (forall i, j | 0 <= j < i < |props| :: !EqualsIgnoreCase(props[j].0, props[i].0))
  {
    var props := GetPsObject(cs, line, headers).value;
    AddedNamesDistinct(headers, |cs|);
    assert forall i | 0 <= i < |props| :: props[i].0 == headers[i];
  }

  /** A blank header cell, which a white-space column in the header line
      gives, stops the line in object mode. */
  lemma BlankHeaderStopsObjects(a: string, b: string)
    requires |a| == 0 || (!IsWhiteSpace(a[0]) && !IsWhiteSpace(a[|a| - 1]))
    requires |b| == 0 || (!IsWhiteSpace(b[0]) && !IsWhiteSpace(b[|b| - 1]))
    ensures GetPsObject([ColumnInfo(0, |a|, 0), ColumnInfo(|a|, -1, 0)], a + b, ["A", ""])
      == Failure(EmptyPropertyName(1))
  {
    TwoValues(a, b);
    assert PropertyError(["A", ""], 0).None?;
    assert FirstPropertyError(["A", ""], 2, 0) == 1;
  }

  /** A header that repeats an earlier one, ignoring letter case, stops the
      line in object mode. */
  lemma RepeatedHeaderStopsObjects(a: string, b: string, h0: string, h1: string)
    requires |a| == 0 || (!IsWhiteSpace(a[0]) && !IsWhiteSpace(a[|a| - 1]))
    requires |b| == 0 || (!IsWhiteSpace(b[0]) && !IsWhiteSpace(b[|b| - 1]))
    requires h0 != "" && h1 != "" && EqualsIgnoreCase(h0, h1)
    ensures GetPsObject([ColumnInfo(0, |a|, 0), ColumnInfo(|a|, -1, 0)], a + b, [h0, h1])
      == Failure(DuplicatePropertyName(1, h1))
  {
    TwoValues(a, b);
    assert PropertyError([h0, h1], 0).None?;
    assert NameTaken([h0, h1], 1) by {
      assert EqualsIgnoreCase([h0, h1][0], [h0, h1][1]);
    }
    assert FirstPropertyError([h0, h1], 2, 0) == 1;
  }
}

=== FILE: table_columns.dfy ===
/** Column discovery of ConvertFrom-TextTable (src/code/TextTableParser.cs):
    the per-position white-space census of the analysed lines, its marker
    string, and the two ways of cutting a line into columns, from runs of
    positions that are white space in every line, or from explicit offsets. */
module TableColumns {
  import opened Text

  /** A column: where it starts, how many characters it spans (`-1`: up to
      the end of the line), and how many of those are its leading white-space
      run. */
  datatype ColumnInfo = ColumnInfo(start: int, length: int, spaceLength: int)

  function Max(a: nat, b: nat): nat {
    if a >= b then a else b
  }

  /** The length of the longest line, zero for no lines. */
  function MaxLength(lines: seq<string>): (m: nat)
    ensures forall i | 0 <= i < |lines| :: |lines[i]| <= m
    ensures |lines| == 0 ==> m == 0
    ensures |lines| > 0 ==> exists i | 0 <= i < |lines| :: |lines[i]| == m
    decreases |lines|
  {
    if |lines| == 0 then 0
    else
      var init := lines[..|lines| - 1];
      assert forall i | 0 <= i < |init| :: init[i] == lines[i];
      Max(MaxLength(init), |lines[|lines| - 1]|)
  }

  /** `GetMaxLength`: a running maximum over the lines. */
  method GetMaxLength(lines: seq<string>) returns (maximumLength: nat)
    ensures maximumLength == MaxLength(lines)
  {
    maximumLength := 0;
    var i := 0;
    while i < |lines|
      invariant 0 <= i <= |lines|
      invariant maximumLength == MaxLength(lines[..i])
    {
      assert lines[..i + 1][..i] == lines[..i];
      if |lines[i]| > maximumLength {
        maximumLength := |lines[i]|;
      }
      i := i + 1;
    }
    assert lines[..i] == lines;
  }

  /** Whether `line` has a white-space character at position `p`. */
  predicate SpaceAt(line: string, p: nat) {
    p < |line| && IsWhiteSpace(line[p])
  }

  /** How many of the lines have white space at position `p`. */
  function SpaceCount(lines: seq<string>, p: nat): (c: nat)
    ensures c <= |lines|
    decreases |lines|
  {
    if |lines| == 0 then 0
    else SpaceCount(lines[..|lines| - 1], p) + (if SpaceAt(lines[|lines| - 1], p) then 1 else 0)
  }

  /** The count reaches the number of lines exactly when every line has white
      space there. */
  lemma {:induction false} SpaceCountFull(lines: seq<string>, p: nat)
    ensures SpaceCount(lines, p) == |lines| <==> forall i | 0 <= i < |lines| :: SpaceAt(lines[i], p)
    decreases |lines|
  {
    if |lines| > 0 {
      var init := lines[..|lines| - 1];
      SpaceCountFull(init, p);
      assert forall i | 0 <= i < |init| :: init[i] == lines[i];
    }
  }

  /** The census as a function: one count per position of the longest line. */
  function SpaceArray(lines: seq<string>): (r: seq<nat>)
    ensures |r| == MaxLength(lines)
    ensures forall p | 0 <= p < |r| ::
      (r[p] <= |lines| && (r[p] == |lines| <==> forall i | 0 <= i < |lines| :: SpaceAt(lines[i], p)))
  {
    var r := seq(MaxLength(lines), p requires 0 <= p => SpaceCount(lines, p));
    assert forall p | 0 <= p < |r| :: r[p] == |lines| <==> forall i | 0 <= i < |lines| :: SpaceAt(lines[i], p) by {
      forall p | 0 <= p < |r|
        ensures r[p] == |lines| <==> forall i | 0 <= i < |lines| :: SpaceAt(lines[i], p)
      {
        SpaceCountFull(lines, p);
      }
    }
    r
  }

  /** `AnalyzeColumns`: a zeroed array as long as the longest line, then one
      increment per line and white-space position. */
  method AnalyzeColumns(lines: seq<string>) returns (counts: seq<nat>)
    ensures counts == SpaceArray(lines)
  {
    var n := GetMaxLength(lines);
    counts := seq(n, _ => 0);
    var k := 0;
    while k < |lines|
      invariant 0 <= k <= |lines|
      invariant |counts| == n
      invariant forall p | 0 <= p < n :: counts[p] == SpaceCount(lines[..k], p)
    {
      var line := lines[k];
      var j := 0;
      while j < |line|
        invariant 0 <= j <= |line| <= n
        invariant |counts| == n
        invariant forall p | 0 <= p < n ::
          counts[p] == SpaceCount(lines[..k], p) + (if p < j && SpaceAt(line, p) then 1 else 0)
      {
        if IsWhiteSpace(line[j]) {
          counts := counts[j := counts[j] + 1];
        }
        j := j + 1;
      }
      assert lines[..k + 1][..k] == lines[..k];
      k := k + 1;
    }
    assert lines[..k] == lines;
  }

  /** `GetSpaceRepresentation`: `S` where the count equals `count`, a space
      elsewhere. */
  function SpaceRepresentation(count: int, counts: seq<nat>): (r: string)
    ensures |r| == |counts|
    ensures forall p | 0 <= p < |r| :: (r[p] == 'S' || r[p] == ' ') && (r[p] == 'S' <==> counts[p] == count)
  {
    seq(|counts|, p requires 0 <= p < |counts| => if counts[p] == count then 'S' else ' ')
  }

  /** Over the census of the analysed lines, the marker string shows `S`
      exactly at the positions that are white space in every line. */
  lemma SpaceRepresentationMarksSharedSpace(lines: seq<string>, p: nat)
    requires p < MaxLength(lines)
    ensures SpaceRepresentation(|lines|, SpaceArray(lines))[p] == 'S'
      <==> forall i | 0 <= i < |lines| :: SpaceAt(lines[i], p)
  {
  }

  /** The end of the run of positions whose count equals `count`, from `i`. */
  function SpaceRunEnd(counts: seq<nat>, count: int, i: nat): (j: nat)
    requires i <= |counts|
    ensures i <= j <= |counts|
    ensures forall p | i <= p < j :: counts[p] == count
    ensures j < |counts| ==> counts[j] != count
    decreases |counts| - i
  {
    if i == |counts| || counts[i] != count then i else SpaceRunEnd(counts, count, i + 1)
  }

  /** The end of the run of positions whose count differs from `count`, from `i`. */
  function WordRunEnd(counts: seq<nat>, count: int, i: nat): (j: nat)
    requires i <= |counts|
    ensures i <= j <= |counts|
    ensures forall p | i <= p < j :: counts[p] != count
    ensures j < |counts| ==> counts[j] == count
    decreases |counts| - i
  {
    if i == |counts| || counts[i] == count then i else WordRunEnd(counts, count, i + 1)
  }

  /** Where the column that starts at `i` ends: past its white-space run
      and then past the run of other positions. */
  function NextStart(counts: seq<nat>, count: int, i: nat): (k: nat)
    requires i < |counts|
    ensures i < k <= |counts|
  {
    WordRunEnd(counts, count, SpaceRunEnd(counts, count, i))
  }

  /** The column that starts at `i`; the one that reaches the end reads to
      the end of the line. */
  function HeadColumn(counts: seq<nat>, count: int, i: nat): ColumnInfo
    requires i < |counts|
  {
    var k := NextStart(counts, count, i);
    ColumnInfo(i, if k >= |counts| then -1 else k - i, SpaceRunEnd(counts, count, i) - i)
  }

  /** The columns from position `i` on. */
  function ColumnsFrom(counts: seq<nat>, count: int, i: nat): seq<ColumnInfo>
    requires i <= |counts|
    decreases |counts| - i
  {
    if i == |counts| then []
    else [HeadColumn(counts, count, i)] + ColumnsFrom(counts, count, NextStart(counts, count, i))
  }

  /** `GetColumnList(count, spaceArray)` as a function. */
  function AutoColumns(count: int, counts: seq<nat>): seq<ColumnInfo> {
    ColumnsFrom(counts, count, 0)
  }

  /** Where a column stops on a line of the census length `n`. */
  function ColumnEnd(c: ColumnInfo, n: nat): int {
    if c.length == -1 then n else c.start + c.length
  }

  /** A column is a maximal run of shared-white-space positions followed by a
      maximal run of the other positions. */
  predicate IsRunColumn(counts: seq<nat>, count: int, c: ColumnInfo) {
    var n := |counts|;
    var e := ColumnEnd(c, n);
    && 0 <= c.start && 0 <= c.spaceLength && c.start + c.spaceLength <= e <= n && c.start < e
    && (forall p | c.start <= p < c.start + c.spaceLength :: counts[p] == count)
    && (forall p | c.start + c.spaceLength <= p < e :: counts[p] != count)
    && (c.start + c.spaceLength < n ==> counts[c.start + c.spaceLength] != count)
    && (e < n ==> counts[e] == count)
  }

  /** The column at `i` is a run column that ends where the next begins. */
  lemma HeadColumnFacts(counts: seq<nat>, count: int, i: nat)
    requires i < |counts|
    ensures var c := HeadColumn(counts, count, i);
      var k := NextStart(counts, count, i);
      && c.start == i
      && IsRunColumn(counts, count, c)
      && ColumnEnd(c, |counts|) == k
      && (k == |counts| <==> c.length == -1)
      && (k < |counts| ==> c.length == k - i > 0)
  {
  }

  /** The columns chain across `[i, n)`: the first starts at `i`, each next
      one starts where the previous one ends, every column but the last has
      a positive length, and the last one has length `-1`. */
  lemma {:induction false} ColumnsChain(counts: seq<nat>, count: int, i: nat)
    requires i <= |counts|
    ensures var cs := ColumnsFrom(counts, count, i);
      && (|cs| == 0 <==> i == |counts|)
      && (|cs| > 0 ==> cs[0].start == i && cs[|cs| - 1].length == -1)
      && (forall m | 0 <= m < |cs| - 1 :: cs[m].length > 0 && cs[m + 1].start == cs[m].start + cs[m].length)
    decreases |counts| - i
  {
    if i < |counts| {
      var k := NextStart(counts, count, i);
      var rest := ColumnsFrom(counts, count, k);
      var cs := ColumnsFrom(counts, count, i);
      assert cs == [HeadColumn(counts, count, i)] + rest;
      HeadColumnFacts(counts, count, i);
      ColumnsChain(counts, count, k);
      if |rest| > 0 {
        assert cs[|cs| - 1] == rest[|rest| - 1];
      }
      forall m | 0 <= m < |cs| - 1
        ensures cs[m].length > 0 && cs[m + 1].start == cs[m].start + cs[m].length
      {
        if m > 0 {
          assert cs[m] == rest[m - 1] && cs[m + 1] == rest[m];
        }
      }
    }
  }

  /** Every column from `i` on is a run column. */
  lemma {:induction false} ColumnsAreRuns(counts: seq<nat>, count: int, i: nat)
    requires i <= |counts|
    ensures forall m | 0 <= m < |ColumnsFrom(counts, count, i)| ::
      IsRunColumn(counts, count, ColumnsFrom(counts, count, i)[m])
    decreases |counts| - i
  {
    if i < |counts| {
      var k := NextStart(counts, count, i);
      var rest := ColumnsFrom(counts, count, k);
      var cs := ColumnsFrom(counts, count, i);
      assert cs == [HeadColumn(counts, count, i)] + rest;
      HeadColumnFacts(counts, count, i);
      ColumnsAreRuns(counts, count, k);
      forall m | 0 <= m < |cs| ensures IsRunColumn(counts, count, cs[m]) {
        if m > 0 {
          assert cs[m] == rest[m - 1];
        }
      }
    }
  }

  /** The columns tile `[i, n)` with run columns. */
  lemma ColumnsTile(counts: seq<nat>, count: int, i: nat)
    requires i <= |counts|
    ensures var cs := ColumnsFrom(counts, count, i);
      && (|cs| == 0 <==> i == |counts|)
      && (|cs| > 0 ==> cs[0].start == i && cs[|cs| - 1].length == -1)
      && (forall m | 0 <= m < |cs| - 1 :: cs[m].length > 0 && cs[m + 1].start == cs[m].start + cs[m].length)
      && (forall m | 0 <= m < |cs| :: IsRunColumn(counts, count, cs[m]))
  {
    ColumnsChain(counts, count, i);
    ColumnsAreRuns(counts, count, i);
  }

  /** The automatic `GetColumnList`: for each column, consume the white-space
      run, then the other run, and mark the column that reaches the end with
      `-1`. (The source steps its index back by one before its `for` loop
      steps it forward again; the two cancel.) */
  method GetColumnList(count: int, counts: seq<nat>) returns (columns: seq<ColumnInfo>)
    ensures columns == AutoColumns(count, counts)
  {
    columns := [];
    var i := 0;
    while i < |counts|
      invariant 0 <= i <= |counts|
      invariant columns + ColumnsFrom(counts, count, i) == ColumnsFrom(counts, count, 0)
      decreases |counts| - i
    {
      var column, next := ReadColumn(count, counts, i);
      assert ColumnsFrom(counts, count, i) == [column] + ColumnsFrom(counts, count, next);
      columns := columns + [column];
      i := next;
    }
    assert columns + [] == columns;
  }

  /** One round of the automatic `GetColumnList`: the column that starts at
      `i`, and where the next one starts. */
  method ReadColumn(count: int, counts: seq<nat>, i: nat) returns (column: ColumnInfo, next: nat)
    requires i < |counts|
    ensures column == HeadColumn(counts, count, i)
    ensures next == NextStart(counts, count, i) && i < next <= |counts|
  {
    var start := i;
    var j := i;
    var length := 0;
    var spaceLength := 0;
    while j < |counts| && counts[j] == count
      invariant start <= j <= |counts|
      invariant length == spaceLength == j - start
      invariant SpaceRunEnd(counts, count, j) == SpaceRunEnd(counts, count, start)
    {
      spaceLength := spaceLength + 1;
      length := length + 1;
      j := j + 1;
    }
    var wordStart := j;
    while j < |counts| && counts[j] != count
      invariant wordStart <= j <= |counts|
      invariant length == j - start
      invariant WordRunEnd(counts, count, j) == WordRunEnd(counts, count, wordStart)
    {
      length := length + 1;
      j := j + 1;
    }
    if start + length >= |counts| {
      length := -1;
    }
    column := ColumnInfo(start, length, spaceLength);
    next := j;
  }

  /** `GetColumnList(offsets)`: one column per offset, each reaching to the
      next offset, the last one to the end of the line. */
  function OffsetColumns(offsets: seq<int>): (cs: seq<ColumnInfo>)
    ensures |cs| == |offsets|
    ensures forall i | 0 <= i < |cs| :: cs[i].start == offsets[i] && cs[i].spaceLength == 0
    ensures forall i | 0 <= i < |cs| - 1 :: cs[i].start + cs[i].length == cs[i + 1].start
    ensures |cs| > 0 ==> cs[|cs| - 1].length == -1
  {
    var cs := seq(|offsets|, i requires 0 <= i < |offsets| =>
      ColumnInfo(offsets[i], if i + 1 < |offsets| then offsets[i + 1] - offsets[i] else -1, 0));
    assert forall i | 0 <= i < |cs| - 1 :: cs[i].start + cs[i].length == cs[i + 1].start by {
      forall i | 0 <= i < |cs| - 1 ensures cs[i].start + cs[i].length == cs[i + 1].start {
        assert cs[i].length == offsets[i + 1] - offsets[i];
        assert cs[i + 1].start == offsets[i + 1];
      }
    }
    cs
  }

  /** With strictly increasing offsets every column but the last has a
      positive length. */
  lemma OffsetColumnsPositive(offsets: seq<int>)
    requires forall i | 0 <= i < |offsets| - 1 :: offsets[i] < offsets[i + 1]
    ensures forall i | 0 <= i < |offsets| - 1 :: OffsetColumns(offsets)[i].length > 0
  {
  }

  /** Offsets out of order give negative lengths, and one step back by exactly
      one position makes a middle column read to the end of the line. */
  lemma OffsetsOutOfOrder()
    ensures OffsetColumns([5, 2])[0].length == -3
    ensures OffsetColumns([5, 4, 9])[0].length == -1
  {
  }
}

=== FILE: table_convert.dfy ===
/** The two things ConvertFrom-TextTable does with collected lines
    (src/code/TextTableParser.cs): `AnalyzeLines`, which works out the
    columns and their names, and `Emit`, which turns one line into a JSON
    text or an object. */
module TableConvert {
  import opened Wrappers
  import opened Text
  import opened TableColumns
  import opened TableCells

  /** The parameters of the cmdlet the model consults. `-MaximumWidth`,
      `-TypeName` and `-ConvertPropertyValue` do not change which lines are
      converted or how they are cut. JSON string escaping is `escape`. */
  datatype Params = Params(
    analyzeRowCount: int,
    skip: int,
    noHeader: bool,
    asJson: bool,
    columnOffset: Option<seq<int>>,
    headerLine: int,
    escape: string -> string)

  /** `ColumnInfoList` and `columnHeaders`. */
  datatype Layout = Layout(columns: seq<ColumnInfo>, headers: seq<string>)

  /** What one line turns into: a JSON text, an object's properties in
      column order, or the non-terminating "No column info" error record. */
  datatype Output = Json(text: string) | Object(properties: seq<(string, string)>) | NoColumnInfo

  /** `Emit`: one line converted with the layout, or the error record when
      no layout was worked out. */
  function Emit(layout: Option<Layout>, line: string, p: Params): Result<Output, TableError> {
    match layout
    case None => Success(NoColumnInfo)
    case Some(Layout(cs, headers)) =>
      if p.asJson then
        var text :- GetJson(cs, line, headers, p.escape);
        Success(Json(text))
      else
        var properties :- GetPsObject(cs, line, headers);
        Success(Object(properties))
  }

  /** A line converts exactly when every column fits it and has a name, and,
      for an object, every name is non-empty and new; the first column that
      does not fit, or else the first unusable name, is the exception.
      Objects carry one property per column, named by the header and holding
      the trimmed cell. */
  lemma EmitContract(layout: Option<Layout>, line: string, p: Params)
    ensures var r := Emit(layout, line, p);
      && (layout.None? ==> r == Success(NoColumnInfo))
      && (layout.Some? ==>
            var cs := layout.value.columns;
            && (p.asJson ==>
                  (r.Success? <==> ColumnValues(cs, line).Success? && |cs| <= |layout.value.headers|))
            && (!p.asJson ==>
                  (r.Success? <==>
                     (ColumnValues(cs, line).Success? &&
                      forall i | 0 <= i < |cs| :: PropertyError(layout.value.headers, i).None?)))
            && (ColumnValues(cs, line).Failure? ==> r == Failure(ColumnValues(cs, line).error))
            && (!p.asJson && ColumnValues(cs, line).Success? && r.Failure? ==>
                  r.error == PropertyError(layout.value.headers, FirstPropertyError(layout.value.headers, |cs|, 0)).value)
            && (r.Success? && p.asJson ==>
                  r.value == Json(GetJson(cs, line, layout.value.headers, p.escape).value))
            && (r.Success? && !p.asJson ==>
                  && r.value.Object?
                  && |r.value.properties| == |cs|
                  && forall i | 0 <= i < |cs| ::
                       r.value.properties[i] == (layout.value.headers[i], ColumnValues(cs, line).value[i])))
  {
  }

  /** The columns of the analysed lines: from `-ColumnOffset` when given,
      from the white-space census of those lines otherwise. */
  function Columns(lines: seq<string>, p: Params): seq<ColumnInfo> {
    match p.columnOffset
    case Some(offsets) => OffsetColumns(offsets)
    case None => AutoColumns(|lines|, SpaceArray(lines))
  }

  /** The outcome of `AnalyzeLines`: the layout, and the collected lines
      still to be converted. */
  datatype Analysis = Analysis(layout: Option<Layout>, rest: seq<string>)

  /** `List.RemoveAt`: the lines without the one at `h`. */
  function RemoveAt(lines: seq<string>, h: nat): (r: seq<string>)
    requires h < |lines|
    ensures |r| == |lines| - 1
    ensures forall i | 0 <= i < |r| :: r[i] == if i < h then lines[i] else lines[i + 1]
  {
    lines[..h] + lines[h + 1..]
  }

  /** `AnalyzeLines`: the layout of the collected lines and the lines that
      remain to be converted. Without `-NoHeader` the line at `-HeaderLine`
      names the columns and is removed; with it, the columns are numbered.
      Nothing is worked out for no lines. */
  function AnalyzeLines(lines: seq<string>, p: Params): Result<Analysis, TableError> {
    if |lines| == 0 then Success(Analysis(None, lines))
    else
      var columns := Columns(lines, p);
      if p.noHeader then
        Success(Analysis(Some(Layout(columns, PropertyNames(|columns|))), lines))
      else if !(0 <= p.headerLine < |lines|) then
        Failure(HeaderLineOutOfRange(p.headerLine, |lines|))
      else
        var headers :- HeaderNames(columns, lines[p.headerLine]);
        Success(Analysis(Some(Layout(columns, headers)), RemoveAt(lines, p.headerLine)))
  }

  /** The layout names every column. The header line must exist and every
      column must fit it; it is the only line removed. With `-NoHeader`
      every line is data. */
  lemma AnalyzeLinesContract(lines: seq<string>, p: Params)
    ensures var r := AnalyzeLines(lines, p);
      && (|lines| == 0 ==> r == Success(Analysis(None, lines)))
      && (r.Success? && |lines| > 0 ==>
            && r.value.layout.Some?
            && r.value.layout.value.columns == Columns(lines, p)
            && |r.value.layout.value.headers| == |r.value.layout.value.columns|)
      && (p.noHeader && |lines| > 0 ==>
            && r.Success?
            && r.value.rest == lines
            && r.value.layout.value.headers == PropertyNames(|Columns(lines, p)|))
      && (!p.noHeader && |lines| > 0 ==>
            && (r.Success? <==>
                  (0 <= p.headerLine < |lines| && HeaderNames(Columns(lines, p), lines[p.headerLine]).Success?))
            && (!(0 <= p.headerLine < |lines|) ==> r == Failure(HeaderLineOutOfRange(p.headerLine, |lines|)))
            && (r.Success? ==>
                  && r.value.layout.value.headers == HeaderNames(Columns(lines, p), lines[p.headerLine]).value
                  && r.value.rest == RemoveAt(lines, p.headerLine)))
  {
  }

  /** With the layout worked out from the lines, every line of a table
      whose header is as wide as its widest line converts: each column of
      the census fits every line at least as long as the header. */
  lemma HeaderFitsAutoColumns(lines: seq<string>, p: Params)
    requires |lines| > 0 && p.columnOffset.None? && !p.noHeader
    requires 0 <= p.headerLine < |lines| && |lines[p.headerLine]| == MaxLength(lines)
    ensures AnalyzeLines(lines, p).Success?
  {
    var counts := SpaceArray(lines);
    var header := lines[p.headerLine];
    CellsTileLine(counts, |lines|, 0, header);
    AnalyzeLinesContract(lines, p);
  }
}

=== FILE: text.dfy ===
/** String and byte helpers shared by the cmdlets: .NET's `char.IsWhiteSpace`
    and `String.Trim`, `String.Join`, ordinal case-insensitive comparison and
    the two-digit number format `{0:00}`. */
module Text {

  newtype byte = x: int | 0 <= x < 256

  /** The characters `char.IsWhiteSpace` accepts: the Unicode space separators,
      line and paragraph separators, and the control characters U+0009..U+000D
      and U+0085. */
  predicate IsWhiteSpace(c: char) {
    || ('\U{9}' <= c <= '\U{D}')
    || c == ' '
    || c == '\U{85}'
    || c == '\U{A0}'
    || c == '\U{1680}'
    || ('\U{2000}' <= c <= '\U{200A}')
    || c == '\U{2028}'
    || c == '\U{2029}'
    || c == '\U{202F}'
    || c == '\U{205F}'
    || c == '\U{3000}'
  }

  predicate AllWhiteSpace(s: string) {
    forall k | 0 <= k < |s| :: IsWhiteSpace(s[k])
  }

  /** Where the white space that starts at `i` ends. */
  function SpaceEnd(s: string, i: nat): (n: nat)
    requires i <= |s|
    ensures i <= n <= |s|
    ensures forall k | i <= k < n :: IsWhiteSpace(s[k])
    ensures n == |s| || !IsWhiteSpace(s[n])
    decreases |s| - i
  {
    if i < |s| && IsWhiteSpace(s[i]) then SpaceEnd(s, i + 1) else i
  }

  /** Where the white space that ends at `j` starts. */
  function SpaceStart(s: string, j: nat): (n: nat)
    requires j <= |s|
    ensures n <= j
    ensures forall k | n <= k < j :: IsWhiteSpace(s[k])
    ensures n == 0 || !IsWhiteSpace(s[n - 1])
    decreases j
  {
    if j > 0 && IsWhiteSpace(s[j - 1]) then SpaceStart(s, j - 1) else j
  }

  /** `String.Trim()`: the result is the slice of `s` that starts at the first
      and ends at the last non-white-space character; everything cut off on
      either side is white space. */
  function Trim(s: string): (r: string)
    ensures |r| == 0 || (!IsWhiteSpace(r[0]) && !IsWhiteSpace(r[|r| - 1]))
    ensures var a := SpaceEnd(s, 0);
      && a + |r| <= |s|
      && r == s[a..a + |r|]
      && (forall k | 0 <= k < a :: IsWhiteSpace(s[k]))
      && (forall k | a + |r| <= k < |s| :: IsWhiteSpace(s[k]))
  {
    var a := SpaceEnd(s, 0);
    var b := SpaceStart(s, |s|);
    if b <= a then s[a..a] else s[a..b]
  }

  /** A string whose ends are not white space is its own trim. */
  lemma TrimUnchanged(s: string)
    requires |s| == 0 || (!IsWhiteSpace(s[0]) && !IsWhiteSpace(s[|s| - 1]))
    ensures Trim(s) == s
  {
    assert SpaceEnd(s, 0) == 0;
    assert SpaceStart(s, |s|) == |s|;
    assert s[0..|s|] == s;
  }

  /** `String.Join(sep, xs)`. */
  function Join(xs: seq<string>, sep: string): string
    decreases |xs|
  {
    if |xs| == 0 then ""
    else if |xs| == 1 then xs[0]
    else xs[0] + sep + Join(xs[1..], sep)
  }

  /** Appending one more element adds exactly one separator. */
  lemma {:induction false} JoinSnoc(xs: seq<string>, x: string, sep: string)
    requires |xs| > 0
    ensures Join(xs + [x], sep) == Join(xs, sep) + sep + x
    decreases |xs|
  {
    if |xs| == 1 {
      assert (xs + [x])[1..] == [x];
    } else {
      assert (xs + [x])[1..] == xs[1..] + [x];
      JoinSnoc(xs[1..], x, sep);
    }
  }

  /** Simple ASCII case fold, as ordinal ignore-case comparison applies to the
      ASCII letters. */
  function ToLowerAscii(c: char): (r: char)
    ensures 'A' <= c <= 'Z' ==> r as int == c as int + 32
    ensures !('A' <= c <= 'Z') ==> r == c
  {
    if 'A' <= c <= 'Z' then (c as int + 32) as char else c
  }

  predicate EqualsIgnoreCase(a: string, b: string) {
    |a| == |b| && forall i | 0 <= i < |a| :: ToLowerAscii(a[i]) == ToLowerAscii(b[i])
  }

  predicate StartsWithIgnoreCase(s: string, prefix: string) {
    |prefix| <= |s| && EqualsIgnoreCase(s[..|prefix|], prefix)
  }

  function DigitChar(d: nat): (c: char)
    requires d < 10
    ensures '0' <= c <= '9'
  {
    ('0' as int + d) as char
  }

  /** Decimal representation of a natural number, without leading zeros. */
  function NatToString(n: nat): (r: string)
    ensures |r| >= 1
    ensures forall k | 0 <= k < |r| :: '0' <= r[k] <= '9'
    ensures n < 10 ==> |r| == 1
    ensures 10 <= n < 100 ==> |r| == 2
    ensures n >= 10 ==> |r| >= 2
    ensures DigitsValue(r) == n
    decreases n
  {
    if n < 10 then [DigitChar(n)] else NatToString(n / 10) + [DigitChar(n % 10)]
  }

  /** The number a string of decimal digits denotes. */
  function DigitsValue(s: string): int
    decreases |s|
  {
    if |s| == 0 then 0 else DigitsValue(s[..|s| - 1]) * 10 + (s[|s| - 1] as int - '0' as int)
  }

  /** The .NET custom format `{0:00}`: at least two digits, zero-padded. */
  function TwoDigits(n: nat): (r: string)
    ensures |r| >= 2
    ensures n < 10 ==> r == ['0', DigitChar(n)]
    ensures n < 100 ==> |r| == 2
    ensures forall k | 0 <= k < |r| :: '0' <= r[k] <= '9'
    ensures DigitsValue(r) == n
  {
    if n < 10 then "0" + NatToString(n) else NatToString(n)
  }
}

=== FILE: text_table.dfy ===
/** The record-at-a-time driver of ConvertFrom-TextTable
    (src/code/TextTableParser.cs): which lines are kept, when the layout is
    worked out, and what is written for each line afterwards.

    The cmdlet streams. With `-AnalyzeRowCount n` it works out the layout as
    soon as `n + 1` lines are kept and from then on converts each line as it
    arrives. With the default of zero it keeps everything and works out the
    layout at the end. `Expected` says the same without the streaming, and
    `RunIsExpected` proves the two agree on every input. An exception
    (`Substring` or an index out of range) ends the pipeline; it is the
    `error` of the outcome, and nothing is processed after it.

    The driver is written over the two operations it calls, so that the
    agreement holds whatever they compute; `Cmdlet` supplies the real
    ones. */
module TextTable {
  import opened Wrappers
  import opened TableCells
  import opened TableConvert

  /** The analysis of the collected lines and the conversion of one line. */
  datatype Ops = Ops(
    analyze: seq<string> -> Result<Analysis, TableError>,
    emit: (Option<Layout>, string) -> Result<Output, TableError>)

  /** `AnalyzeLines` and `Emit` with the cmdlet's parameters. */
  function Cmdlet(p: Params): Ops {
    Ops(lines => AnalyzeLines(lines, p), (layout, line) => Emit(layout, line, p))
  }

  /** What a sequence of `Emit` calls wrote, and the exception that stopped
      them, if any. */
  datatype Emitted = Emitted(outputs: seq<Output>, error: Option<TableError>)

  /** The outputs of the conversions up to the first one that threw, and
      that exception. */
  function Halt(results: seq<Result<Output, TableError>>): (r: Emitted)
    ensures |r.outputs| <= |results|
    ensures r.error.None? ==> |r.outputs| == |results|
    decreases |results|
  {
    if |results| == 0 then Emitted([], None)
    else if results[0].Failure? then Emitted([], Some(results[0].error))
    else
      var rest := Halt(results[1..]);
      Emitted([results[0].value] + rest.outputs, rest.error)
  }

  /** Every output is a successful conversion, in order, and the exception
      is the first failed one. */
  lemma {:induction false} HaltContract(results: seq<Result<Output, TableError>>)
    ensures var r := Halt(results);
      && (forall i | 0 <= i < |r.outputs| :: results[i] == Success(r.outputs[i]))
      && (r.error.Some? ==> |r.outputs| < |results| && results[|r.outputs|] == Failure(r.error.value))
    decreases |results|
  {
    if |results| > 0 && results[0].Success? {
      HaltContract(results[1..]);
      var rest := Halt(results[1..]);
      assert forall i | 1 <= i <= |rest.outputs| && i < |results| :: results[i] == results[1..][i - 1];
    }
  }

  /** Two batches one after the other; a batch that stopped stops
      everything after it. */
  lemma {:induction false} HaltAppend(xs: seq<Result<Output, TableError>>, ys: seq<Result<Output, TableError>>)
    ensures var a := Halt(xs);
      var b := Halt(ys);
      Halt(xs + ys) == if a.error.Some? then a else Emitted(a.outputs + b.outputs, b.error)
    decreases |xs|
  {
    if |xs| == 0 {
      assert xs + ys == ys;
      assert [] + Halt(ys).outputs == Halt(ys).outputs;
    } else {
      assert (xs + ys)[0] == xs[0];
      assert (xs + ys)[1..] == xs[1..] + ys;
      HaltAppend(xs[1..], ys);
      if xs[0].Success? {
        var a' := Halt(xs[1..]);
        var b := Halt(ys);
        if a'.error.None? {
          assert [xs[0].value] + (a'.outputs + b.outputs) == ([xs[0].value] + a'.outputs) + b.outputs;
        }
      }
    }
  }

  /** Each line converted on its own. */
  function Converted(ops: Ops, layout: Option<Layout>, lines: seq<string>): (r: seq<Result<Output, TableError>>)
    ensures |r| == |lines| && forall i | 0 <= i < |lines| :: r[i] == ops.emit(layout, lines[i])
  {
    seq(|lines|, i requires 0 <= i < |lines| => ops.emit(layout, lines[i]))
  }

  /** `Emit` for each line in order, stopping at the first exception. */
  function EmitAll(ops: Ops, layout: Option<Layout>, lines: seq<string>): Emitted {
    Halt(Converted(ops, layout, lines))
  }

  /** Each output is its line's conversion, in order, and an exception
      names the first line that did not convert. */
  lemma EmitAllContract(ops: Ops, layout: Option<Layout>, lines: seq<string>)
    ensures var r := EmitAll(ops, layout, lines);
      && |r.outputs| <= |lines|
      && (r.error.None? ==> |r.outputs| == |lines|)
      && (forall i | 0 <= i < |r.outputs| :: ops.emit(layout, lines[i]) == Success(r.outputs[i]))
      && (r.error.Some? ==> |r.outputs| < |lines| && ops.emit(layout, lines[|r.outputs|]) == Failure(r.error.value))
  {
    HaltContract(Converted(ops, layout, lines));
  }

  /** Emitting two batches one after the other is emitting their
      concatenation. */
  lemma EmitAllAppend(ops: Ops, layout: Option<Layout>, xs: seq<string>, ys: seq<string>)
    ensures var a := EmitAll(ops, layout, xs);
      var b := EmitAll(ops, layout, ys);
      EmitAll(ops, layout, xs + ys) == if a.error.Some? then a else Emitted(a.outputs + b.outputs, b.error)
  {
    var cx, cy := Converted(ops, layout, xs), Converted(ops, layout, ys);
    assert Converted(ops, layout, xs + ys) == cx + cy;
    HaltAppend(cx, cy);
  }

  /** The fields of the cmdlet object between records: the kept lines, the
      count of non-empty lines seen (`SkippedLines`), whether the layout has
      been worked out, and the layout. */
  datatype State = State(lines: seq<string>, seen: nat, analyzed: bool, layout: Option<Layout>)

  /** The state and everything written so far. */
  datatype Progress = Progress(state: State, emitted: seq<Output>, error: Option<TableError>)

  const Start: Progress := Progress(State([], 0, false, None), [], None)

  /** Record what a batch of `Emit` calls wrote. */
  function Record(pr: Progress, e: Emitted): Progress {
    pr.(emitted := pr.emitted + e.outputs, error := e.error)
  }

  /** One turn of the loop in `ProcessRecord`, for one line. */
  function Step(ops: Ops, pr: Progress, line: string, p: Params): Progress {
    if pr.error.Some? || line == "" then pr
    else
      var st := pr.state;
      var st1 := st.(lines := if st.seen >= p.skip then st.lines + [line] else st.lines, seen := st.seen + 1);
      if p.analyzeRowCount == 0 then pr.(state := st1)
      else if st.analyzed then Record(pr.(state := st1), EmitAll(ops, st.layout, [line]))
      else if |st1.lines| == 0 || |st1.lines| <= p.analyzeRowCount then pr.(state := st1)
      else
        var r := ops.analyze(st1.lines);
        if r.Failure? then pr.(state := st1, error := Some(r.error))
        else
          var st2 := st1.(lines := [], analyzed := true, layout := r.value.layout);
          Record(pr.(state := st2), EmitAll(ops, r.value.layout, r.value.rest))
  }

  /** `ProcessRecord` for every line of the input, in order. */
  function Feed(ops: Ops, input: seq<string>, p: Params): Progress
    decreases |input|
  {
    if |input| == 0 then Start
    else Step(ops, Feed(ops, input[..|input| - 1], p), input[|input| - 1], p)
  }

  /** `EndProcessing`: lines collected but never analysed are analysed and
      converted now. */
  function Finish(ops: Ops, pr: Progress, p: Params): Progress {
    if pr.error.Some? || |pr.state.lines| == 0 || pr.state.analyzed then pr
    else
      var r := ops.analyze(pr.state.lines);
      if r.Failure? then pr.(error := Some(r.error))
      else Record(pr, EmitAll(ops, r.value.layout, r.value.rest))
  }

  /** Every record, then `EndProcessing`. */
  function RunWith(ops: Ops, input: seq<string>, p: Params): Emitted {
    var pr := Finish(ops, Feed(ops, input, p), p);
    Emitted(pr.emitted, pr.error)
  }

  /** The whole command. */
  function Run(input: seq<string>, p: Params): Emitted {
    RunWith(Cmdlet(p), input, p)
  }

  // The same behaviour without the streaming.

  /** The non-empty lines of the input, in order. */
  function NonEmpty(input: seq<string>): (r: seq<string>)
    ensures |r| <= |input|
    ensures forall i | 0 <= i < |r| :: r[i] != ""
    decreases |input|
  {
    if |input| == 0 then []
    else NonEmpty(input[..|input| - 1]) + (if input[|input| - 1] == "" then [] else [input[|input| - 1]])
  }

  /** How many lines `-Skip` drops from `n`. */
  function Dropped(skip: int, n: nat): (d: nat)
    ensures d <= n
  {
    if skip <= 0 then 0 else if skip >= n then n else skip
  }

  /** The non-empty lines after the first `-Skip` of them. */
  function Kept(input: seq<string>, skip: int): seq<string> {
    var ne := NonEmpty(input);
    ne[Dropped(skip, |ne|)..]
  }

  /** Whether the kept lines are enough for the layout to be worked out
      before the end of the input. */
  predicate Triggered(kept: seq<string>, analyzeRowCount: int) {
    analyzeRowCount != 0 && |kept| > 0 && |kept| > analyzeRowCount
  }

  /** How many kept lines the early analysis sees: one more than
      `-AnalyzeRowCount`, and one when the count is negative. */
  function WindowSize(analyzeRowCount: int): (w: nat)
    ensures w >= 1
  {
    if analyzeRowCount < 0 then 1 else analyzeRowCount + 1
  }

  /** How many kept lines the layout is worked out from. */
  function Window(kept: seq<string>, analyzeRowCount: int): (w: nat)
    ensures w <= |kept|
  {
    if Triggered(kept, analyzeRowCount) then WindowSize(analyzeRowCount) else |kept|
  }

  /** What the command writes: the layout comes from the first
      `WindowSize` kept lines when there are more than `-AnalyzeRowCount`
      of them and the count is not zero, from all kept lines otherwise; then
      the lines the analysis leaves, and every kept line after the window,
      are converted in order. */
  function ExpectedWith(ops: Ops, input: seq<string>, p: Params): Emitted {
    var kept := Kept(input, p.skip);
    if |kept| == 0 then Emitted([], None)
    else
      var w := Window(kept, p.analyzeRowCount);
      var r := ops.analyze(kept[..w]);
      if r.Failure? then Emitted([], Some(r.error))
      else EmitAll(ops, r.value.layout, r.value.rest + kept[w..])
  }

  function Expected(input: seq<string>, p: Params): Emitted {
    ExpectedWith(Cmdlet(p), input, p)
  }

  /** A line appended to the input is one more non-empty line, unless it is
      empty. */
  lemma NonEmptySnoc(input: seq<string>, line: string)
    ensures NonEmpty(input + [line]) == NonEmpty(input) + (if line == "" then [] else [line])
  {
    assert (input + [line])[..|input|] == input;
  }

  /** The kept lines grow by a non-empty line once `-Skip` lines were
      passed over, and stay as they are otherwise. */
  lemma KeptSnoc(input: seq<string>, line: string, skip: int)
    ensures var ne := NonEmpty(input);
      Kept(input + [line], skip) == if line != "" && |ne| >= skip then Kept(input, skip) + [line] else Kept(input, skip)
  {
    var ne := NonEmpty(input);
    NonEmptySnoc(input, line);
    if line != "" && |ne| >= skip {
      assert Dropped(skip, |ne| + 1) == Dropped(skip, |ne|);
      assert (ne + [line])[Dropped(skip, |ne|)..] == ne[Dropped(skip, |ne|)..] + [line];
    } else if line != "" {
      assert Dropped(skip, |ne| + 1) == |ne| + 1;
    } else {
      assert ne + [] == ne;
    }
  }

  /** What `Feed` has done after a prefix of the input, in terms of the
      kept lines of that prefix. */
  predicate FeedInvariant(ops: Ops, pr: Progress, input: seq<string>, p: Params) {
    var kept := Kept(input, p.skip);
    if !Triggered(kept, p.analyzeRowCount) then
      pr == Progress(State(kept, |NonEmpty(input)|, false, None), [], None)
    else
      var w := WindowSize(p.analyzeRowCount);
      && w <= |kept|
      && (pr.error.None? ==> pr.state.analyzed && pr.state.seen == |NonEmpty(input)|)
      && var r := ops.analyze(kept[..w]);
         if r.Failure? then pr.emitted == [] && pr.error == Some(r.error)
         else
           && (pr.error.None? ==> pr.state.layout == r.value.layout)
           && Emitted(pr.emitted, pr.error) == EmitAll(ops, r.value.layout, r.value.rest + kept[w..])
  }

  /** The line that triggers the analysis makes the kept lines exactly the
      window. */
  lemma TriggerIsWindow(kept: seq<string>, line: string, arc: int)
    requires !Triggered(kept, arc) && Triggered(kept + [line], arc)
    ensures |kept + [line]| == WindowSize(arc)
  {
  }

  /** A step taken after the analysis keeps the invariant. */
  lemma StepAfterAnalysis(ops: Ops, pr: Progress, input: seq<string>, line: string, p: Params)
    requires FeedInvariant(ops, pr, input, p)
    requires Triggered(Kept(input, p.skip), p.analyzeRowCount)
    requires line != ""
    ensures FeedInvariant(ops, Step(ops, pr, line, p), input + [line], p)
  {
    var kept := Kept(input, p.skip);
    var w := WindowSize(p.analyzeRowCount);
    KeptSnoc(input, line, p.skip);
    NonEmptySnoc(input, line);
    var kept' := kept + [line];
    assert Kept(input + [line], p.skip) == kept';
    assert kept'[..w] == kept[..w];
    var r := ops.analyze(kept[..w]);
    if r.Success? {
      var before := r.value.rest + kept[w..];
      assert r.value.rest + kept'[w..] == before + [line];
      EmitAllAppend(ops, r.value.layout, before, [line]);
    }
  }

  /** The step that fills the window analyses the collected lines and
      converts what the analysis leaves. */
  lemma StepFillsWindow(ops: Ops, lines: seq<string>, seen: nat, line: string, p: Params)
    requires line != "" && seen >= p.skip
    requires p.analyzeRowCount != 0 && |lines| + 1 > p.analyzeRowCount
    ensures var pr' := Step(ops, Progress(State(lines, seen, false, None), [], None), line, p);
      var r := ops.analyze(lines + [line]);
      && pr'.state.seen == seen + 1
      && (r.Failure? ==> pr'.emitted == [] && pr'.error == Some(r.error))
      && (r.Success? ==>
            && (pr'.error.None? ==> pr'.state.analyzed && pr'.state.layout == r.value.layout)
            && Emitted(pr'.emitted, pr'.error) == EmitAll(ops, r.value.layout, r.value.rest))
  {
    var r := ops.analyze(lines + [line]);
    if r.Success? {
      assert [] + EmitAll(ops, r.value.layout, r.value.rest).outputs == EmitAll(ops, r.value.layout, r.value.rest).outputs;
    }
  }

  /** The line that triggers the analysis is kept, and the kept lines are
      then exactly the window. */
  lemma TriggerFacts(input: seq<string>, line: string, p: Params)
    requires !Triggered(Kept(input, p.skip), p.analyzeRowCount)
    requires line != ""
    requires Triggered(Kept(input + [line], p.skip), p.analyzeRowCount)
    ensures Kept(input + [line], p.skip) == Kept(input, p.skip) + [line]
    ensures |NonEmpty(input)| >= p.skip
    ensures |NonEmpty(input + [line])| == |NonEmpty(input)| + 1
    ensures p.analyzeRowCount != 0 && |Kept(input, p.skip)| + 1 > p.analyzeRowCount
    ensures |Kept(input, p.skip)| + 1 == WindowSize(p.analyzeRowCount)
  {
    KeptSnoc(input, line, p.skip);
    NonEmptySnoc(input, line);
    TriggerIsWindow(Kept(input, p.skip), line, p.analyzeRowCount);
  }

  /** The step that triggers the analysis establishes the invariant. */
  lemma StepTriggers(ops: Ops, pr: Progress, input: seq<string>, line: string, p: Params)
    requires FeedInvariant(ops, pr, input, p)
    requires !Triggered(Kept(input, p.skip), p.analyzeRowCount)
    requires line != ""
    requires Triggered(Kept(input + [line], p.skip), p.analyzeRowCount)
    ensures FeedInvariant(ops, Step(ops, pr, line, p), input + [line], p)
  {
    TriggerFacts(input, line, p);
    var kept := Kept(input, p.skip);
    var kept' := kept + [line];
    var w := WindowSize(p.analyzeRowCount);
    assert kept'[..w] == kept' && kept'[w..] == [];
    StepFillsWindow(ops, kept, |NonEmpty(input)|, line, p);
    var r := ops.analyze(kept');
    if r.Success? {
      assert r.value.rest + kept'[w..] == r.value.rest;
    }
  }

  /** Each step keeps the invariant. */
  lemma StepKeepsInvariant(ops: Ops, pr: Progress, input: seq<string>, line: string, p: Params)
    requires FeedInvariant(ops, pr, input, p)
    ensures FeedInvariant(ops, Step(ops, pr, line, p), input + [line], p)
  {
    var kept := Kept(input, p.skip);
    KeptSnoc(input, line, p.skip);
    NonEmptySnoc(input, line);
    if line == "" {
      assert NonEmpty(input) + [] == NonEmpty(input);
    } else if Triggered(kept, p.analyzeRowCount) {
      StepAfterAnalysis(ops, pr, input, line, p);
    } else if Triggered(Kept(input + [line], p.skip), p.analyzeRowCount) {
      StepTriggers(ops, pr, input, line, p);
    }
  }

  /** `Feed` keeps the invariant over the whole input. */
  lemma {:induction false} FeedKeepsInvariant(ops: Ops, input: seq<string>, p: Params)
    ensures FeedInvariant(ops, Feed(ops, input, p), input, p)
    decreases |input|
  {
    if |input| == 0 {
      assert Kept(input, p.skip) == [];
    } else {
      var front := input[..|input| - 1];
      FeedKeepsInvariant(ops, front, p);
      StepKeepsInvariant(ops, Feed(ops, front, p), front, input[|input| - 1], p);
      assert front + [input[|input| - 1]] == input;
    }
  }

  /** The streaming driver writes exactly what `ExpectedWith` describes, on
      every input, with every parameter and for any two operations. */
  lemma RunWithIsExpected(ops: Ops, input: seq<string>, p: Params)
    ensures RunWith(ops, input, p) == ExpectedWith(ops, input, p)
  {
    FeedKeepsInvariant(ops, input, p);
    var kept := Kept(input, p.skip);
    if !Triggered(kept, p.analyzeRowCount) && |kept| > 0 {
      assert kept[..|kept|] == kept && kept[|kept|..] == [];
      var r := ops.analyze(kept);
      if r.Success? {
        var e := EmitAll(ops, r.value.layout, r.value.rest);
        assert r.value.rest + kept[|kept|..] == r.value.rest;
        assert [] + e.outputs == e.outputs;
      }
    }
  }

  /** The command writes exactly what `Expected` describes. */
  lemma RunIsExpected(input: seq<string>, p: Params)
    ensures Run(input, p) == Expected(input, p)
  {
    RunWithIsExpected(Cmdlet(p), input, p);
  }

  /** The layout the command works out, when it works one out. */
  function LayoutOf(input: seq<string>, p: Params): Option<Layout> {
    var kept := Kept(input, p.skip);
    var r := AnalyzeLines(kept[..Window(kept, p.analyzeRowCount)], p);
    if r.Success? then r.value.layout else None
  }

  /** Every kept line but the header is converted, once and in order,
      unless an exception stops the command: with `-NoHeader` the outputs
      are the kept lines' conversions, and otherwise those of the kept lines
      with the line at `-HeaderLine` taken out. */
  lemma EachDataLineOnce(input: seq<string>, p: Params)
    requires Run(input, p).error.None?
    ensures var kept := Kept(input, p.skip);
      var n := |kept|;
      && |Run(input, p).outputs| == (if n == 0 then 0 else if p.noHeader then n else n - 1)
      && (p.noHeader ==>
            forall i | 0 <= i < n :: Emit(LayoutOf(input, p), kept[i], p) == Success(Run(input, p).outputs[i]))
      && (!p.noHeader && n > 0 ==>
            && 0 <= p.headerLine < n
            && forall i | 0 <= i < n - 1 ::
                 Emit(LayoutOf(input, p), RemoveAt(kept, p.headerLine)[i], p) == Success(Run(input, p).outputs[i]))
  {
    RunIsExpected(input, p);
    var kept := Kept(input, p.skip);
    if |kept| > 0 {
      var w := Window(kept, p.analyzeRowCount);
      AnalyzeLinesContract(kept[..w], p);
      var a := AnalyzeLines(kept[..w], p).value;
      WindowData(Cmdlet(p), kept, w, a);
      if !p.noHeader {
        HeaderOutOfWindow(kept, w, p.headerLine);
      }
    }
  }

  /** Taking the header out of the analysed window and appending the lines
      after it is taking the header out of all the lines. */
  lemma HeaderOutOfWindow(kept: seq<string>, w: nat, h: nat)
    requires h < w <= |kept|
    ensures RemoveAt(kept[..w], h) + kept[w..] == RemoveAt(kept, h)
  {
    assert kept[..w][..h] == kept[..h];
    assert kept[..w][h + 1..] + kept[w..] == kept[h + 1..];
  }

  /** Once the first `w` lines were analysed, the outputs are the
      conversions of the lines the analysis leaves and of those after the
      window, in order. */
  lemma WindowData(ops: Ops, kept: seq<string>, w: nat, a: Analysis)
    requires w <= |kept|
    requires EmitAll(ops, a.layout, a.rest + kept[w..]).error.None?
    ensures var data := a.rest + kept[w..];
      var e := EmitAll(ops, a.layout, data);
      && |e.outputs| == |a.rest| + |kept| - w
      && (forall i | 0 <= i < |data| :: ops.emit(a.layout, data[i]) == Success(e.outputs[i]))
      && (a.rest == kept[..w] ==>
            forall i | 0 <= i < |kept| :: ops.emit(a.layout, kept[i]) == Success(e.outputs[i]))
  {
    var data := a.rest + kept[w..];
    EmitAllContract(ops, a.layout, data);
    if a.rest == kept[..w] {
      assert data == kept;
    }
  }

  /** With `-AnalyzeRowCount 0` the layout is worked out from every kept
      line. */
  lemma AnalyzeAllByDefault(input: seq<string>, p: Params)
    requires p.analyzeRowCount == 0
    ensures var r := AnalyzeLines(Kept(input, p.skip), p);
      LayoutOf(input, p) == if r.Success? then r.value.layout else None
  {
    var kept := Kept(input, p.skip);
    assert kept[..|kept|] == kept;
  }

  /** Appending lines only appends to the kept lines. */
  lemma {:induction false} KeptAppend(input: seq<string>, more: seq<string>, skip: int)
    ensures |Kept(input + more, skip)| >= |Kept(input, skip)|
    ensures Kept(input + more, skip)[..|Kept(input, skip)|] == Kept(input, skip)
    decreases |more|
  {
    if |more| == 0 {
      assert input + more == input;
    } else {
      var front := more[..|more| - 1];
      var last := more[|more| - 1];
      KeptAppend(input, front, skip);
      KeptSnoc(input + front, last, skip);
      assert (input + front) + [last] == input + more;
    }
  }

  /** With a positive `-AnalyzeRowCount n` and more than `n` kept lines, the
      layout comes from the first `n + 1` of them only: later lines do not
      change the columns. */
  lemma EarlyLayoutIgnoresLaterLines(input: seq<string>, more: seq<string>, p: Params)
    requires p.analyzeRowCount > 0 && |Kept(input, p.skip)| > p.analyzeRowCount
    ensures LayoutOf(input + more, p) == LayoutOf(input, p)
  {
    KeptAppend(input, more, p.skip);
    var kept, kept' := Kept(input, p.skip), Kept(input + more, p.skip);
    var w := WindowSize(p.analyzeRowCount);
    assert kept'[..w] == kept[..w];
  }
}

=== FILE: wrappers.dfy ===
/** Failure-compatible result types used by every component of the model.
    An exception thrown by the original code becomes a `Failure` here. */
module Wrappers {

  datatype Option<+T> = None | Some(value: T) {
    predicate IsFailure() {
      None?
    }

    function PropagateFailure<U>(): Option<U>
      requires None?
    {
      None
    }

    function Extract(): T
      requires Some?
    {
      value
    }
  }

  datatype Result<+R, +E> = Success(value: R) | Failure(error: E) {
    predicate IsFailure() {
      Failure?
    }

    function PropagateFailure<U>(): Result<U, E>
      requires Failure?
    {
      Failure(error)
    }

    function Extract(): R
      requires Success?
    {
      value
    }
  }
}
